=== FILE: README.md ===
# A verified model of the kunquat core

kunquat is a music tracker: a Python editor (the tracker) in front of a C
audio engine (libkunquat). This project models the parts of both that
hold the program's bookkeeping logic, and proves what each promises.

On the editor side:

- `store.dfy` is the transactional composition store. It holds a
  committed key/value map and a FIFO queue of transactions that were sent
  to the engine but not yet confirmed. Flush barriers draw their ids from
  the same counter. The store also keeps the `saving` and `modified`
  flags. Reads overlay the pending transactions, newest first, on the
  committed map.
- `controller.dfy` models the controller tasks that feed the store:
  - prefix stripping and the random-seed update;
  - module load and save;
  - audio-unit export and import, which assemble one transaction.
- `generatorparams.dfy` is the layered parameter lookup.
- `piano.dfy` maps pitches to channels for the on-screen piano.
- `sampleview.dfy` holds the sample view's zoom and scroll arithmetic.
- `make.dfy` is the build script's dependency-ordered test scheduler.

On the engine side:

- `handle.dfy` covers the key grammar, the handle table, data-access mode
  checks, and JSON escaping of error messages (section 7 of RFC 8259).
- `handle_state.dfy` is the state-directory recovery table.
- `real.dfy` is the fraction-or-double number type, with its binary GCD.
  Its gcd facts are in `gcd.dfy`.
- `math_common.dfy` holds the power-of-two helpers.
- Two parsers:
  - `connections.dfy`, the connection-path parser and acyclic graph;
  - `au_control_vars.dfy`, the control-variable parser and binding iterator.
- The event model:
  - `event.dfy`, fields and their validation;
  - `event_queue.dfy`, the ring-buffer event queue;
  - `event_cache.dfy`, the event value cache;
  - `event_buffer.dfy`, the serialised event list;
  - `event_handler.dfy`, the dispatch tables;
  - `general_state.dfy`, the conditional-execution flags.
- Device bookkeeping:
  - `device.dfy`, the port matrix;
  - `processor.dfy`, the voice feature masks;
  - `device_state.dfy` and `device_thread_state.dfy`, the per-player device states.
- `player.dfy` is the playback mode machine.

Shared modules:

- `wrappers.dfy` has Option and Result.
- `strings.dfy` has Python's split, join and prefix tests.
- `values.dfy` has the engine's tagged value.
- `limits.dfy` has the engine's limits.

Code that changes state in place is modelled as classes. Their fields
are `map`, `seq` or `array`, and their methods are proved against
specification functions. Pure lookups and parsers are functions, with
lemmas about them.

## Model

| member | source | states |
|---|---|---|
| Store.LookupUntouched | kunquat/tracker/ui/controller/store.py:72-81 | a key that no pending transaction mentions is read from the committed content, or raises KeyError when it is not committed |
| Store.LookupNewest | kunquat/tracker/ui/controller/store.py:72-81 | a read answers from the newest pending transaction that mentions the key; a `None` there raises KeyError |
| Store.GetOr | kunquat/tracker/ui/controller/store.py:72-81 | the `get(key, default)` of the mapping: the read value, or the default where the read raises KeyError |
| Store.Scan | kunquat/tracker/ui/controller/store.py:91-99 | the included keys are those some pending transaction sets to a value; the excluded keys are those some pending transaction maps to `None` |
| Store.Lookup | kunquat/tracker/ui/controller/store.py:72-81 | the read `__getitem__` performs; its meaning is stated by Store.LookupNewest and Store.LookupUntouched |
| Store.IterKeysMembership | kunquat/tracker/ui/controller/store.py:91-103 | iteration yields a key iff some pending transaction sets it, or it is committed and no pending transaction tombstones it |
| Store.Commit | kunquat/tracker/ui/controller/store.py:53-56 | after the merge, tombstoned keys are gone, keys set by the transaction hold its values, and every other key is as before |
| Store.CommitHeadPreservesReads | kunquat/tracker/ui/controller/store.py:52-56 | committing the queue head and dropping it from the queue leaves the answer of every read unchanged |
| Store.ReadYourWrites | kunquat/tracker/ui/controller/store.py:72-81 | right after a transaction is queued, every key it mentions reads from it and every other key reads as before |
| Store.IterMatchesReadsWithoutConflicts | kunquat/tracker/ui/controller/store.py:72-103 | when no key is both set and tombstoned by pending transactions, iteration yields exactly the readable keys |
| Store.NewestMention | kunquat/tracker/ui/controller/store.py:74-75 | given a pending transaction that mentions a key, there is a newest one that does, which the reversed scan meets first |
| Store.IterationDisagreesWithReads | kunquat/tracker/ui/controller/store.py:91-106 | iteration and `len` disagree with reads: a key set and then tombstoned by pending transactions is yielded yet raises KeyError, and `len` counts committed keys only |
| Store.Store.constructor | kunquat/tracker/ui/controller/store.py:21-28 | the store starts with no content, no pending transaction, the counter at 0, no flush callback and both flags clear |
| Store.Store.Get | kunquat/tracker/ui/controller/store.py:72-81 | `__getitem__` answers as the read of the pending queue over the content, whose meaning LookupNewest and LookupUntouched state |
| Store.Store.Keys | kunquat/tracker/ui/controller/store.py:91-103 | a key is yielded iff some pending transaction sets it, or it is committed and no pending transaction deletes it |
| Store.Store.Length | kunquat/tracker/ui/controller/store.py:105-106 | `len` is the number of committed keys, whatever is pending |
| Store.Store.Put | kunquat/tracker/ui/controller/store.py:33-39 | takes the next counter value as id, sends (id, transaction) to the engine, appends it to the queue tail and sets `modified` when asked; refused while saving; ids stay strictly increasing and unique |
| Store.Store.Flush | kunquat/tracker/ui/controller/store.py:41-44 | takes the next id from the same counter, sends it with no transaction and registers the callback; the queue, content and flags are unchanged |
| Store.Store.ConfirmValidData | kunquat/tracker/ui/controller/store.py:46-56 | a registered flush id fires its callback once and is unregistered with content and queue unchanged; any other id pops the head, commits it when the ids match and otherwise ends in the failed assertion (or the empty-deque error) |
| Store.Store.SetItem | kunquat/tracker/ui/controller/store.py:83-85 | is exactly `put({key: value})`, after which the key reads as the value |
| Store.Store.DelItem | kunquat/tracker/ui/controller/store.py:87-89 | is exactly `put({key: None})`, after which reading the key raises KeyError |
| Store.Store.SetSaving | kunquat/tracker/ui/controller/store.py:58-59 | sets the saving flag and nothing else |
| Store.Store.ClearModifiedFlag | kunquat/tracker/ui/controller/store.py:64-65 | clears the modified flag and nothing else |
| Store.ApplyTransaction | kunquat/tracker/ui/controller/store.py:53-56 | the item-by-item merge loop yields the committed content Commit describes |
| Store.FlushOvertakesPendingData | kunquat/tracker/ui/controller/store.py:41-50 | a flush confirmed while an earlier put is still pending fires its callback at once and leaves that put queued |
| Controller.RemovePrefix | kunquat/tracker/ui/controller/controller.py:100-107 | the result is the remaining components joined with '/' iff the prefix components are a prefix of the path components; None at the first differing component; IndexError when the path runs out first |
| Controller.RemovePrefixRoundTrip | kunquat/tracker/ui/controller/controller.py:100-107 | stripping a prefix from `prefix + "/" + rest` gives back `rest` |
| Controller.NextSeed | kunquat/tracker/ui/controller/controller.py:394 | the new seed lies in [0, 2^63) and is congruent to the old seed plus one, so it is the successor below the modulus and wraps to 0 at the top |
| Controller.NextSeedNum | kunquat/tracker/ui/controller/controller.py:394 | for a float seed, the result lies in [0, 2^63) and differs from the seed plus one by a whole multiple of 2^63, as Python's float modulo gives |
| Controller.SeedAfter | kunquat/tracker/ui/controller/controller.py:392-394 | the increment succeeds exactly for a bool, int or float seed; an int or bool gives an int in [0, 2^63), a float a float there |
| Controller.BoolSeedCountsAsInt | kunquat/tracker/ui/controller/controller.py:392-394 | a stored `true` seed becomes 2 and `false` becomes 1 |
| Controller.CheckUpdateRandomSeed | kunquat/tracker/ui/controller/controller.py:388-397 | with auto-update on, puts the successor of the stored (or default) seed without marking the module modified; a bool or float seed is incremented as Python does, any other value raises TypeError and a put while saving fails its assertion, and neither puts anything; with auto-update off nothing is put. The seed put is the one engine send and takes one id; otherwise id and engine log stay; the saving flag, flush callbacks and fired callbacks always stay |
| Controller.EntriesMapKeys | kunquat/tracker/ui/controller/controller.py:158-161 | the loaded dictionary holds exactly the keys of the archive entries |
| Controller.EntriesMapLast | kunquat/tracker/ui/controller/controller.py:158-161 | each key of the loaded dictionary holds the value of its last entry |
| Controller.LoadModule | kunquat/tracker/ui/controller/controller.py:157-174 | a read failure is reported before any put; otherwise one put of all entries follows and the modified flag is cleared, and the entries are sent to the engine under the next id; if the store is saving, the put's assertion fails and nothing changes; the saving flag, flush callbacks and fired callbacks always stay |
| Controller.StripPrefix | kunquat/tracker/ui/controller/controller.py:243-251 | every key under the prefix appears without it, holding its value, and nothing else appears |
| Controller.AddPrefix | kunquat/tracker/ui/controller/controller.py:312-314 | every key appears behind the prefix, holding its value, and nothing else appears |
| Controller.StripAddPrefix | kunquat/tracker/ui/controller/controller.py:243-251 | stripping a prefix that was just added gives back the items |
| Controller.AddStripPrefix | kunquat/tracker/ui/controller/controller.py:243-251 | adding the prefix back to the stripped items selects exactly the items under that prefix |
| Controller.UnpackPack | kunquat/tracker/ui/controller/controller.py:206-214 | reading back an archive written entry by entry (`.json` keys encoded, others raw) gives the items written |
| Controller.View | kunquat/tracker/ui/controller/controller.py:204-206 | the store's items are the keys iteration yields that can be read, each with its read value |
| Controller.PackStore | kunquat/tracker/ui/controller/controller.py:204-214 | the archive-writing loop fails iff a yielded key raises on reading; otherwise the archive holds exactly the readable items under the prefix, renamed into the container |
| Controller.SaveModule | kunquat/tracker/ui/controller/controller.py:200-214 | writes every readable store item under `kqtc00/` |
| Controller.ExportAudioUnit | kunquat/tracker/ui/controller/controller.py:240-257 | writes exactly the readable keys under `<au_id>/`, with that prefix replaced by `kqti00/` |
| Controller.ExportImportRoundTrip | kunquat/tracker/ui/controller/controller.py:242-257 | exporting an audio unit and importing the archive under the same id submits exactly the readable items that were under that id |
| Controller.PrefixCommutes | kunquat/tracker/ui/controller/controller.py:312-314 | prefixing keys commutes with turning items into a transaction |
| Controller.SaveLoadRoundTrip | kunquat/tracker/ui/controller/controller.py:200-214 | saving a module and reading the archive back gives the store's readable items |
| Controller.AssembleTransaction | kunquat/tracker/ui/controller/controller.py:309-314 | the import loop puts every archive key under `<au_id>/` with its value |
| Controller.HexDigit | kunquat/tracker/ui/controller/controller.py:320-321 | a character has a hexadecimal value iff it is a digit or a letter a-f or A-F, and the value is below 16 |
| Controller.HexValue | kunquat/tracker/ui/controller/controller.py:320-321 | succeeds iff the text is a non-empty run of hexadecimal digits, and the value fits in that many digits (the ids the editor generates; see Left out for what else `int(s, 16)` accepts) |
| Controller.TwoDigitIndex | kunquat/tracker/ui/controller/controller.py:320-321 | two lower-case digits read as 16 * first + second, below 0x100 |
| Controller.CollectOutPorts | kunquat/tracker/ui/controller/controller.py:339-346 | collects, sorted, the port names of exactly the keys `<au_id>/out_XX/p_manifest.json` that are not `None` |
| Controller.Pairs | kunquat/tracker/ui/controller/controller.py:352-353 | pairs the i-th instrument port, under the sub-unit id, with the i-th parent port |
| Controller.AppendConnections | kunquat/tracker/ui/controller/controller.py:351-354 | the loop appends the zipped pairs behind the existing connections |
| Controller.ImportPreservesContents | kunquat/tracker/ui/controller/controller.py:309-354 | an import writes only under `<au_id>/` plus the control map, the control manifest and the connections, and keeps every imported file not overwritten by those |
| Controller.NonInstrumentImport | kunquat/tracker/ui/controller/controller.py:316-317 | importing something other than an instrument submits exactly the prefixed contents |
| Controller.ConnectionsAppended | kunquat/tracker/ui/controller/controller.py:348-354 | when the port lists are non-empty and equally long, one connection per zipped pair is appended to the stored connections, which stay first; nothing else changes |
| Controller.BuildImport | kunquat/tracker/ui/controller/controller.py:309-354 | builds the transaction the import defines, with the instrument's sorted out ports |
| Controller.AddControl | kunquat/tracker/ui/controller/controller.py:318-327 | the control-map step of an import: appends `[control_num, au_num]` and adds an empty control manifest for a top-level unit with a control id |
| Controller.AddConnections | kunquat/tracker/ui/controller/controller.py:329-354 | the connection step of an import, as the import defines it |
| Controller.LoadAudioUnit | kunquat/tracker/ui/controller/controller.py:280-372 | a read or validation failure is reported before any put; otherwise the built transaction goes out in one put that marks the module modified, unless the store is saving, where the put's assertion fails and nothing is put; for an instrument, the returned ports are exactly the instrument's own `out_XX` ports, sorted, which are zipped with the parent's ports into the appended connections |
| GeneratorParams.ParamKey | kunquat/tracker/ui/model/generatorparams.py:22-24 | the key is the prefix, then the layer `i/` or `c/`, then the subkey; any other layer fails the assertion (a precondition) |
| GeneratorParams.ParamKeyInjective | kunquat/tracker/ui/model/generatorparams.py:22-24 | two keys under one prefix are equal iff their layers and subkeys are, so the two layers never alias |
| GeneratorParams.LayeredValue | kunquat/tracker/ui/model/generatorparams.py:28-38 | the `c/` value when it can be read; otherwise the `i/` value when it can be read; otherwise the default |
| GeneratorParams.ConfOverrides | kunquat/tracker/ui/model/generatorparams.py:28-33 | a `c/` value written last is the value read, whatever lies underneath |
| GeneratorParams.ClearedConfFallsBack | kunquat/tracker/ui/model/generatorparams.py:34-38 | after `None` is written to the `c/` key, the read falls back to the `i/` layer or the default |
| GeneratorParams.GeneratorParams.constructor | kunquat/tracker/ui/model/generatorparams.py:17-20 | the key prefix is `<ins_id>/<gen_id>/` |
| GeneratorParams.GeneratorParams.GetValue | kunquat/tracker/ui/model/generatorparams.py:28-38 | the readable `c/` value if there is one, else the readable `i/` value, else the default |
| GeneratorParams.GeneratorParams.SetValue | kunquat/tracker/ui/model/generatorparams.py:40-42 | one store put of the `c/` key, sent to the engine and marking the module modified; content, flush callbacks, the saving flag and fired callbacks stay |
| Piano.ChannelAfter | kunquat/tracker/piano.py:9 | the channel cycle hands out channels round-robin: n steps on from c is (c + n) mod COLUMNS_MAX |
| Piano.Piano.constructor | kunquat/tracker/piano.py:6-10 | nothing is pressed, the cycle starts at channel 0 and the instrument is 0 |
| Piano.Piano.Press | kunquat/tracker/piano.py:12-20 | the cycle always advances; an already pressed pitch sends nothing and keeps the map; a fresh pitch is recorded with its channel and sends `.i` then `n+` on it |
| Piano.Piano.Release | kunquat/tracker/piano.py:24-30 | an unpressed pitch does nothing; a pressed one is removed and `n-` goes to the channel recorded at press time |
| Piano.PressTwiceThenRelease | kunquat/tracker/piano.py:12-30 | a note pressed twice and released is stopped on the channel it started on, while the repeated press still consumed a channel |
| SampleView.ZoomInRange | kunquat/tracker/ui/views/processor/sampleview.py:93-105 | each side shrinks by (width - 1) // 4; when that would leave fewer than 8 frames, the total shrink width - 8 is split floor left and ceil right, so exactly 8 frames stay; a range of 8 or more only narrows |
| SampleView.ZoomOutRange | kunquat/tracker/ui/views/processor/sampleview.py:107-125 | each side widens by (width - 1) // 2; the range is then shifted to start at 0 if it starts before the sample, or else to end at the length if it ends after it |
| SampleView.ZoomOutWidens | kunquat/tracker/ui/views/processor/sampleview.py:107-125 | zooming out a non-empty range never narrows it and at most about doubles it |
| SampleView.ZoomOutEmptyRangeIsRefused | kunquat/tracker/ui/views/processor/sampleview.py:107-128 | on an empty range, such as that of a sample of length 0, zoom_out builds a range that `set_range` refuses |
| SampleView.ZoomInAccepted | kunquat/tracker/ui/views/processor/sampleview.py:93-105 | zoom_in never trips the `start < stop` assertion, whatever the current range |
| SampleView.Clamp | kunquat/tracker/ui/views/processor/sampleview.py:129-130 | the range is cut to [0, length] and is unchanged when it already lies inside |
| SampleView.Canvas.constructor | kunquat/tracker/ui/views/processor/sampleview.py:174-179 | the canvas starts with length 0 and range (0, 0) |
| SampleView.Canvas.SetLength | kunquat/tracker/ui/views/processor/sampleview.py:187-189 | the range becomes the whole sample |
| SampleView.Canvas.SetRange | kunquat/tracker/ui/views/processor/sampleview.py:195-196 | stores the range as given |
| SampleView.Canvas.SetPosition | kunquat/tracker/ui/views/processor/sampleview.py:202-209 | succeeds iff the moved range stays within [0, length]; it then starts at pos with the same width, and otherwise nothing is stored |
| SampleView.UpdatedScrollBar | kunquat/tracker/ui/views/processor/sampleview.py:134-148 | with length 0 the range is (0, 0) and nothing else changes; otherwise the page step is the width, the range is (0, length - width) and the value is start |
| SampleView.ScrollValueInRange | kunquat/tracker/ui/views/processor/sampleview.py:134-148 | with the view inside the sample, the scroll bar's value lies within its range |
| SampleView.Area.constructor | kunquat/tracker/ui/views/processor/sampleview.py:81-84 | the area owns a fresh empty canvas and a scroll bar with range, page step and value 0 |
| SampleView.Area.SetLength | kunquat/tracker/ui/views/processor/sampleview.py:90-91 | passes the length to the canvas, which shows the whole sample |
| SampleView.Area.SetRange | kunquat/tracker/ui/views/processor/sampleview.py:127-132 | requires start < stop (the assertion), then clamps the range to [0, length] and updates the scroll bar |
| SampleView.Area.UpdateScrollBars | kunquat/tracker/ui/views/processor/sampleview.py:134-148 | the scroll bar follows the canvas as UpdatedScrollBar says |
| SampleView.Area.ZoomIn | kunquat/tracker/ui/views/processor/sampleview.py:93-105 | always succeeds, shows the clamped zoomed-in range and leaves the scroll bar as `_update_scrollbars` sets it for that range |
| SampleView.Area.ZoomOut | kunquat/tracker/ui/views/processor/sampleview.py:107-125 | succeeds iff the current range is non-empty, then shows the clamped zoomed-out range with the scroll bar updated for it; on failure canvas range and scroll bar are unchanged |
| SampleView.Area.ScrollContents | kunquat/tracker/ui/views/processor/sampleview.py:153-157 | succeeds iff the moved range stays inside the sample; then the canvas starts at the scroll bar's value with the same width, otherwise its range is unchanged; the length never changes |
| Make.Prereqs | make.py:63-72 | a test missing from the dependency table has no prerequisites; any other has its listed ones |
| Make.PrereqsFinished | make.py:89-94 | holds iff every prerequisite is already finished |
| Make.RunTests | make.py:73-119 | every test runs after its prerequisites; a complete run runs each test once; a stuck run (n*n iterations) leaves a non-empty queue; a failing test stops the run as the last one taken up and is not counted finished; with no dependencies the bound is never hit |
| Handle.ScanInside | src/lib/Handle.c:317-324 | a character other than '/' extends the last component: a non-period makes it valid, a period marks it as holding one |
| Handle.ScanSlash | src/lib/Handle.c:325-341 | a '/' that closes a valid, period-free component opens a new empty one with both flags cleared |
| Handle.AllPeriodsSnoc | src/lib/Handle.c:317-324 | one more period keeps a component all periods exactly when it was |
| Handle.ClosedComponent | src/lib/Handle.c:325-341 | the component a '/' closes is a non-final component of the whole key |
| Handle.ClosedInvalid | src/lib/Handle.c:327-338 | a '/' that closes an empty or all-period component, or one holding a period, makes the key invalid |
| Handle.ScanComplete | src/lib/Handle.c:344-350 | at the end of the scan the key is valid exactly when its final component holds a period |
| Handle.KeyIsValid | src/lib/Handle.c:288-351 | rejects a missing key and one longer than KQT_KEY_LENGTH_MAX; otherwise accepts iff every character is a digit, a lower-case letter, '_', '.', '/' or 'X', every component before a '/' is non-empty and has no '.', and the final one has a '.'; a reported illegal character occurs in the key |
| Handle.HandleTable.constructor | src/lib/Handle.c:35 | the handle table starts with every slot empty |
| Handle.HandleTable.AddHandle | src/lib/Handle.c:393-413 | the first empty slot takes the handle; when all slots are taken it fails (MemoryError) and nothing changes |
| Handle.HandleTable.RemoveHandle | src/lib/Handle.c:439-457 | clears the slot holding the handle, or fails with nothing changed when no slot holds it; afterwards no slot holds it |
| Handle.HandleTable.HandleIsValid | src/lib/Handle.c:416-436 | holds iff the handle is non-NULL and occupies a slot |
| Handle.Handle.constructor | src/lib/Handle.c:57-69 | a handle starts with its mode, no returned pointers and no error |
| Handle.Handle.GetData | src/lib/Handle.c:209-233 | refused for an invalid handle or key and in KQT_MEM mode (ArgumentError); otherwise the reader's pointer is returned and remembered, unless remembering it fails, when it is freed and NULL returned |
| Handle.Handle.SetData | src/lib/Handle.c:251-266 | refused (0) for an invalid handle or key and in KQT_READ mode; otherwise the writer's result |
| Handle.Handle.FreeData | src/lib/Handle.c:269-285 | NULL gives 1; a pointer returned by get_data is forgotten and gives 1; any other pointer gives 0 with an ArgumentError |
| Handle.UnicodeEscape | src/lib/Handle.c:186-187 | `\u%04x` of a value below 0x80 is six characters |
| Handle.EscapeByte | src/lib/Handle.c:162-194 | a named control is a two-character escape, another control character or 0x7f a six-character one, and any other byte one character |
| Handle.NamedEscape | src/lib/Handle.c:163-177 | the named escapes of `" \ \b \f \n \r \t` are a backslash and one character |
| Handle.Escaped | src/lib/Handle.c:159-195 | the escaped text fits the room left before the closing `" }` and is at most six characters per byte |
| Handle.Consumed | src/lib/Handle.c:159-195 | the loop consumes at most the whole message |
| Handle.EnoughRoomConsumesAll | src/lib/Handle.c:159-195 | with room for six characters per byte the whole message is escaped |
| Handle.EscapeMessage | src/lib/Handle.c:158-195 | the loop with its three guards writes the escaped text, which ends before position KQT_HANDLE_ERROR_LENGTH - 4 |
| Handle.EscapeOne | src/lib/Handle.c:162-194 | one turn of the loop writes the byte's escape when its branch's guard lets it through, and otherwise stops with the text complete |
| Handle.EscapeFits | src/lib/Handle.c:162-194 | an escape that fits is written whole and the rest of the text follows it |
| Handle.EscapeStops | src/lib/Handle.c:169-184 | an escape that does not fit ends the text |
| Handle.EscapeDone | src/lib/Handle.c:159-160 | when the loop leaves, the text written is the whole escaped text |
| Handle.ErrorText | src/lib/Handle.c:130-197 | the error object is the prefix, the escaped message and the closing `" }`, and it fits the error buffer with its terminator |
| Handle.UnescapeByte | src/lib/Handle.c:162-194 | a JSON reader reads each corrected escape back as the byte it stands for |
| Handle.EscapeRoundTrip | src/lib/Handle.c:159-195 | the corrected escaping is a JSON string (section 7 of RFC 8259) that denotes exactly the message bytes the loop consumed |
| Handle.EscapedCons | src/lib/Handle.c:159-195 | an escape that fits is followed by the escaping of the rest of the message |
| Handle.NonAsciiByteIsMangled | src/lib/Handle.c:179-189 | as written, a message byte of 0x80 or more passes the `ch < 0x20` test as a negative `char` and comes out as the escape of U+FFFF; the corrected loop writes the byte itself |
| HandleState.InspectDirs | src/lib/Handle_state.c:251-316 | succeeds iff the directory opens, every state entry is a directory and no error was recorded; it then flags exactly the state directories present |
| HandleState.DirsOfSnoc | src/lib/Handle_state.c:270-309 | one more entry adds its own name to the flags |
| HandleState.Classify | src/lib/Handle_state.c:125-164 | all three, workspace only or oldcommit only are inconsistent; committed+workspace, committed+oldcommit and workspace+oldcommit need recovery; none is empty; committed only is ready |
| HandleState.RecoveryAction | src/lib/Handle_state.c:175-247 | workspace is removed beside committed, oldcommit is removed beside committed, and workspace is moved to committed beside oldcommit |
| HandleState.Remove | src/lib/Handle_state.c:213 | removing a directory drops that entry and no other |
| HandleState.Rename | src/lib/Handle_state.c:244 | moving a directory drops the old name, adds the new one and keeps every other entry |
| HandleState.RecoveryReachesCommitted | src/lib/Handle_state.c:175-186 | following the recovery table, every recoverable state reaches committed-only in one repair or, from workspace+oldcommit, in two |
| HandleState.PartialRecovery | src/lib/Handle_state.c:188-248 | succeeds iff the inspection succeeds and the file-system call does; the listing then has the repair of the recovery table applied |
| HandleState.StateInit | src/lib/Handle_state.c:93-172 | rejects a non-positive buffer size and a NULL path; an inconsistent state fails; when nothing fails every consistent state reaches committed-only after at most two retries |
| Real.MulNumFits | trunk/src/core/Real.c:126-129 | when the numerator guard of `Real_mul` passes, the product of the numerators fits in `int64_t` |
| Real.CrossFits | trunk/src/core/Real.c:155-160 | when a cross-product guard of `Real_div` or `Real_cmp` passes, the product numerator * denominator fits in `int64_t` |
| Real.MulFits | trunk/src/core/Real.c:124-140 | when both guards of `Real_mul` pass, both products fit in `int64_t` and the denominator product is positive |
| Real.CrossLess | trunk/src/core/Real.c:208-216 | comparing the cross products orders the two fractions by value |
| Real.BinaryGcd | trunk/src/core/Real.c:262-288 | the two loops of `Real_normalise` (common factors of two counted in k, then the binary GCD of the rest) compute the gcd of the magnitudes |
| Real.HalveDen | trunk/src/core/Real.c:278-279 | halving an even denominator beside an odd numerator keeps the gcd and makes progress |
| Real.HalveNum | trunk/src/core/Real.c:280-281 | halving an even numerator beside an odd denominator keeps the gcd and makes progress |
| Real.SubtractFromDen | trunk/src/core/Real.c:282-283 | replacing the larger odd denominator by half the difference keeps the gcd |
| Real.SubtractFromNum | trunk/src/core/Real.c:284-285 | replacing the larger odd numerator by half the difference keeps the gcd and makes progress |
| Real.HalveBoth | trunk/src/core/Real.c:270-275 | removing a common factor of two is counted in k without losing any of the gcd |
| Real.MinOverOddIsLowest | trunk/src/core/Real.c:254-259 | INT64_MIN over an odd denominator is already in lowest terms, as the comment there claims |
| Real.HalveMin | trunk/src/core/Real.c:249-253 | halving INT64_MIN over an even denominator keeps the value |
| Real.ReduceByGcd | trunk/src/core/Real.c:287-290 | dividing both parts by their gcd gives lowest terms and the same value, without overflow |
| Real.Real.Init | trunk/src/core/Real.c:38-42 | the fraction 1/1 |
| Real.Real.InitAsFrac | trunk/src/core/Real.c:44-52 | requires a positive denominator and gives the fraction in lowest terms with the same value |
| Real.Real.InitAsDouble | trunk/src/core/Real.c:54-60 | a double holding the value given |
| Real.Real.IsFrac | trunk/src/core/Real.c:62-66 | reports the representation |
| Real.Real.GetDenominator | trunk/src/core/Real.c:78-86 | positive; 1 for a double; with the numerator it gives the value of a fraction |
| Real.Real.GetNumerator | trunk/src/core/Real.c:68-76 | the numerator of a fraction, or the double truncated toward zero: the integer of the double's sign whose magnitude is at most the double's and within 1 of it |
| Real.Real.GetDouble | trunk/src/core/Real.c:88-97 | the value of the number, in either representation |
| Real.Real.Copy | trunk/src/core/Real.c:100-116 | the copy keeps the representation, its parts and the value |
| Real.Real.Normalise | trunk/src/core/Real.c:233-293 | a double is left alone; a fraction keeps its value and ends in lowest terms with a positive denominator, including the INT64_MIN paths |
| Real.Real.Mul | trunk/src/core/Real.c:119-144 | the value is the product; the result is a reduced fraction exactly when both operands are fractions and the overflow guards pass, and a double otherwise |
| Real.Real.Div | trunk/src/core/Real.c:147-180 | requires a non-zero divisor; the value is the quotient; the result is a reduced fraction with a positive denominator exactly when both operands are fractions and the guards pass, and a double otherwise |
| Real.ProductValue | trunk/src/core/Real.c:136-139 | the fraction of the products has the product value |
| Real.QuotientValue | trunk/src/core/Real.c:163-171 | the cross-multiplied fraction, with both signs flipped when the denominator is negative, has the quotient value |
| Real.MulFloat | trunk/src/core/Real.c:183-187 | the result is the Real's value times the double, so scaling by 1 gives the value and a zero fraction gives zero |
| Real.Validate | trunk/src/core/Real.c:296-317 | valid iff the pointer is non-NULL and a fraction has a positive denominator or a double is not NaN |
| Real.Cmp | trunk/src/core/Real.c:190-230 | answered from the signs, the cross products or the doubles, every path gives -1, 0 or 1 exactly as the first value is below, equal to or above the second |
| Real.SignOrder | trunk/src/core/Real.c:200-203 | a fraction with numerator at most 0 is below one with a positive numerator, so the sign test answers correctly |
| MathCommon.IsP2 | src/lib/math_common.c:19-23 | requires x > 0 and holds iff x is a power of two |
| MathCommon.IsP2Bits | src/lib/math_common.c:19-23 | for positive x, clearing the lowest set bit leaves zero iff x is a power of two |
| MathCommon.NextP2 | src/lib/math_common.c:26-36 | for 0 < x < 2^62, the smallest power of two strictly above x; from 2^62 on the sum wraps to INT64_MIN |
| MathCommon.CeilP2 | src/lib/math_common.c:39-47 | the least power of two not below x (x itself when x is a power of two) |
| MathCommon.CeilP2Twice | src/lib/math_common.c:39-47 | ceil_p2 is idempotent: ceil_p2(ceil_p2(x)) == ceil_p2(x) |
| Connections.HexValue | src/lib/Connections.c:236-237 | the value of a lower-case hexadecimal digit is its position among the sixteen digits |
| Connections.ReadIndex | src/lib/Connections.c:228-238 | INT_MAX unless the text starts with exactly two lower-case hexadecimal digits, and otherwise a value below 256 |
| Connections.ReadIndexHex2 | src/lib/Connections.c:228-238 | two digits written for n, followed by a non-digit or nothing, read back as n |
| Connections.FirstUnderscore | src/lib/Connections.c:360 | the index of the first '_' of the text, or its length when there is none |
| Connections.PortPart | src/lib/Connections.c:345-378 | the port part yields either an error or a port below KQT_DEVICE_PORTS_MAX with the path cut before the port directory; errors only accumulate |
| Connections.ValidatePath | src/lib/Connections.c:241-379 | a read state that holds an error gives -1 unchanged; otherwise -1 with an error, or a port below KQT_DEVICE_PORTS_MAX and a prefix of the path |
| Connections.InstrumentPath | src/lib/Connections.c:255-281 | the instrument branch yields an error or a valid port and a prefix of the path |
| Connections.GeneratorPath | src/lib/Connections.c:282-315 | the generator branch yields an error or a valid port and a prefix of the path |
| Connections.DspPath | src/lib/Connections.c:316-344 | the DSP branch yields an error or a valid port and a prefix of the path |
| Connections.InstrumentRefusedAtInsLevel | src/lib/Connections.c:255-262 | an instrument directory inside an instrument-level connection is refused with that error alone |
| Connections.InstrumentStage | src/lib/Connections.c:263-281 | "ins_XX" with XX below KQT_INSTRUMENTS_MAX and its header leaves the rest to the port part at the right offset |
| Connections.InstrumentHeaderAccepted | src/lib/Connections.c:263-281 | any path that passes the instrument number and header tests goes on to the port part |
| Connections.GeneratorStage | src/lib/Connections.c:282-315 | "gen_XX", its header and "C/" leave the rest to the port part at the right offset |
| Connections.GeneratorHeaderAccepted | src/lib/Connections.c:282-315 | any path that passes the generator number, header and "C/" tests goes on to the port part |
| Connections.DspStage | src/lib/Connections.c:316-344 | "dsp_XX", its header and "C/" leave the rest to the port part at the right offset, at either level |
| Connections.DspHeaderAccepted | src/lib/Connections.c:316-344 | any path that passes the DSP number, header and "C/" tests goes on to the port part |
| Connections.InputOfInsOrGen | src/lib/Connections.c:347-353 | an input port of an instrument or a generator is refused |
| Connections.InstrumentInputRefused | src/lib/Connections.c:255-353 | every instrument input port path is refused |
| Connections.GeneratorInputRefused | src/lib/Connections.c:282-353 | every generator input port path is refused |
| Connections.PortEndAt | src/lib/Connections.c:367 | on text without NUL, the garbage test passes exactly for the empty text, a '/' first, or a single character |
| Connections.DspInputStage | src/lib/Connections.c:345-376 | after "in_XX", the port is returned with the path cut before "in_" exactly when the garbage test passes; otherwise the garbage error |
| Connections.DspInputPort | src/lib/Connections.c:316-376 | a DSP input port path is accepted, cut to its device directory, iff what follows the port digits passes the garbage test |
| Connections.OutPortBySuffixRefused | src/lib/Connections.c:345 | with the suffix test as written, the root output port "out_XX" is refused as an invalid connection |
| Connections.OutPortByPrefixAccepted | src/lib/Connections.c:345-376 | with a prefix test, "out_XX" at the root is accepted as port XX, with the path trimmed to the root path "" (the master vertex is "/", so this is not the master) |
| Connections.GeneratorAtRootRefused | src/lib/Connections.c:282-291 | a generator path in a root-level connection always ends with the generator-at-root error first |
| Connections.ReachWalk | src/lib/Connections.c:194-210 | every pair of the bounded reachability relation is joined by a walk of at most k + 1 links |
| Connections.WalkReach | src/lib/Connections.c:194-210 | every walk of at most k + 1 links joins a pair of the bounded reachability relation |
| Connections.CyclicHasClosedWalk | src/lib/Connections.c:194-210 | a graph found cyclic has a closed walk |
| Connections.ClosedWalkIsCyclic | src/lib/Connections.c:194-210 | a closed walk through at most all vertices makes the graph cyclic |
| Connections.SelfLoopIsCyclic | src/lib/Connections.c:194-210 | a connection from a device to itself is a cycle |
| Connections.CheckPair | src/lib/Connections.c:137-139 | when the destination check leaves no error, both ports are valid |
| Connections.Connect | src/lib/Connections.c:141-161 | adding a pair keeps every vertex and edge, keeps edges between vertices, and adds the pair's edge |
| Connections.NewConnectionsFromString | src/lib/Connections.c:87-175 | the graph built pair by pair is the graph of the description |
| Connections.AddPairsGrows | src/lib/Connections.c:125-163 | accepted pairs only add vertices and edges, and every edge joins vertices |
| Connections.AddPairsHasEdges | src/lib/Connections.c:125-163 | every pair of an accepted list is an edge of the graph |
| Connections.AddPairsRefusesInvalid | src/lib/Connections.c:137-139 | one pair with an invalid path refuses the whole list |
| Connections.AcceptedGraph | src/lib/Connections.c:87-175 | an accepted graph holds the master vertex, joins only its vertices, has an edge for every pair and no cycle |
| Connections.NullOrEmptyIsMasterOnly | src/lib/Connections.c:109-124 | no description, or "[]", gives the master vertex alone |
| Connections.CycleRefused | src/lib/Connections.c:166-172 | a description whose graph has a closed walk is refused |
| AuControlVars.TargetDevice | src/lib/devices/Au_control_vars.c:371-389 | accepted iff the name is "au_" or else "proc_" with a non-negative index, and the device type follows the prefix; otherwise the invalid-device error |
| AuControlVars.GenericTargetType | src/lib/devices/Au_control_vars.c:456-469 | a generic binding accepts exactly the types bool, int, float and tstamp |
| AuControlVars.ReadBinding | src/lib/devices/Au_control_vars.c:355-564 | an accepted binding has a valid device index and its path; a slide binding targets float with its range, a generic one an accepted type with its expression |
| AuControlVars.VarTypeOf | src/lib/devices/Au_control_vars.c:646-738 | exactly the five type names are variable types, and only "float_slide" gives a slide variable |
| AuControlVars.ReadVar | src/lib/devices/Au_control_vars.c:597-741 | an accepted variable has a valid name, its type and initial value; a slide variable has both bounds, from indices 0 and 1; others have an empty extra list |
| AuControlVars.ReadVarEntry | src/lib/devices/Au_control_vars.c:597-741 | appending the bindings one by one at the tail gives the variable of the specification |
| AuControlVars.NewAuControlVars | src/lib/devices/Au_control_vars.c:744-775 | reading the variables one by one into the table gives the table of the specification, or its error |
| AuControlVars.BindingsInOrder | src/lib/devices/Au_control_vars.c:439-449 | reading bindings succeeds iff every binding does, keeps the earlier entries and appends one entry per binding in input order |
| AuControlVars.VarBindingsInOrder | src/lib/devices/Au_control_vars.c:439-449 | every variable read holds its bindings in the order of the text |
| AuControlVars.FloatSlideNeedsBounds | src/lib/devices/Au_control_vars.c:720-728 | a float_slide variable without both bounds is refused |
| AuControlVars.FloatSlideExtraIndices | src/lib/devices/Au_control_vars.c:574-591 | a third bound of a float_slide variable is refused as unexpected data |
| AuControlVars.ReadVarsAll | src/lib/devices/Au_control_vars.c:744-775 | the list is read iff every variable is, and the table holds exactly the earlier names and the names read |
| AuControlVars.ReadVarsKeeps | src/lib/devices/Au_control_vars.c:638-643 | a name in the table stays there |
| AuControlVars.BindingIter.constructor | src/lib/devices/Au_control_vars.c:236-244 | an iterator on no binding |
| AuControlVars.BindingIter.Init | src/lib/devices/Au_control_vars.c:149-170 | succeeds iff the variable exists and has a binding, and then stands on its first binding; on failure the iterator stands on no binding, as the NULL `iter` of the source |
| AuControlVars.BindingIter.GetNext | src/lib/devices/Au_control_vars.c:335-348 | moves one binding on; false past the last, leaving the shown target as it was, and otherwise stands on that binding |
| AuControlVars.BindingIter.Update | src/lib/devices/Au_control_vars.c:176-184 | shows the target of the current binding |
| AuControlVars.VisitBindings | src/lib/devices/Au_control_vars.c:236-348 | walking the iterator from init to the end visits every binding of the variable once, in order, and none for an unknown variable |
| Event.FieldTypes | src/core/Event.c:33-46 | "iiii" exactly for a note on, "" for a note off, and nothing for any other type |
| Event.NoteOnFieldAccepts | src/core/Event.c:166-187 | the range each note-on field accepts: note below NOTE_TABLE_NOTES, modifier from -1, octave in the table's range, instrument in 1..255; Event.Event.SetInt writes exactly the accepted values |
| Event.Event.constructor | src/core/Event.c:49-61 | the new event has the type and the position given, and a note on starts with the reset fields |
| Event.Event.Reset | src/core/Event.c:64-83 | a note on gets note -1, modifier -1, octave INT64_MIN and instrument 0; other types keep their fields; the position stays |
| Event.Event.SetPos | src/core/Event.c:86-99 | the position read back is the one set, and the type stays |
| Event.Event.Int | src/core/Event.c:109-126 | succeeds iff the event is a note on, and then reads the integer field at the index |
| Event.Event.Float | src/core/Event.c:129-157 | succeeds iff the event is a global volume or tempo and the index is 0, and then reads that double |
| Event.Event.SetInt | src/core/Event.c:160-195 | writes exactly the one field when the note on accepts the value there (note, modifier, octave and instrument ranges), and otherwise changes nothing |
| Event.Event.SetFloat | src/core/Event.c:198-226 | writes field 0 iff the index is 0 and the event is a volume, or a tempo with a positive value; otherwise changes nothing |
| Event.SetIntThenInt | src/core/Event.c:109-195 | a value that set_int accepts is what Event_int reads back; a refused one changes no field |
| EventQueue.Slot | src/core/Event_queue.h:64-73 | the insertion slot lies behind every node that starts no later and before every node that starts later |
| EventQueue.SlotBelow | src/core/Event_queue.h:64-73 | the same slot, searched from the back among the first m nodes |
| EventQueue.SlotUnique | src/core/Event_queue.h:64-73 | the slot is the only index with that property |
| EventQueue.InsertPermutes | src/core/Event_queue.h:64-73 | inserting loses and duplicates no node |
| EventQueue.InsertKeepsSorted | src/core/test/event_queue.c:114-147 | inserting into a queue ordered by starting frame keeps it ordered |
| EventQueue.InsertAt | src/core/Event_queue.h:64-73 | the i-th node after an insert is a node before the slot, the new node, or the node it displaced |
| EventQueue.InsertAfterTies | src/core/test/event_queue.c:114-147 | the new node lands behind exactly the nodes that start no later, so ties leave in insertion order |
| EventQueue.At | src/core/Event_queue.h:40-50 | the array slot of a ring position lies inside the array |
| EventQueue.AtDistinct | src/core/Event_queue.h:40-50 | distinct ring positions sit in distinct array slots |
| EventQueue.EventQueue.Contents | src/core/Event_queue.h:40-50 | the queued nodes are the count nodes of the ring read from start |
| EventQueue.EventQueue.constructor | src/lib/Event_queue.h:32-40 | requires a positive size and gives an empty queue of that size |
| EventQueue.EventQueue.Ins | src/lib/Event_queue.h:43-52 | fails iff the queue is full and then changes nothing; otherwise the node is inserted in order, behind every node that starts no later |
| EventQueue.EventQueue.Place | src/core/Event_queue.h:64-73 | writes the node into the opened gap and counts it, keeping every other queued node |
| EventQueue.EventQueue.OpenGap | src/core/Event_queue.h:64-73 | shifts exactly the nodes that start later one place towards the end and returns the slot they leave |
| EventQueue.EventQueue.Get | src/lib/Event_queue.h:55-69 | fails iff the queue is empty and then changes nothing; otherwise removes and returns the first node |
| EventQueue.EventQueue.Peek | src/lib/Event_queue.h:72-86 | succeeds iff a node exists at the index, returns that node, and removes nothing; index 0 is what get returns next |
| EventQueue.EventQueue.Clear | src/lib/Event_queue.h:89-94 | empties the queue and keeps its size |
| EventQueue.EventQueue.Resize | src/lib/Event_queue.h:97-107 | requires a positive size; the queue is empty with the new size |
| EventQueue.InsGetOrder | src/core/test/event_queue.c:114-147 | events 1 and 2 at frame 1 and then 3 at frame 0 fill a queue of three; a fourth insert fails; get returns 3, 1, 2 and then nothing |
| EventQueue.InsThree | src/core/test/event_queue.c:114-147 | the three inserts of that scenario leave the queue full and ordered |
| EventQueue.CapacityIsSize | src/core/test/event_queue.c:53-73 | a new queue of size n takes exactly n events and refuses the next |
| EventCache.Cleared | src/lib/player/Event_cache.c:157-161 | the same names, each without a value |
| EventCache.EventCache.constructor | src/lib/player/Event_cache.c:51-66 | tracks no name |
| EventCache.EventCache.AddEvent | src/lib/player/Event_cache.c:69-85 | a tracked name changes nothing; a new name of at most EVENT_NAME_MAX characters starts without a value |
| EventCache.EventCache.Update | src/lib/player/Event_cache.c:88-100 | stores the value for a tracked name and ignores any other name |
| EventCache.EventCache.GetValue | src/lib/player/Event_cache.c:103-112 | requires a tracked name and returns its stored value |
| EventCache.EventCache.Reset | src/lib/player/Event_cache.c:115-128 | every tracked name stays, without a value |
| EventCache.UpdateThenGet | src/lib/player/Event_cache.c:88-112 | after an update of a tracked name the lookup returns that value, and the names stay |
| EventCache.AddThenReset | src/lib/player/Event_cache.c:69-128 | after adding names and resetting, exactly those names are tracked, all without a value |
| EventBuffer.Digit | src/lib/player/Event_buffer.c:92 | a decimal digit with the value given |
| EventBuffer.Decimal | src/lib/player/Event_buffer.c:92-94 | `%d` of a channel: digits only, one for a channel below 10 and at most two below 100 |
| EventBuffer.DecimalRoundTrip | src/lib/player/Event_buffer.c:92-94 | the channel number written into an event reads back as itself |
| EventBuffer.EventText | src/lib/player/Event_buffer.c:90-110 | an event is its opening, the value and the closing "]]" |
| EventBuffer.ListingSnoc | src/lib/player/Event_buffer.c:113-117 | appending an event text extends the listing by exactly that text |
| EventBuffer.EventBuffer.Text | src/lib/player/Event_buffer.c:67-71 | the text is "[", the events written since the last clear, and "]" |
| EventBuffer.EventBuffer.constructor | src/lib/player/Event_buffer.c:35-56 | the size is at least strlen("[]") + 1 and the new buffer holds "[]" |
| EventBuffer.EventBuffer.IsFull | src/lib/player/Event_buffer.c:59-64 | the buffer is not full iff more than EVENT_LEN_MAX characters of room remain after the write position |
| EventBuffer.EventBuffer.Clear | src/lib/player/Event_buffer.c:123-131 | the buffer holds "[]" with the write position at 1 and keeps its size |
| EventBuffer.EventBuffer.Add | src/lib/player/Event_buffer.c:74-120 | requires a buffer that is not full and a valid channel; appends the event text, without separator only when first, moves the write position by its length and keeps the list closed inside the buffer |
| EventBuffer.EventBuffer.Write | src/lib/player/Event_buffer.c:90-110 | copies the text in at the position and keeps what lies before it |
| EventBuffer.TwoEvents | src/lib/player/Event_buffer.c:90-117 | after a clear, two adds give the list of both events, the second behind ", " |
| EventBuffer.ListingTwo | src/lib/player/Event_buffer.c:113-117 | two event texts are listed one after the other |
| EventBuffer.EventTextOpens | src/lib/player/Event_buffer.c:90-95 | the first event opens with "[0, ", a later one with ", [1, " |
| EventHandler.LastFor | src/lib/Event_handler.c:117-208 | no processor iff no registration names the type; otherwise the processor of one registration for it |
| EventHandler.Accepted | src/lib/Event_handler.c:300-313 | the columns before the first that refuses the key all accept it, and the one at the bound (if below m) refuses it |
| EventHandler.EventHandler.constructor | src/lib/Event_handler.c:95-211 | keeps the global state, the channel states and the instrument table, and each slot holds the last built-in processor registered for its type |
| EventHandler.EventHandler.Register | src/lib/Event_handler.c:117-208 | one registration of the constructor: every slot then holds the last processor registered for its type so far |
| EventHandler.EventHandler.SetChProcess | src/lib/Event_handler.c:214-223 | requires a channel event type; only that slot of the channel table changes, to the processor |
| EventHandler.EventHandler.SetGlobalProcess | src/lib/Event_handler.c:226-236 | requires a global event type; only that slot of the global table changes, to the processor |
| EventHandler.EventHandler.SetInsProcess | src/lib/Event_handler.c:239-248 | requires an instrument event type; only that slot of the instrument table changes, to the processor |
| EventHandler.EventHandler.Handle | src/lib/Event_handler.c:251-290 | a channel event needs a column index and gives false without a processor, else the processor's result on that channel; an instrument event gives false for an absent instrument or a missing processor; a global event needs index -1 and gives false without a processor |
| EventHandler.EventHandler.AddChannelGenStateKey | src/lib/Event_handler.c:300-313 | succeeds iff every column accepts the key; the columns before the first refusal have the key and the others are unchanged |
| EventHandler.AcceptedStops | src/lib/Event_handler.c:305-311 | once a column refuses the key, a larger bound finds the same first refusal |
| EventHandler.HandleAsWritten | src/lib/Event_handler.c:268-279 | as written, an instrument event for an existing instrument calls its table slot even when the slot is empty |
| EventHandler.InsEventWithoutProcessor | src/lib/Event_handler.c:268-279 | after the constructor, an instrument event other than the pedal one reaches the empty slot as written, and the corrected handler returns false |
| EventHandler.SetThenHandle | src/lib/Event_handler.c:214-267 | a processor set for a channel event type is the one that handles it on every column |
| GeneralState.GeneralState.Init | src/lib/General_state.c:22-31 | keeps whether the state is global and clears pause and all condition flags |
| GeneralState.GeneralState.EventsEnabled | src/lib/General_state.c:34-46 | events are suppressed iff conditional execution is on and the evaluated condition differs from the one wanted; pause and the global flag play no part |
| GeneralState.InitEnables | src/lib/General_state.c:22-46 | events are enabled right after init |
| Device.TypeIndex | src/lib/Device.h:55 | each port type has its own row of the port matrix, receive being row 0 |
| Device.Device.constructor | src/lib/Device.h:60-69 | keeps the id, buffer size and mixing rate; the device is not existent and no port is registered |
| Device.Device.SetExistent | src/lib/Device.h:82-88 | the existent flag is the one given, and the rate and size stay |
| Device.Device.IsExistent | src/lib/Device.h:90-98 | reads the existent flag |
| Device.Device.PortIsRegistered | src/lib/Device.h:238-241 | reads one registration entry; Device.Replay proves it answers with the last register or unregister of that port |
| Device.Device.RegisterPort | src/lib/Device.h:204-213 | requires a port below KQT_DEVICE_PORTS_MAX; that port becomes registered, every other entry stays, and a registered port changes nothing |
| Device.Device.UnregisterPort | src/lib/Device.h:216-225 | that port is no longer registered, every other entry stays, and an unregistered port changes nothing |
| Device.Replay | src/lib/Device.h:204-241 | after any sequence of registrations and unregistrations, a port is registered iff its last change registered it |
| Device.ExistentRoundTrip | src/lib/Device.h:82-98 | the existent flag reads back as set |
| Processor.FeatureIndex | src/lib/devices/Processor.h:47-55 | each feature has a place below VOICE_FEATURE_COUNT_ |
| Processor.FeaturesFit | src/lib/devices/Processor.h:57-59 | there are at most 31 features |
| Processor.FeatureFlag | src/lib/devices/Processor.h:61 | a feature's flag has exactly one bit set |
| Processor.FlagsInAll | src/lib/devices/Processor.h:61-63 | every feature's flag lies in VOICE_FEATURES_ALL, and distinct features have disjoint flags |
| Processor.WithFeatureThenHas | src/lib/devices/Processor.h:128-143 | setting a feature in a mask decides that feature and leaves every other feature as it was |
| Processor.Processor.constructor | src/lib/devices/Processor.h:95 | an index below KQT_PROCESSORS_MAX; every port starts with all features and voice signals off |
| Processor.Processor.SetVoiceFeature | src/lib/devices/Processor.h:119-133 | requires a port below KQT_DEVICE_PORTS_MAX; only that port's mask changes, with the feature turned on or off |
| Processor.Processor.IsVoiceFeatureEnabled | src/lib/devices/Processor.h:142-143 | tests one feature bit of a port's mask; Processor.FeatureRoundTrip proves it reads back what SetVoiceFeature set, leaving the other features |
| Processor.Processor.SetVoiceSignals | src/lib/devices/Processor.h:166-175 | stores the voice-signal flag |
| Processor.Processor.GetVoiceSignals | src/lib/devices/Processor.h:178-185 | reads the voice-signal flag |
| Processor.FeatureRoundTrip | src/lib/devices/Processor.h:119-143 | on a new processor, a feature set on a port reads back as set, and every other feature of every port stays enabled |
| Processor.VoiceSignalsRoundTrip | src/lib/devices/Processor.h:166-185 | the voice-signal flag reads back as set |
| DeviceState.DeviceState.constructor | src/lib/player/devices/Device_state.c:29-76 | keeps the device, its id, the rate and the buffer size, with no hook |
| DeviceState.DeviceState.SetAudioRate | src/lib/player/devices/Device_state.c:86-100 | the current rate succeeds without the hook; a new rate is stored before the hook runs, whose result is returned (true without a hook) |
| DeviceState.DeviceState.SetAudioBufferSize | src/lib/player/devices/Device_state.c:110-122 | the hook runs at the smaller of the two sizes; on failure the size stays there and the result is false, otherwise the size is the new one |
| DeviceState.DeviceState.AddAudioBuffer | src/lib/player/devices/Device_state.c:125-136 | true unless a hook is installed and fails |
| DeviceState.DeviceState.SetTempo | src/lib/player/devices/Device_state.c:139-149 | requires a positive tempo and runs the tempo hook, if any |
| DeviceState.DeviceState.Reset | src/lib/player/devices/Device_state.c:152-160 | runs the reset hook, if any |
| DeviceState.DeviceState.RenderMixed | src/lib/player/devices/Device_state.c:163-182 | the hook runs iff the device has mixed signals and the hook is installed |
| DeviceState.DeviceState.Dispose | src/lib/player/devices/Device_state.c:185-196 | a state with a destructor is destroyed by it, and any other is freed |
| DeviceState.Min | src/lib/player/devices/Device_state.c:115 | the smaller of two sizes |
| DeviceState.PlainStateAcceptsAll | src/lib/player/devices/Device_state.c:40-136 | a state without hooks accepts every rate, size and buffer and renders nothing |
| DeviceState.FailingSizeHook | src/lib/player/devices/Device_state.c:110-122 | with a failing size hook the result is false and the size ends at the smaller of the two |
| DeviceThreadState.Slot | src/lib/player/devices/Device_thread_state.c:110-126 | every type and port has its own slot in the buffer matrix |
| DeviceThreadState.FirstFailure | src/lib/player/devices/Device_thread_state.c:91-107 | every existing buffer before the first failure resizes, and the one at the failure exists and does not |
| DeviceThreadState.Resized | src/lib/player/devices/Device_thread_state.c:91-107 | resizing keeps which slots hold a buffer |
| DeviceThreadState.ResizedStep | src/lib/player/devices/Device_thread_state.c:96-104 | resizing one more slot changes that slot alone |
| DeviceThreadState.FirstFailureStays | src/lib/player/devices/Device_thread_state.c:96-104 | once a slot fails, a larger bound finds the same first failure |
| DeviceThreadState.DeviceThreadState.constructor | src/lib/player/devices/Device_thread_state.c:27-55 | node state NEW, the id and size given, every slot empty and no port marked |
| DeviceThreadState.DeviceThreadState.SetNodeState | src/lib/player/devices/Device_thread_state.c:72-81 | the node state is the one given |
| DeviceThreadState.DeviceThreadState.GetNodeState | src/lib/player/devices/Device_thread_state.c:84-88 | reads the node state |
| DeviceThreadState.DeviceThreadState.SetAudioBufferSizeAsWritten | src/lib/player/devices/Device_thread_state.c:91-107 | succeeds iff no existing buffer fails to resize; the buffers before the first failure have the new size and the rest are as they were |
| DeviceThreadState.DeviceThreadState.ResizeSlot | src/lib/player/devices/Device_thread_state.c:96-104 | one step of the resize loop: resizes the slot or stops at it |
| DeviceThreadState.DeviceThreadState.SetAudioBufferSize | src/lib/player/devices/Device_thread_state.c:91-107 | as written, and on success the new size is kept so that every buffer, later ones included, has it |
| DeviceThreadState.DeviceThreadState.AddAudioBuffer | src/lib/player/devices/Device_thread_state.c:110-126 | an existing buffer is kept and reported added; otherwise a buffer of the state's size is made iff allocation succeeds |
| DeviceThreadState.DeviceThreadState.ClearAudioBuffers | src/lib/player/devices/Device_thread_state.c:129-150 | every input port mark is cleared |
| DeviceThreadState.DeviceThreadState.MarkInputPortConnected | src/lib/player/devices/Device_thread_state.c:185-194 | only that port becomes marked |
| DeviceThreadState.DeviceThreadState.IsInputPortConnected | src/lib/player/devices/Device_thread_state.c:197-205 | reads one connection mark; DeviceThreadState.MarkThenConnected proves a new state's port unconnected, marked by MarkInputPortConnected alone and unmarked by ClearAudioBuffers |
| DeviceThreadState.DeviceThreadState.GetAudioBuffer | src/lib/player/devices/Device_thread_state.c:153-166 | nothing for a receive port that is not marked, and otherwise the slot's buffer |
| DeviceThreadState.Cmp | src/lib/player/devices/Device_thread_state.c:58-69 | -1, 0 or 1 as the first id is below, equal to or above the second |
| DeviceThreadState.CmpOrders | src/lib/player/devices/Device_thread_state.c:58-69 | the comparison is antisymmetric and transitive, and 0 exactly for equal ids |
| DeviceThreadState.AddTwice | src/lib/player/devices/Device_thread_state.c:110-126 | adding a buffer twice keeps the first and succeeds both times |
| DeviceThreadState.MarkThenConnected | src/lib/player/devices/Device_thread_state.c:197-205 | a new state's input port is unconnected; marking connects it and no other port; clearing the buffers disconnects it |
| DeviceThreadState.MarkClearGet | src/lib/player/devices/Device_thread_state.c:129-194 | a receive buffer is visible while its port is marked and hidden after a clear; a send buffer is always visible |
| DeviceThreadState.StaleSizeAsWritten | src/lib/player/devices/Device_thread_state.c:91-126 | as written, a state made for 128 frames and resized to 256 still adds a 128-frame buffer |
| DeviceThreadState.ResizedSizeCorrected | src/lib/player/devices/Device_thread_state.c:91-126 | with the size kept, a buffer added after a successful resize has the new size |
| Player.Player.constructor | src/core/Player.c:33-65 | requires a positive rate and 0 < voices < MAX_VOICES; the player takes the next id, holds the song and is stopped |
| Player.Player.Mix | src/core/Player.c:68-86 | nothing without a play state or a song, and otherwise what mixing the song renders |
| Player.Player.Stop | src/core/Player.c:139-156 | mode STOP, voices and channels reset, time, frames, order index, pattern and position zero, and the song's current subsong at its tempo |
| Player.Player.PlayPattern | src/core/Player.c:89-101 | requires a pattern below PATTERNS_MAX and a positive tempo; stops, then plays that pattern at that tempo |
| Player.Player.PlaySubsong | src/core/Player.c:104-113 | requires a subsong below SUBSONGS_MAX; stops, then plays it at its own tempo |
| Player.Player.PlaySong | src/core/Player.c:116-123 | stops, then plays the song's current subsong |
| Player.Player.PlayEvent | src/core/Player.c:126-136 | while anything plays nothing changes; a stopped player is stopped afresh and set to play events |
| Player.TwoPlayers | src/core/Player.c:33-65 | two players made one after the other get ids 0 and 1 |
| Player.EventDuringPattern | src/core/Player.c:89-156 | an event played during a pattern leaves the pattern playing, and a stop ends it |
| Player.EventWhenStopped | src/core/Player.c:126-156 | a stopped player asked to play an event plays events from frame 0 |

## Left out

- `kunquat/limits.h` and the note table header are not part of this model. Their constants are placeholders:
  - `limits.dfy` holds the engine limits, such as KQT_DEVICE_PORTS_MAX, KQT_COLUMNS_MAX and EVENT_LEN_MAX;
  - `handle.dfy` holds KQT_KEY_LENGTH_MAX, KQT_HANDLES_MAX and KQT_HANDLE_ERROR_LENGTH;
  - `event.dfy` holds the note-table limits.

  The proved properties do not depend on the chosen values.
- Doubles are exact `real`s. Rounding and infinities are not modelled; NaN is modelled only where `Real_validate_` tests it. Real.c's double fallback path computes with exact reals.
- The editor's I/O is not modelled: zip archives, temporary files, `os.rename`, JSON encoding and deflating. A saved archive is the map from archive path to entry text. Reading and validating an imported unit are inputs: a success flag and the entries read.
- Directory I/O in Handle_state.c is not modelled either. The directory listing is a value, and `fsFails` stands for a failing operating-system call.
- In make.py, building and running a test are inputs: `built` and `failing`. The subprocess calls are left out, and so is the removal of a failing test's binary.
- Streader, AAtree, Device_node, Value_serialise and `sprintf` are not part of this model:
  - The parsers take pre-tokenised input: `VarText`, `BindText` and the `Description` of a connection list.
  - A balanced tree is a `map` or `set`.
  - The value text of an event is a parameter of `EventBuffer.EventBuffer.Add`.
- The helpers `is_valid_var_name`, `is_valid_var_path` and `string_extract_index` are function-valued fields of `AuControlVars.Syntax`. Their header is not part of this model.
- The binding list of a control variable has first and last pointers in the source; here it is a `seq`. Tail appends keep the same order.
- A variable name that appears twice overwrites the earlier entry in the model's map. AAtree insertion of a duplicate is not modelled.
- The iterator modes `ITER_MODE_SET_FLOAT` and `ITER_MODE_OSC_DEPTH_FLOAT` are left out. They are floating-point interpolation (`lerp` and range scaling).
- AuControlVars.BindingIter.Init: models `Au_control_binding_iter_init` only. The `_set_float` and `_osc_depth_float` initialisers are floating-point mappings.
- Allocation failures are left out wherever they only return NULL, and the `del_*` destructors are left out too. Two exceptions model an allocation result as a parameter: `DeviceThreadState.DeviceThreadState.AddAudioBuffer` (`allocOk`) and the buffer resize (`resizeOk`).
- Work-buffer contents are not modelled. `ClearAudioBuffers` clears only the connection marks, and a buffer is its size.
- Device-state hooks are opaque identities, and their effects are not modelled. Their results are the parameter `run`.
- Player.Player.constructor: the `static int32_t` id counter of `new_Player` is an unbounded `int`. Its wrap-around after 2^31 players is not modelled.
- Player.Player.Mix: the song mixer is the parameter `songMix`. `Player_set_mix_freq` is not modelled. The song, voice pool and channels are reduced to what the mode machine reads and resets.
- MathCommon.NextP2: from 2^62 on, the 64-bit sum wraps. The model states the wrap to INT64_MIN but proves the smallest-power property only below 2^62.
- The controller passes `transaction_notifier=` to `Store.put` and calls `update_transaction_progress`, neither of which the store defines. The model uses the store's own signatures. Progress reporting is left out.
- `kqt_Handle_commit` is empty in the source and is not modelled. `kqt_state_init` has no final return; the model follows the classification and recovery table up to that point.
- In `Event.c`, event types that no switch names are modelled as one `OtherEvent`. A field is an integer or a double. The union punning between the two views is not modelled: the double view of an integer field reads 0.0.
- Connections: the "Input ports are not allowed for root" and generator-at-root errors set an error without returning early. The model keeps that: validation goes on, and the errors accumulate in the read state.
- Controller.LoadAudioUnit: `store.get` hands back the stored list object, and the source appends to it in place. That changes the committed content (or a pending transaction already sent to the engine) before the put, and it stays changed when the connections append raises afterwards. The model treats values as immutable: it promises the content unchanged and an `ImportRaised` outcome that changes nothing.
- Controller.HexValue: `int(s, 16)` also accepts surrounding whitespace, a sign, a `0x` prefix and underscores between digits. The model refuses those; the ids the editor generates are plain lower-case hex digits.
- Real.Real.GetNumerator: the `(int64_t)` cast of a double outside the int64 range is undefined in C; the model returns the unbounded truncation.
- The initial states of `EventHandler.EventHandler.constructor` (its unset processor slots), `Device.Device.constructor` and `Player.Player.constructor` assume zeroed allocation. `memory.h`, where `xalloc` is defined, is not part of this model.
- Processor.Processor.constructor: `Processor.c`, which holds the body of `new_Processor`, is not part of this model. The all-features initial state of each port's voice-feature mask is an assumption about that body. The disabled voice signals (`enable_voice_support` false) also assume zeroed allocation.
- Player.Player.constructor: the header that declares the play-mode enum is not part of this model. The order STOP < PLAY_EVENT < PLAY_PATTERN < PLAY_SONG is assumed. `Player.c` relies only on `mode >= PLAY_EVENT` meaning that the player is playing.
- Connections.ReachWalk: cycle detection is stated on walks and bounded reachability. The source's depth-first search with node states, `Device_node_cycle_in_path`, is not part of this model.

## Findings

| source | as written | input that shows it | evidently intended | confidence | as-written member | corrected member |
|---|---|---|---|---|---|---|
| src/lib/Handle.c:179-189 | a `char` of 0x80 or more is negative, so it passes `ch < 0x20`, and `snprintf("\\u%04x")` of the sign-extended value is cut to the six characters `\uffff` | a message holding the byte 0x80, the first byte of a UTF-8 sequence | only control characters are escaped, and other bytes are copied, so that the escaped text unescapes back to the message | not executed | Handle.NonAsciiByteIsMangled | Handle.EscapeRoundTrip |
| src/lib/Connections.c:345 | output ports are detected with `string_has_suffix(str, "out_")`, which matches only a path ending in "out_" | the root-level path "out_00" is refused as an invalid connection | a prefix test, like the one for "in_", so that "out_XX" is accepted as port XX of the root path "" | not executed | Connections.OutPortBySuffixRefused | Connections.OutPortByPrefixAccepted |
| src/lib/Event_handler.c:268-279 | an instrument event for an existing instrument calls `ins_process[type]` without checking it for NULL | any instrument event type other than the pedal event, sent to an existing instrument right after `new_Event_handler` | return false when the type has no processor, as the channel and global branches do | not executed | EventHandler.InsEventWithoutProcessor | EventHandler.EventHandler.Handle |
| src/lib/player/devices/Device_thread_state.c:91-107 | resizing the buffers does not store the new size in `audio_buffer_size`, which `add_audio_buffer` uses for new buffers | a state made with 128 frames, resized to 256, then given a new buffer, which holds 128 frames | keep the new size on success, so that every buffer agrees on it | not executed | DeviceThreadState.StaleSizeAsWritten | DeviceThreadState.ResizedSizeCorrected |

=== FILE: au_control_vars.dfy ===
/**
 * The control variables of an audio unit: a list of variables, each with
 * a type, an initial value and an ordered list of bindings to variables
 * of devices inside the unit. The text reader, the variable-name checks
 * and the index extraction are not part of this model: the reader's
 * output arrives as `VarText` items, and the checks as the functions of a
 * `Syntax` value. Any error makes the whole list unreadable.
 */
module AuControlVars {
  import opened Wrappers
  import opened Strings
  import opened Values

  datatype ValueType = NoType | BoolType | IntType | FloatType | TstampType

  datatype VarType = VarBool | VarInt | VarFloat | VarTstamp | VarFloatSlide

  datatype TargetDev = TargetAu | TargetProc

  /** The settings of a binding: an expression, or the range a slide maps onto. */
  datatype BindKind = Expression(expr: string) | FloatSlide(mapMinTo: real, mapMaxTo: real)

  datatype BindEntry = BindEntry(kind: BindKind, devType: TargetDev, devIndex: int, varType: ValueType, varName: string)

  datatype VarEntry = VarEntry(
    name: string, varType: VarType, init: Value,
    minValue: real, maxValue: real,   // the bounds of a float_slide variable
    bindings: seq<BindEntry>)

  /**
   * One binding as the reader delivers it: target device, target variable
   * path, type name, and then the expression (of a generic binding) or the
   * target range (of a float_slide binding); or text the reader rejects.
   */
  datatype BindText =
    | BindText(device: string, path: string, typeName: string, expr: string, mapMinTo: real, mapMaxTo: real)
    | BindUnreadable

  /** One variable as the reader delivers it, or text the reader rejects. */
  datatype VarText =
    | VarText(typeName: string, name: string, init: Value, ext: seq<real>, bindings: seq<BindText>)
    | VarUnreadable

  /** The checks of the unseen string helpers. */
  datatype Syntax = Syntax(
    validVarName: string -> bool,
    validVarPath: string -> bool,
    extractIndex: (string, string) -> int)   // the index after a prefix, negative when there is none

  datatype VarsError =
    | PriorError
    | ReadError
    | IllegalVariableName
    | InvalidVariableType
    | UnexpectedExtData
    | MissingBounds
    | InvalidTargetDevice
    | IllegalTargetPath
    | InvalidTargetType
    | InvalidSlideTargetType

  /** `new_Bind_entry_common`: the target device is "au_XX" or "proc_XX" with an index of zero or more. */
  function TargetDevice(name: string, syn: Syntax): (r: Result<(TargetDev, int), VarsError>)
    ensures r.Ok? <==>
      (HasPrefix(name, "au_") && syn.extractIndex(name, "au_") >= 0) ||
      (!HasPrefix(name, "au_") && HasPrefix(name, "proc_") && syn.extractIndex(name, "proc_") >= 0)
    ensures r.Ok? ==> r.value.1 >= 0 && (r.value.0 == TargetAu <==> HasPrefix(name, "au_"))
    ensures r.Err? ==> r.error == InvalidTargetDevice
  {
    if HasPrefix(name, "au_") then
      var index := syn.extractIndex(name, "au_");
      if index < 0 then Err(InvalidTargetDevice) else Ok((TargetAu, index))
    else if HasPrefix(name, "proc_") then
      var index := syn.extractIndex(name, "proc_");
      if index < 0 then Err(InvalidTargetDevice) else Ok((TargetProc, index))
    else
      Err(InvalidTargetDevice)
  }

  /** The target variable types of a generic binding. */
  function GenericTargetType(typeName: string): (t: ValueType)
    ensures t != NoType <==> typeName in {"bool", "int", "float", "tstamp"}
  {
    if typeName == "bool" then BoolType
    else if typeName == "int" then IntType
    else if typeName == "float" then FloatType
    else if typeName == "tstamp" then TstampType
    else NoType
  }

  /** `read_binding_targets_generic` and `read_binding_targets_float_slide` for one binding. */
  function ReadBinding(b: BindText, slide: bool, syn: Syntax): (r: Result<BindEntry, VarsError>)
    ensures r.Ok? ==> b.BindText? && r.value.devIndex >= 0 && r.value.varName == b.path
    ensures r.Ok? && slide ==> r.value.kind == FloatSlide(b.mapMinTo, b.mapMaxTo) && r.value.varType == FloatType
    ensures r.Ok? && !slide ==> r.value.kind == Expression(b.expr) && r.value.varType != NoType
  {
    if b.BindUnreadable? then Err(ReadError)
    else match TargetDevice(b.device, syn)
      case Err(e) => Err(e)
      case Ok(dev) =>
        if !syn.validVarPath(b.path) then Err(IllegalTargetPath)
        else if slide then
          if b.typeName == "float" then Ok(BindEntry(FloatSlide(b.mapMinTo, b.mapMaxTo), dev.0, dev.1, FloatType, b.path))
          else Err(InvalidSlideTargetType)
        else
          var t := GenericTargetType(b.typeName);
          if t == NoType then Err(InvalidTargetType)
          else Ok(BindEntry(Expression(b.expr), dev.0, dev.1, t, b.path))
  }

  /** The binding list after the remaining bindings are appended at its tail. */
  function ReadBindings(acc: seq<BindEntry>, bs: seq<BindText>, slide: bool, syn: Syntax): Result<seq<BindEntry>, VarsError>
    decreases |bs|
  {
    if |bs| == 0 then Ok(acc)
    else match ReadBinding(bs[0], slide, syn)
      case Err(e) => Err(e)
      case Ok(b) => ReadBindings(acc + [b], bs[1..], slide, syn)
  }

  /** The variable type named by a type name. */
  function VarTypeOf(typeName: string): (r: Option<VarType>)
    ensures r.Some? <==> typeName in {"bool", "int", "float", "tstamp", "float_slide"}
    ensures r == Some(VarFloatSlide) <==> typeName == "float_slide"
  {
    if typeName == "bool" then Some(VarBool)
    else if typeName == "int" then Some(VarInt)
    else if typeName == "float" then Some(VarFloat)
    else if typeName == "tstamp" then Some(VarTstamp)
    else if typeName == "float_slide" then Some(VarFloatSlide)
    else None
  }

  /** The reader accepts an initial value of the variable's own type only. */
  predicate InitFits(t: VarType, v: Value) {
    match t
    case VarBool => v.BoolValue?
    case VarInt => v.IntValue?
    case VarTstamp => v.TstampValue?
    case _ => v.FloatValue?
  }

  /** `read_var_entry`. */
  function ReadVar(item: VarText, syn: Syntax): (r: Result<VarEntry, VarsError>)
    ensures r.Ok? ==> item.VarText? && syn.validVarName(item.name) && r.value.name == item.name
    ensures r.Ok? ==> VarTypeOf(item.typeName) == Some(r.value.varType) && r.value.init == item.init
    ensures r.Ok? && r.value.varType == VarFloatSlide ==>
      |item.ext| == 2 && r.value.minValue == item.ext[0] && r.value.maxValue == item.ext[1]
    ensures r.Ok? && r.value.varType != VarFloatSlide ==> item.ext == []
  {
    if item.VarUnreadable? then Err(ReadError)
    else if !syn.validVarName(item.name) then Err(IllegalVariableName)
    else match VarTypeOf(item.typeName)
      case None => Err(InvalidVariableType)
      case Some(t) =>
        if !InitFits(t, item.init) then Err(ReadError)
        else if t != VarFloatSlide then
          // the format of a generic variable has an empty extra list "[]"
          if item.ext != [] then Err(ReadError)
          else match ReadBindings([], item.bindings, false, syn)
            case Err(e) => Err(e)
            case Ok(bs) => Ok(VarEntry(item.name, t, item.init, 0.0, 0.0, bs))
        else if |item.ext| > 2 then Err(UnexpectedExtData)
        else match ReadBindings([], item.bindings, true, syn)
          case Err(e) => Err(e)
          case Ok(bs) =>
            // a bound that is not read stays NaN
            if |item.ext| < 2 then Err(MissingBounds)
            else Ok(VarEntry(item.name, t, item.init, item.ext[0], item.ext[1], bs))
  }

  /** The variables after the remaining items are added. */
  function ReadVars(vars: map<string, VarEntry>, items: seq<VarText>, syn: Syntax): Result<map<string, VarEntry>, VarsError>
    decreases |items|
  {
    if |items| == 0 then Ok(vars)
    else match ReadVar(items[0], syn)
      case Err(e) => Err(e)
      case Ok(v) => ReadVars(vars[v.name := v], items[1..], syn)
  }

  /** `new_Au_control_vars` as a function: an error already in the reader, or any item that fails, gives no variables. */
  function FromItems(items: seq<VarText>, priorError: bool, syn: Syntax): Result<map<string, VarEntry>, VarsError> {
    if priorError then Err(PriorError) else ReadVars(map[], items, syn)
  }

  /** `read_var_entry` with the bindings appended one by one at the tail of the list. */
  method ReadVarEntry(item: VarText, syn: Syntax) returns (r: Result<VarEntry, VarsError>)
    ensures r == ReadVar(item, syn)
  {
    if item.VarUnreadable? {
      return Err(ReadError);
    }
    if !syn.validVarName(item.name) {
      return Err(IllegalVariableName);
    }
    var t := VarTypeOf(item.typeName);
    if t.None? {
      return Err(InvalidVariableType);
    }
    if !InitFits(t.value, item.init) {
      return Err(ReadError);
    }
    var slide := t.value == VarFloatSlide;
    if !slide && item.ext != [] {
      return Err(ReadError);
    }
    if slide && |item.ext| > 2 {
      return Err(UnexpectedExtData);
    }
    var bindings: seq<BindEntry> := [];
    var i := 0;
    while i < |item.bindings|
      invariant 0 <= i <= |item.bindings|
      invariant ReadBindings([], item.bindings, slide, syn) == ReadBindings(bindings, item.bindings[i..], slide, syn)
    {
      assert item.bindings[i..][0] == item.bindings[i] && item.bindings[i..][1..] == item.bindings[i + 1..];
      var b := ReadBinding(item.bindings[i], slide, syn);
      if b.Err? {
        return Err(b.error);
      }
      bindings := bindings + [b.value];
      i := i + 1;
    }
    assert item.bindings[i..] == [];
    if !slide {
      return Ok(VarEntry(item.name, t.value, item.init, 0.0, 0.0, bindings));
    }
    if |item.ext| < 2 {
      return Err(MissingBounds);
    }
    return Ok(VarEntry(item.name, t.value, item.init, item.ext[0], item.ext[1], bindings));
  }

  /** `new_Au_control_vars`: the variables are read one by one into the table. */
  method NewAuControlVars(items: seq<VarText>, priorError: bool, syn: Syntax)
    returns (r: Result<map<string, VarEntry>, VarsError>)
    ensures r == FromItems(items, priorError, syn)
  {
    if priorError {
      return Err(PriorError);
    }
    var vars: map<string, VarEntry> := map[];
    var i := 0;
    while i < |items|
      invariant 0 <= i <= |items|
      invariant ReadVars(map[], items, syn) == ReadVars(vars, items[i..], syn)
    {
      assert items[i..][0] == items[i] && items[i..][1..] == items[i + 1..];
      var v := ReadVarEntry(items[i], syn);
      if v.Err? {
        return Err(v.error);
      }
      vars := vars[v.value.name := v.value];
      i := i + 1;
    }
    assert items[i..] == [];
    return Ok(vars);
  }

  /** Reading bindings keeps those read before and appends one entry per binding, in input order. */
  lemma {:induction false} BindingsInOrder(acc: seq<BindEntry>, bs: seq<BindText>, slide: bool, syn: Syntax)
    ensures ReadBindings(acc, bs, slide, syn).Ok? <==> forall j :: 0 <= j < |bs| ==> ReadBinding(bs[j], slide, syn).Ok?
    ensures ReadBindings(acc, bs, slide, syn).Ok? ==>
      var out := ReadBindings(acc, bs, slide, syn).value;
      |out| == |acc| + |bs| && out[..|acc|] == acc &&
      forall j :: 0 <= j < |bs| ==> ReadBinding(bs[j], slide, syn) == Ok(out[|acc| + j])
    decreases |bs|
  {
    if |bs| > 0 {
      var b := ReadBinding(bs[0], slide, syn);
      BindingsInOrder(acc + (if b.Ok? then [b.value] else []), bs[1..], slide, syn);
      assert forall j :: 1 <= j < |bs| ==> bs[1..][j - 1] == bs[j];
      if b.Ok? {
        var out := ReadBindings(acc, bs, slide, syn);
        if out.Ok? {
          assert out.value[..|acc| + 1][..|acc|] == out.value[..|acc|];
        }
      }
    }
  }

  /** Every variable read holds its bindings in the order of the text. */
  lemma VarBindingsInOrder(item: VarText, syn: Syntax)
    requires ReadVar(item, syn).Ok?
    ensures var v := ReadVar(item, syn).value;
      |v.bindings| == |item.bindings| &&
      forall j :: 0 <= j < |item.bindings| ==>
        ReadBinding(item.bindings[j], v.varType == VarFloatSlide, syn) == Ok(v.bindings[j])
  {
    var v := ReadVar(item, syn).value;
    BindingsInOrder([], item.bindings, v.varType == VarFloatSlide, syn);
  }

  /** A float_slide variable is read only with both bounds. */
  lemma FloatSlideNeedsBounds(item: VarText, syn: Syntax)
    requires item.VarText? && item.typeName == "float_slide" && |item.ext| < 2
    ensures ReadVar(item, syn).Err?
  {
  }

  /** Its extra list holds indices 0 and 1 only. */
  lemma FloatSlideExtraIndices(item: VarText, syn: Syntax)
    requires item.VarText? && item.typeName == "float_slide" && syn.validVarName(item.name)
    requires item.init.FloatValue? && |item.ext| > 2
    ensures ReadVar(item, syn) == Err(UnexpectedExtData)
  {
  }

  /** The variables read are exactly those of the items; one failing item fails the whole list. */
  lemma {:induction false} ReadVarsAll(vars: map<string, VarEntry>, items: seq<VarText>, syn: Syntax)
    ensures ReadVars(vars, items, syn).Ok? <==> forall i :: 0 <= i < |items| ==> ReadVar(items[i], syn).Ok?
    ensures ReadVars(vars, items, syn).Ok? ==>
      var out := ReadVars(vars, items, syn).value;
      (forall i :: 0 <= i < |items| ==> ReadVar(items[i], syn).value.name in out) &&
      (forall name :: name in out ==> name in vars || exists i :: 0 <= i < |items| && ReadVar(items[i], syn).value.name == name)
    decreases |items|
  {
    if |items| > 0 {
      var v := ReadVar(items[0], syn);
      var next := if v.Ok? then vars[v.value.name := v.value] else vars;
      ReadVarsAll(next, items[1..], syn);
      assert forall i :: 1 <= i < |items| ==> items[1..][i - 1] == items[i];
      if v.Ok? && ReadVars(vars, items, syn).Ok? {
        ReadVarsKeeps(next, items[1..], syn, v.value.name);
        var out := ReadVars(vars, items, syn).value;
        forall name | name in out
          ensures name in vars || exists i :: 0 <= i < |items| && ReadVar(items[i], syn).value.name == name
        {
          if name !in vars && name != v.value.name {
            var i :| 0 <= i < |items[1..]| && ReadVar(items[1..][i], syn).value.name == name;
            assert ReadVar(items[i + 1], syn).value.name == name;
          }
        }
      }
    }
  }

  /** A name in the table stays there. */
  lemma {:induction false} ReadVarsKeeps(vars: map<string, VarEntry>, items: seq<VarText>, syn: Syntax, name: string)
    requires name in vars && ReadVars(vars, items, syn).Ok?
    ensures name in ReadVars(vars, items, syn).value
    decreases |items|
  {
    if |items| > 0 {
      var v := ReadVar(items[0], syn).value;
      ReadVarsKeeps(vars[v.name := v], items[1..], syn, name);
    }
  }

  /**
   * `Au_control_binding_iter` in its device mode: a position in the
   * binding list of one variable and the target of the current binding.
   */
  class BindingIter {
    var entries: seq<BindEntry>
    var pos: nat
    var targetDevType: TargetDev
    var targetDevIndex: int
    var targetVarName: string

    /** The iterator stands on a binding and shows its target. */
    predicate OnEntry()
      reads this
    {
      pos < |entries| &&
      targetDevType == entries[pos].devType && targetDevIndex == entries[pos].devIndex &&
      targetVarName == entries[pos].varName
    }

    constructor()
      ensures entries == [] && pos == 0
    {
      entries := [];
      pos := 0;
      targetDevType := TargetAu;
      targetDevIndex := -1;
      targetVarName := [];
    }

    /** `Au_control_binding_iter_init`: fails for an unknown variable or one without bindings. */
    method Init(vars: map<string, VarEntry>, varName: string) returns (ok: bool)
      modifies this
      ensures ok <==> varName in vars && |vars[varName].bindings| > 0
      ensures ok ==> entries == vars[varName].bindings && pos == 0 && OnEntry()
      ensures !ok ==> entries == [] && pos == 0 && !OnEntry()
    {
      entries, pos := [], 0;
      if varName !in vars || |vars[varName].bindings| == 0 {
        return false;
      }
      entries := vars[varName].bindings;
      pos := 0;
      Update();
      return true;
    }

    /** `Au_control_binding_iter_get_next_entry`: false past the last binding. */
    method GetNext() returns (more: bool)
      requires pos < |entries|
      modifies this
      ensures entries == old(entries) && pos == old(pos) + 1
      ensures more <==> pos < |entries|
      ensures more ==> OnEntry()
      ensures !more ==> (targetDevType == old(targetDevType) && targetDevIndex == old(targetDevIndex) &&
                         targetVarName == old(targetVarName))
    {
      pos := pos + 1;
      if pos >= |entries| {
        return false;
      }
      Update();
      return true;
    }

    method Update()
      requires pos < |entries|
      modifies this
      ensures entries == old(entries) && pos == old(pos) && OnEntry()
    {
      targetDevType := entries[pos].devType;
      targetDevIndex := entries[pos].devIndex;
      targetVarName := entries[pos].varName;
    }
  }

  /** Walking the iterator from init to the end visits every binding once, in input order. */
  method VisitBindings(vars: map<string, VarEntry>, varName: string) returns (visited: seq<BindEntry>)
    ensures visited == if varName in vars then vars[varName].bindings else []
  {
    var iter := new BindingIter();
    var more := iter.Init(vars, varName);
    visited := [];
    if !more {
      return;
    }
    while more
      invariant iter.entries == vars[varName].bindings
      invariant more ==> iter.OnEntry() && visited == iter.entries[..iter.pos]
      invariant !more ==> visited == iter.entries
      decreases |iter.entries| - iter.pos
    {
      visited := visited + [BindEntry(iter.entries[iter.pos].kind, iter.targetDevType, iter.targetDevIndex,
                                      iter.entries[iter.pos].varType, iter.targetVarName)];
      assert visited == iter.entries[..iter.pos + 1];
      more := iter.GetNext();
    }
  }
}

=== FILE: connections.dfy ===
/**
 * The connection graph of a composition or an instrument. A description
 * is a list of [source, destination] path pairs; each path names a device
 * directory followed by a port directory. Paths are validated and cut at
 * the port directory, the device names become vertices, and a graph with
 * a cycle is refused. The text reader is not part of this model: its
 * output arrives as the list of path pairs, or as a read error.
 */
module Connections {
  import opened Wrappers
  import opened Strings
  import opened Limits

  const HEX_DIGITS: string := "0123456789abcdef"
  const MASTER: string := "/"

  const INS_HEADER: string := "/" + MAGIC_ID + "iXX/"
  const GEN_HEADER: string := "/" + MAGIC_ID + "gXX/"
  const DSP_HEADER: string := "/" + MAGIC_ID + "eXX/"

  predicate IsHex(c: char) {
    c in HEX_DIGITS
  }

  /** The value of a lower-case hexadecimal digit: its position in HEX_DIGITS. */
  function HexValue(c: char): (v: nat)
    requires IsHex(c)
    ensures v < 16 && HEX_DIGITS[v] == c
  {
    if c == '0' then 0 else if c == '1' then 1 else if c == '2' then 2
    else if c == '3' then 3 else if c == '4' then 4 else if c == '5' then 5
    else if c == '6' then 6 else if c == '7' then 7 else if c == '8' then 8
    else if c == '9' then 9 else if c == 'a' then 10 else if c == 'b' then 11
    else if c == 'c' then 12 else if c == 'd' then 13 else if c == 'e' then 14
    else 15
  }

  /** Two lower-case hexadecimal digits for n < 256. */
  function Hex2(n: nat): (s: string)
    requires n < 256
    ensures |s| == 2 && IsHex(s[0]) && IsHex(s[1])
  {
    [HEX_DIGITS[n / 16], HEX_DIGITS[n % 16]]
  }

  /** The character at i of a NUL-terminated string: NUL at and past the end. */
  function At(s: string, i: nat): char {
    if i < |s| then s[i] else '\0'
  }

  /**
   * `read_index`: INT_MAX unless the text starts with exactly two
   * lower-case hexadecimal digits, whose value it then is.
   */
  function ReadIndex(t: string): (r: int)
    ensures r == INT_MAX || 0 <= r < 256
    ensures r != INT_MAX <==> |t| >= 2 && IsHex(t[0]) && IsHex(t[1]) && !IsHex(At(t, 2))
  {
    if |t| >= 2 && IsHex(t[0]) && IsHex(t[1]) && !IsHex(At(t, 2)) then
      16 * HexValue(t[0]) + HexValue(t[1])
    else
      INT_MAX
  }

  /** Reading back two written digits gives the number. */
  lemma ReadIndexHex2(n: nat, rest: string)
    requires n < 256 && (rest == [] || !IsHex(rest[0]))
    ensures ReadIndex(Hex2(n) + rest) == n
  {
    var t := Hex2(n) + rest;
    assert t[0] == HEX_DIGITS[n / 16] && t[1] == HEX_DIGITS[n % 16];
    assert At(t, 2) == At(rest, 0);
    HexValueOf(n / 16);
    HexValueOf(n % 16);
  }

  lemma HexValueOf(d: nat)
    requires d < 16
    ensures HexValue(HEX_DIGITS[d]) == d
  {
  }

  /** The index of the first '_' (`strcspn(t, "_")`), or |t| when there is none. */
  function FirstUnderscore(t: string): (i: nat)
    ensures i <= |t| && (i < |t| ==> t[i] == '_')
    ensures forall j :: 0 <= j < i ==> t[j] != '_'
    ensures '_' in t ==> i < |t|
  {
    if |t| == 0 || t[0] == '_' then 0 else 1 + FirstUnderscore(t[1..])
  }

  datatype PathError =
    | InstrumentAtInsLevel
    | BadInstrumentNumber
    | MissingInstrumentHeader
    | GeneratorAtRoot
    | BadGeneratorNumber
    | MissingGeneratorHeader
    | BadGeneratorParamDir
    | BadDspNumber
    | MissingDspHeader
    | BadDspParamDir
    | InputForInsOrGen
    | InputForRoot
    | BadPortNumber
    | GarbageAfterPort
    | InvalidConnection

  datatype DeviceKind = Root | Instrument | Generator | Dsp

  /**
   * How a port directory is recognised: the code tests "in_" as a prefix
   * and "out_" as a suffix; the prefix test for both is what the port
   * names "in_XX" and "out_XX" call for.
   */
  datatype PortRule = OutSuffixAsWritten | OutPrefixIntended

  predicate IsPortDir(t: string, rule: PortRule) {
    HasPrefix(t, "in_") ||
    (if rule == OutSuffixAsWritten then HasSuffix(t, "out_") else HasPrefix(t, "out_"))
  }

  lemma PortDirHasUnderscore(t: string, rule: PortRule)
    requires IsPortDir(t, rule)
    ensures '_' in t
  {
    if HasPrefix(t, "in_") {
      assert t[..3][2] == '_';
    } else if rule == OutSuffixAsWritten {
      assert t[|t| - 4..][3] == '_';
    } else {
      assert t[..4][3] == '_';
    }
  }

  /**
   * What validating one path leaves behind: the errors recorded in the
   * read state (the first ones were there before), the returned port or
   * -1, and the path, cut before the port directory when a port is
   * returned.
   */
  datatype Checked = Checked(errors: seq<PathError>, port: int, path: string)

  /** The port directory of a path, from index i on. */
  function PortPart(s: string, i: nat, kind: DeviceKind, errors: seq<PathError>, rule: PortRule): (r: Checked)
    requires i <= |s|
    ensures r.port == -1 ==> |r.errors| > 0
    ensures r.port != -1 ==> 0 <= r.port < KQT_DEVICE_PORTS_MAX && r.path == s[..i]
    ensures errors <= r.errors
  {
    var t := s[i..];
    if IsPortDir(t, rule) then
      if HasPrefix(t, "in_") && (kind == Instrument || kind == Generator) then
        Checked(errors + [InputForInsOrGen], -1, s)
      else
        // the root-input error does not end the validation
        var errs := if HasPrefix(t, "in_") && kind == Root then errors + [InputForRoot] else errors;
        PortDirHasUnderscore(t, rule);
        var u := t[FirstUnderscore(t) + 1..];
        var port := ReadIndex(u);
        if port >= KQT_DEVICE_PORTS_MAX then
          Checked(errs + [BadPortNumber], -1, s)
        else
          var v := u[2..];
          if At(v, 0) != '/' && At(v, 0) != '\0' && At(v, 1) != '\0' then
            Checked(errs + [GarbageAfterPort], -1, s)
          else
            Checked(errs, port, s[..i])
    else
      Checked(errors + [InvalidConnection], -1, s)
  }

  /**
   * `validate_connection_path`: an optional device directory (instrument,
   * generator or DSP, each with its number and header) and then a port
   * directory. A read state that already holds an error returns -1 at once.
   */
  function ValidatePath(s: string, insLevel: bool, errors: seq<PathError>, rule: PortRule): (r: Checked)
    ensures |errors| > 0 ==> r == Checked(errors, -1, s)
    ensures r.port == -1 ==> |r.errors| > 0
    ensures r.port != -1 ==> 0 <= r.port < KQT_DEVICE_PORTS_MAX && HasPrefix(s, r.path)
    ensures errors <= r.errors
  {
    if |errors| > 0 then
      Checked(errors, -1, s)
    else if HasPrefix(s, "ins_") then
      InstrumentPath(s, insLevel, rule)
    else if HasPrefix(s, "gen_") then
      GeneratorPath(s, insLevel, rule)
    else if HasPrefix(s, "dsp_") then
      DspPath(s, rule)
    else
      PortPart(s, 0, Root, [], rule)
  }

  /** A path that starts with an instrument directory "ins_XX/kqtiXX/". */
  function InstrumentPath(s: string, insLevel: bool, rule: PortRule): (r: Checked)
    requires HasPrefix(s, "ins_")
    ensures r.port == -1 ==> |r.errors| > 0
    ensures r.port != -1 ==> 0 <= r.port < KQT_DEVICE_PORTS_MAX && HasPrefix(s, r.path)
  {
    if insLevel then
      Checked([InstrumentAtInsLevel], -1, s)
    else if ReadIndex(s[4..]) >= KQT_INSTRUMENTS_MAX then
      Checked([BadInstrumentNumber], -1, s)
    else if !HasPrefix(s[6..], INS_HEADER) then
      Checked([MissingInstrumentHeader], -1, s)
    else
      PortPart(s, 6 + |INS_HEADER|, Instrument, [], rule)
  }

  /** A path that starts with a generator directory "gen_XX/kqtgXX/C/". */
  function GeneratorPath(s: string, insLevel: bool, rule: PortRule): (r: Checked)
    requires HasPrefix(s, "gen_")
    ensures r.port == -1 ==> |r.errors| > 0
    ensures r.port != -1 ==> 0 <= r.port < KQT_DEVICE_PORTS_MAX && HasPrefix(s, r.path)
  {
    // a generator at the root level is an error, yet the validation goes on
    var errs := if insLevel then [] else [GeneratorAtRoot];
    if ReadIndex(s[4..]) >= KQT_GENERATORS_MAX then
      Checked(errs + [BadGeneratorNumber], -1, s)
    else if !HasPrefix(s[6..], GEN_HEADER) then
      Checked(errs + [MissingGeneratorHeader], -1, s)
    else if !HasPrefix(s[6 + |GEN_HEADER|..], "C/") then
      Checked(errs + [BadGeneratorParamDir], -1, s)
    else
      PortPart(s, 8 + |GEN_HEADER|, Generator, errs, rule)
  }

  /** A path that starts with a DSP directory "dsp_XX/kqteXX/C/". */
  function DspPath(s: string, rule: PortRule): (r: Checked)
    requires HasPrefix(s, "dsp_")
    ensures r.port == -1 ==> |r.errors| > 0
    ensures r.port != -1 ==> 0 <= r.port < KQT_DEVICE_PORTS_MAX && HasPrefix(s, r.path)
  {
    if ReadIndex(s[4..]) >= KQT_DSP_EFFECTS_MAX then
      Checked([BadDspNumber], -1, s)
    else if !HasPrefix(s[6..], DSP_HEADER) then
      Checked([MissingDspHeader], -1, s)
    else if !HasPrefix(s[6 + |DSP_HEADER|..], "C/") then
      Checked([BadDspParamDir], -1, s)
    else
      PortPart(s, 8 + |DSP_HEADER|, Dsp, [], rule)
  }

  /** An instrument directory is refused in an instrument-level connection. */
  lemma InstrumentRefusedAtInsLevel(s: string, rule: PortRule)
    requires HasPrefix(s, "ins_")
    ensures ValidatePath(s, true, [], rule) == Checked([InstrumentAtInsLevel], -1, s)
  {
  }

  /** An instrument directory with a valid number and header leaves the rest to the port part. */
  lemma InstrumentStage(n: nat, t: string, rule: PortRule)
    requires n < KQT_INSTRUMENTS_MAX
    ensures var s := "ins_" + Hex2(n) + INS_HEADER + t;
      ValidatePath(s, false, [], rule) == PortPart(s, 6 + |INS_HEADER|, Instrument, [], rule)
  {
    DeviceDir("ins_", n, INS_HEADER, t);
    InstrumentHeaderAccepted("ins_" + Hex2(n) + INS_HEADER + t, rule);
  }

  lemma InstrumentHeaderAccepted(s: string, rule: PortRule)
    requires HasPrefix(s, "ins_") && ReadIndex(s[4..]) < KQT_INSTRUMENTS_MAX && HasPrefix(s[6..], INS_HEADER)
    ensures ValidatePath(s, false, [], rule) == PortPart(s, 6 + |INS_HEADER|, Instrument, [], rule)
  {
  }

  /** The same for a generator directory and its parameter directory "C/". */
  lemma GeneratorStage(n: nat, t: string, rule: PortRule)
    requires n < KQT_GENERATORS_MAX
    ensures var s := "gen_" + Hex2(n) + GEN_HEADER + "C/" + t;
      ValidatePath(s, true, [], rule) == PortPart(s, 8 + |GEN_HEADER|, Generator, [], rule)
  {
    var s := "gen_" + Hex2(n) + GEN_HEADER + "C/" + t;
    assert s == "gen_" + Hex2(n) + GEN_HEADER + ("C/" + t);
    DeviceDir("gen_", n, GEN_HEADER, "C/" + t);
    PrefixOf(s[6 + |GEN_HEADER|..], "C/", t);
    assert !HasPrefix(s, "ins_") by {
      assert s[..4][0] == 'g';
    }
    GeneratorHeaderAccepted(s, rule);
  }

  lemma GeneratorHeaderAccepted(s: string, rule: PortRule)
    requires HasPrefix(s, "gen_") && !HasPrefix(s, "ins_") && ReadIndex(s[4..]) < KQT_GENERATORS_MAX
    requires HasPrefix(s[6..], GEN_HEADER) && HasPrefix(s[6 + |GEN_HEADER|..], "C/")
    ensures ValidatePath(s, true, [], rule) == PortPart(s, 8 + |GEN_HEADER|, Generator, [], rule)
  {
  }

  /** The same for a DSP directory and its parameter directory "C/". */
  lemma DspStage(n: nat, t: string, insLevel: bool, rule: PortRule)
    requires n < KQT_DSP_EFFECTS_MAX
    ensures var s := "dsp_" + Hex2(n) + DSP_HEADER + "C/" + t;
      ValidatePath(s, insLevel, [], rule) == PortPart(s, 8 + |DSP_HEADER|, Dsp, [], rule)
  {
    var s := "dsp_" + Hex2(n) + DSP_HEADER + "C/" + t;
    assert s == "dsp_" + Hex2(n) + DSP_HEADER + ("C/" + t);
    DeviceDir("dsp_", n, DSP_HEADER, "C/" + t);
    PrefixOf(s[6 + |DSP_HEADER|..], "C/", t);
    assert !HasPrefix(s, "ins_") && !HasPrefix(s, "gen_") by {
      assert s[..4][0] == 'd';
    }
    DspHeaderAccepted(s, insLevel, rule);
  }

  lemma DspHeaderAccepted(s: string, insLevel: bool, rule: PortRule)
    requires HasPrefix(s, "dsp_") && !HasPrefix(s, "ins_") && !HasPrefix(s, "gen_")
    requires ReadIndex(s[4..]) < KQT_DSP_EFFECTS_MAX
    requires HasPrefix(s[6..], DSP_HEADER) && HasPrefix(s[6 + |DSP_HEADER|..], "C/")
    ensures ValidatePath(s, insLevel, [], rule) == PortPart(s, 8 + |DSP_HEADER|, Dsp, [], rule)
  {
  }

  /** A four-character tag, two digits and a directory header, then the rest. */
  lemma DeviceDir(tag: string, n: nat, header: string, t: string)
    requires |tag| == 4 && n < 256 && |header| > 0 && !IsHex(header[0])
    ensures var s := tag + Hex2(n) + header + t;
      HasPrefix(s, tag) && ReadIndex(s[4..]) == n && HasPrefix(s[6..], header) && s[6 + |header|..] == t
  {
    var s := tag + Hex2(n) + header + t;
    PrefixOf(s, tag, Hex2(n) + header + t);
    assert s[4..] == Hex2(n) + (header + t);
    ReadIndexHex2(n, header + t);
    assert s[6..] == header + t;
    PrefixOf(s[6..], header, t);
  }

  /** An input port directory of an instrument or a generator is refused. */
  lemma InputOfInsOrGen(s: string, i: nat, kind: DeviceKind, rest: string, rule: PortRule)
    requires i <= |s| && s[i..] == "in_" + rest && (kind == Instrument || kind == Generator)
    ensures PortPart(s, i, kind, [], rule) == Checked([InputForInsOrGen], -1, s)
  {
    PrefixOf(s[i..], "in_", rest);
  }

  /** The port number and what may follow it, for an input port of a DSP. */
  lemma DspInputStage(s: string, i: nat, port: nat, tail: string, rule: PortRule)
    requires i <= |s| && port < KQT_DEVICE_PORTS_MAX && (tail == [] || !IsHex(tail[0])) && '\0' !in tail
    requires s[i..] == "in_" + Hex2(port) + tail
    ensures var r := PortPart(s, i, Dsp, [], rule);
      if PortEnd(tail) then r == Checked([], port, s[..i])
      else r == Checked([GarbageAfterPort], -1, s)
  {
    InputDir(s[i..], port, tail);
    PortEndAt(tail);
  }

  /** How an input port directory "in_XX" followed by tail reads. */
  lemma InputDir(t: string, port: nat, tail: string)
    requires port < 256 && (tail == [] || !IsHex(tail[0]))
    requires t == "in_" + Hex2(port) + tail
    ensures HasPrefix(t, "in_") && FirstUnderscore(t) == 2
    ensures ReadIndex(t[3..]) == port && t[3..][2..] == tail
  {
    PrefixOf(t, "in_", Hex2(port) + tail);
    assert FirstUnderscore(t) == 2 by {
      assert t[0] == 'i' && t[1] == 'n' && t[2] == '_';
    }
    assert t[3..] == Hex2(port) + tail;
    ReadIndexHex2(port, tail);
  }

  /** What may follow a port number: nothing, a '/', or a single character. */
  predicate PortEnd(tail: string) {
    tail == [] || tail[0] == '/' || |tail| == 1
  }

  /** The garbage test of the code, on text without NUL characters. */
  lemma PortEndAt(tail: string)
    requires '\0' !in tail
    ensures PortEnd(tail) <==> !(At(tail, 0) != '/' && At(tail, 0) != '\0' && At(tail, 1) != '\0')
  {
    if |tail| >= 2 {
      assert tail[0] in tail && tail[1] in tail;
    } else if |tail| == 1 {
      assert tail[0] in tail;
    }
  }

  /** Input ports of instruments are refused. */
  lemma InstrumentInputRefused(n: nat, rest: string, rule: PortRule)
    requires n < KQT_INSTRUMENTS_MAX
    ensures var s := "ins_" + Hex2(n) + INS_HEADER + "in_" + rest;
      ValidatePath(s, false, [], rule) == Checked([InputForInsOrGen], -1, s)
  {
    var s := "ins_" + Hex2(n) + INS_HEADER + "in_" + rest;
    InstrumentStage(n, "in_" + rest, rule);
    assert s == "ins_" + Hex2(n) + INS_HEADER + ("in_" + rest);
    assert s[6 + |INS_HEADER|..] == "in_" + rest;
    InputOfInsOrGen(s, 6 + |INS_HEADER|, Instrument, rest, rule);
  }

  /** Input ports of generators are refused. */
  lemma GeneratorInputRefused(n: nat, rest: string, rule: PortRule)
    requires n < KQT_GENERATORS_MAX
    ensures var s := "gen_" + Hex2(n) + GEN_HEADER + "C/in_" + rest;
      ValidatePath(s, true, [], rule) == Checked([InputForInsOrGen], -1, s)
  {
    var s := "gen_" + Hex2(n) + GEN_HEADER + "C/in_" + rest;
    GeneratorStage(n, "in_" + rest, rule);
    assert s == "gen_" + Hex2(n) + GEN_HEADER + "C/" + ("in_" + rest);
    assert s[8 + |GEN_HEADER|..] == "in_" + rest;
    InputOfInsOrGen(s, 8 + |GEN_HEADER|, Generator, rest, rule);
  }

  /**
   * A DSP input port is accepted exactly when what follows its two digits
   * is empty, starts with '/', or is a single character; the path is then
   * cut before the port directory.
   */
  lemma DspInputPort(n: nat, port: nat, tail: string, insLevel: bool, rule: PortRule)
    requires n < KQT_DSP_EFFECTS_MAX && port < KQT_DEVICE_PORTS_MAX
    requires (tail == [] || !IsHex(tail[0])) && '\0' !in tail
    ensures var device := "dsp_" + Hex2(n) + DSP_HEADER + "C/";
      var r := ValidatePath(device + "in_" + Hex2(port) + tail, insLevel, [], rule);
      if PortEnd(tail) then r == Checked([], port, device)
      else r.port == -1 && r.errors == [GarbageAfterPort]
  {
    var device := "dsp_" + Hex2(n) + DSP_HEADER + "C/";
    var t := "in_" + Hex2(port) + tail;
    var s := device + t;
    assert device + "in_" + Hex2(port) + tail == s;
    DspStage(n, t, insLevel, rule);
    PrefixOf(s, device, t);
    DspInputStage(s, |device|, port, tail, rule);
  }

  lemma PrefixOf(s: string, p: string, rest: string)
    requires s == p + rest
    ensures HasPrefix(s, p) && s[|p|..] == rest
  {
    assert s[..|p|] == p;
  }

  /**
   * With the suffix test of the code, an output port "out_XX" of the
   * master (a root-level path) is not recognised as a port directory.
   */
  lemma OutPortBySuffixRefused(port: nat, insLevel: bool)
    requires port < KQT_DEVICE_PORTS_MAX
    ensures var s := "out_" + Hex2(port);
      ValidatePath(s, insLevel, [], OutSuffixAsWritten) == Checked([InvalidConnection], -1, s)
  {
    var s := "out_" + Hex2(port);
    assert !HasPrefix(s, "ins_") && !HasPrefix(s, "gen_") && !HasPrefix(s, "dsp_") by {
      assert s[..4][0] == 'o';
    }
    assert !HasPrefix(s, "in_") by {
      assert s[..3][0] == 'o';
    }
    assert !HasSuffix(s, "out_") by {
      assert s[2..][3] == Hex2(port)[1];
    }
    assert s[0..] == s;
  }

  /**
   * With the prefix test, "out_XX" at the root is accepted as port XX, and
   * the path is trimmed to the root path "" (not the master "/").
   */
  lemma OutPortByPrefixAccepted(port: nat, insLevel: bool)
    requires port < KQT_DEVICE_PORTS_MAX
    ensures ValidatePath("out_" + Hex2(port), insLevel, [], OutPrefixIntended) == Checked([], port, [])
  {
    var t := "out_" + Hex2(port);
    assert !HasPrefix(t, "ins_") && !HasPrefix(t, "gen_") && !HasPrefix(t, "dsp_") && !HasPrefix(t, "in_") by {
      assert t[..3][0] == 'o';
    }
    PrefixOf(t, "out_", Hex2(port));
    assert FirstUnderscore(t) == 3 by {
      assert t[0] == 'o' && t[1] == 'u' && t[2] == 't' && t[3] == '_';
    }
    assert t[4..] == Hex2(port) + [];
    ReadIndexHex2(port, []);
    assert t[0..] == t;
  }

  /** At the root level a generator path is always refused, although its validation goes on. */
  lemma GeneratorAtRootRefused(s: string, rule: PortRule)
    requires HasPrefix(s, "gen_")
    ensures var r := ValidatePath(s, false, [], rule);
      |r.errors| > 0 && r.errors[0] == GeneratorAtRoot
  {
    assert !HasPrefix(s, "ins_") by {
      assert s[..4][0] == 'g';
    }
  }

  datatype Edge = Edge(src: string, srcPort: nat, dest: string, destPort: nat)

  datatype Graph = Graph(vertices: set<string>, edges: set<Edge>)

  /** A new graph: the master vertex only. */
  const Initial: Graph := Graph({MASTER}, {})

  /** Every edge joins two vertices of the graph. */
  predicate Closed(g: Graph) {
    forall e | e in g.edges :: e.src in g.vertices && e.dest in g.vertices
  }

  /** The links between device names, ports aside. */
  function Links(g: Graph): set<(string, string)> {
    set e | e in g.edges :: (e.src, e.dest)
  }

  /** Pairs joined by a walk of at most k + 1 links. */
  function Reach<V(==)>(links: set<(V, V)>, k: nat): set<(V, V)> {
    if k == 0 then links
    else
      var r := Reach(links, k - 1);
      r + Extend(r, links)
  }

  /** p is joined by a walk of at most k + 1 links. */
  ghost predicate InReach<V>(links: set<(V, V)>, k: nat, p: (V, V)) {
    p in Reach(links, k)
  }

  /** The pairs of r followed by one more link. */
  function Extend<V(==)>(r: set<(V, V)>, links: set<(V, V)>): set<(V, V)> {
    set p, q | p in r && q in links && p.1 == q.0 :: (p.0, q.1)
  }

  /**
   * `Connections_is_cyclic`: some vertex reaches itself by a walk of at
   * most |vertices| + 1 links, which covers every cycle through distinct
   * vertices.
   */
  predicate Cyclic(g: Graph) {
    exists p | p in Reach(Links(g), |g.vertices|) :: p.0 == p.1
  }

  /** w is a walk: every pair of neighbours in w is a link. */
  predicate IsWalk<V(==)>(links: set<(V, V)>, w: seq<V>) {
    |w| >= 2 && forall i :: 0 <= i < |w| - 1 ==> (w[i], w[i + 1]) in links
  }

  /** w is a walk of at most n vertices from p.0 to p.1. */
  predicate Joins<V(==)>(links: set<(V, V)>, w: seq<V>, p: (V, V), n: nat) {
    IsWalk(links, w) && w[0] == p.0 && w[|w| - 1] == p.1 && |w| <= n
  }

  /** Every pair in Reach is joined by a walk of at most k + 1 links. */
  lemma {:induction false} ReachWalk<V>(links: set<(V, V)>, k: nat, p: (V, V)) returns (w: seq<V>)
    requires InReach(links, k, p)
    ensures Joins(links, w, p, k + 2)
    decreases k, 1
  {
    if k == 0 {
      w := LinkWalk(links, p);
    } else {
      w := ReachWalkLonger(links, k - 1, p);
    }
  }

  /** A pair of Reach(links, j + 1) is one of Reach(links, j) or one link beyond one. */
  lemma {:induction false} ReachWalkLonger<V>(links: set<(V, V)>, j: nat, p: (V, V)) returns (w: seq<V>)
    requires InReach(links, j + 1, p)
    ensures Joins(links, w, p, j + 3)
    decreases j + 1, 0
  {
    var earlier, q, e := ReachCases(links, j, p);
    if earlier {
      w := ReachWalk(links, j, p);
    } else {
      var w' := ReachWalk(links, j, q);
      w := WalkExtend(links, j + 1, q, e, w');
    }
  }

  /** A pair of Reach(links, j + 1) is in Reach(links, j) or a pair q of it followed by a link e. */
  lemma ReachCases<V>(links: set<(V, V)>, j: nat, p: (V, V))
      returns (earlier: bool, q: (V, V), e: (V, V))
    requires InReach(links, j + 1, p)
    ensures earlier ==> InReach(links, j, p)
    ensures !earlier ==> InReach(links, j, q) && e in links && q.1 == e.0 && p == (q.0, e.1)
  {
    earlier, q, e := p in Reach(links, j), p, p;
    if !earlier {
      q, e := StepWitness(Reach(links, j), links, p);
    }
  }

  /** A single link is a walk of two vertices. */
  lemma LinkWalk<V>(links: set<(V, V)>, p: (V, V)) returns (w: seq<V>)
    requires p in links
    ensures Joins(links, w, p, 2)
  {
    w := [p.0, p.1];
    assert (w[0], w[1]) in links;
  }

  /** Appending a link to a walk of at most k + 1 vertices. */
  lemma WalkExtend<V>(links: set<(V, V)>, k: nat, q: (V, V), e: (V, V), w': seq<V>) returns (w: seq<V>)
    requires Joins(links, w', q, k + 1)
    requires e in links && q.1 == e.0
    ensures Joins(links, w, (q.0, e.1), k + 2)
  {
    WalkSnoc(links, w', e.1);
    w := w' + [e.1];
  }

  lemma WalkSnoc<V>(links: set<(V, V)>, w: seq<V>, x: V)
    requires IsWalk(links, w) && (w[|w| - 1], x) in links
    ensures IsWalk(links, w + [x])
  {
    var v := w + [x];
    forall i | 0 <= i < |v| - 1
      ensures (v[i], v[i + 1]) in links
    {
      if i < |w| - 1 {
        assert v[i] == w[i] && v[i + 1] == w[i + 1];
      }
    }
  }

  lemma StepWitness<V>(r: set<(V, V)>, links: set<(V, V)>, p: (V, V))
    returns (q: (V, V), e: (V, V))
    requires p in Extend(r, links)
    ensures q in r && e in links && q.1 == e.0 && p == (q.0, e.1)
  {
    q, e :| q in r && e in links && q.1 == e.0 && p == (q.0, e.1);
  }

  /** Every walk of at most k + 1 links joins a pair in Reach. */
  lemma {:induction false} WalkReach<V>(links: set<(V, V)>, w: seq<V>, k: nat)
    requires IsWalk(links, w) && |w| <= k + 2
    ensures InReach(links, k, (w[0], w[|w| - 1]))
    decreases k, 1
  {
    if |w| == 2 {
      LinkInReach(links, k, (w[0], w[1]));
    } else {
      WalkReachLonger(links, w, k);
    }
  }

  /** A walk of more than one link is a shorter walk, whose pair is in Reach(links, k - 1), and a link. */
  lemma {:induction false} WalkReachLonger<V>(links: set<(V, V)>, w: seq<V>, k: nat)
    requires IsWalk(links, w) && 2 < |w| <= k + 2
    ensures InReach(links, k, (w[0], w[|w| - 1]))
    decreases k, 0
  {
    var w', e := WalkSplit(links, w);
    WalkReach(links, w', k - 1);
    ReachExtends(links, k, (w'[0], w'[|w'| - 1]), e);
  }

  /** A walk of more than two vertices is a shorter walk followed by its last link. */
  lemma WalkSplit<V>(links: set<(V, V)>, w: seq<V>) returns (w': seq<V>, e: (V, V))
    requires IsWalk(links, w) && |w| > 2
    ensures IsWalk(links, w') && |w'| == |w| - 1 && w'[0] == w[0]
    ensures e in links && e.0 == w'[|w'| - 1] && e.1 == w[|w| - 1]
  {
    w' := w[..|w| - 1];
    e := (w[|w| - 2], w[|w| - 1]);
    forall i | 0 <= i < |w'| - 1
      ensures (w'[i], w'[i + 1]) in links
    {
      assert w'[i] == w[i] && w'[i + 1] == w[i + 1];
    }
  }

  /** One link beyond Reach(links, k - 1) lies in Reach(links, k). */
  lemma ReachExtends<V>(links: set<(V, V)>, k: nat, q: (V, V), e: (V, V))
    requires k > 0 && InReach(links, k - 1, q) && e in links && q.1 == e.0
    ensures InReach(links, k, (q.0, e.1))
  {
    assert (q.0, e.1) in Extend(Reach(links, k - 1), links);
  }

  /** Reach only grows with the number of links allowed. */
  lemma ReachGrows<V>(links: set<(V, V)>, j: nat, p: (V, V))
    requires InReach(links, j, p)
    ensures InReach(links, j + 1, p)
  {
  }

  /** A single link is a walk of every allowed length. */
  lemma {:induction false} LinkInReach<V>(links: set<(V, V)>, k: nat, p: (V, V))
    requires p in links
    ensures InReach(links, k, p)
  {
    if k > 0 {
      var j: nat := k - 1;
      LinkInReach(links, j, p);
      ReachGrows(links, j, p);
    }
  }

  lemma {:induction false} ReachOfNoLinks(k: nat)
    ensures Reach<string>({}, k) == {}
  {
    if k > 0 {
      ReachOfNoLinks(k - 1);
    }
  }

  /** A cyclic graph has a closed walk. */
  lemma CyclicHasClosedWalk(g: Graph) returns (w: seq<string>)
    requires Cyclic(g)
    ensures IsWalk(Links(g), w) && w[0] == w[|w| - 1]
  {
    var p :| p in Reach(Links(g), |g.vertices|) && p.0 == p.1;
    w := ReachWalk(Links(g), |g.vertices|, p);
  }

  /** A closed walk of at most |vertices| + 1 links makes the graph cyclic. */
  lemma ClosedWalkIsCyclic(g: Graph, w: seq<string>)
    requires IsWalk(Links(g), w) && w[0] == w[|w| - 1] && |w| <= |g.vertices| + 2
    ensures Cyclic(g)
  {
    WalkReach(Links(g), w, |g.vertices|);
  }

  /** A connection from a device to itself is a cycle. */
  lemma SelfLoopIsCyclic(g: Graph, e: Edge)
    requires e in g.edges && e.src == e.dest
    ensures Cyclic(g)
  {
    assert (e.src, e.dest) in Links(g);
    ClosedWalkIsCyclic(g, [e.src, e.dest]);
  }

  /** Adds the vertices and the edge of one validated pair. */
  function Connect(g: Graph, checked: (Checked, Checked)): (h: Graph)
    ensures g.vertices <= h.vertices && g.edges <= h.edges
    ensures Closed(g) ==> Closed(h)
    ensures PairEdge(checked) in h.edges
  {
    Graph(g.vertices + {checked.0.path, checked.1.path}, g.edges + {PairEdge(checked)})
  }

  /** The source and destination of one pair, validated in that order. */
  function CheckPair(pair: (string, string), insLevel: bool, rule: PortRule): (r: (Checked, Checked))
    ensures |r.1.errors| == 0 ==> r.0.port >= 0 && r.1.port >= 0
  {
    var src := ValidatePath(pair.0, insLevel, [], rule);
    (src, ValidatePath(pair.1, insLevel, src.errors, rule))
  }

  /** A validation of pairs; the lemmas about building a graph hold for any. */
  type Checker = ((string, string)) -> (Checked, Checked)

  /** The validation the connection reader applies at one level. */
  function PairChecker(insLevel: bool, rule: PortRule): Checker {
    pair => CheckPair(pair, insLevel, rule)
  }

  /** The edge of a validated pair; -1 ports (never in an accepted pair) become 0. */
  function PairEdge(checked: (Checked, Checked)): Edge {
    var (src, dest) := checked;
    Edge(src.path, if src.port >= 0 then src.port else 0, dest.path, if dest.port >= 0 then dest.port else 0)
  }

  /** The graph after the remaining pairs, or None at the first invalid path. */
  function AddPairs(g: Graph, pairs: seq<(string, string)>, check: Checker): Option<Graph>
    decreases |pairs|
  {
    if |pairs| == 0 then Some(g)
    else
      var checked := check(pairs[0]);
      if |checked.1.errors| > 0 then None
      else AddPairs(Connect(g, checked), pairs[1..], check)
  }

  /** A description as the text reader delivers it. */
  datatype Description =
    | Null                                   // no description at all
    | Pairs(pairs: seq<(string, string)>)   // "[]" when empty
    | Unreadable                             // the reader reported an error

  /**
   * `new_Connections_from_string` as a function: None when the read state
   * already holds an error, the text cannot be read, a path is invalid or
   * the graph is cyclic.
   */
  function FromDescription(d: Description, insLevel: bool, priorError: bool, rule: PortRule): Option<Graph>
  {
    if priorError then None
    else match d
      case Null => Some(Initial)
      case Unreadable => None
      case Pairs(pairs) =>
        match AddPairs(Initial, pairs, PairChecker(insLevel, rule))
        case None => None
        case Some(g) => if Cyclic(g) then None else Some(g)
  }

  /** `new_Connections_from_string`: the graph is built pair by pair. */
  method NewConnectionsFromString(d: Description, insLevel: bool, priorError: bool, rule: PortRule)
    returns (r: Option<Graph>)
    ensures r == FromDescription(d, insLevel, priorError, rule)
  {
    if priorError {
      return None;
    }
    var pairs;
    match d {
      case Null => return Some(Initial);
      case Unreadable => return None;
      case Pairs(ps) => pairs := ps;
    }
    var g := Initial;
    var i := 0;
    while i < |pairs|
      invariant 0 <= i <= |pairs|
      invariant AddPairs(Initial, pairs, PairChecker(insLevel, rule)) == AddPairs(g, pairs[i..], PairChecker(insLevel, rule))
    {
      var src := ValidatePath(pairs[i].0, insLevel, [], rule);
      var dest := ValidatePath(pairs[i].1, insLevel, src.errors, rule);
      assert pairs[i..][0] == pairs[i] && pairs[i..][1..] == pairs[i + 1..];
      if |dest.errors| > 0 {
        return None;
      }
      g := Connect(g, (src, dest));
      i := i + 1;
    }
    assert pairs[i..] == [];
    if Cyclic(g) {
      return None;
    }
    return Some(g);
  }

  /** Adding pairs only adds vertices and keeps every edge between vertices. */
  lemma {:induction false} AddPairsGrows(g: Graph, pairs: seq<(string, string)>, check: Checker)
    requires Closed(g)
    ensures AddPairs(g, pairs, check).Some? ==>
      var h := AddPairs(g, pairs, check).value;
      g.vertices <= h.vertices && g.edges <= h.edges && Closed(h)
    decreases |pairs|
  {
    if |pairs| > 0 {
      var checked := check(pairs[0]);
      if |checked.1.errors| == 0 {
        AddPairsGrows(Connect(g, checked), pairs[1..], check);
      }
    }
  }

  /** Each pair of an accepted list is an edge of the graph. */
  lemma {:induction false} AddPairsHasEdges(g: Graph, pairs: seq<(string, string)>, check: Checker, i: nat)
    requires Closed(g) && i < |pairs| && AddPairs(g, pairs, check).Some?
    ensures PairEdge(check(pairs[i])) in AddPairs(g, pairs, check).value.edges
    decreases |pairs|
  {
    var checked := check(pairs[0]);
    if i == 0 {
      AddPairsGrows(Connect(g, checked), pairs[1..], check);
    } else {
      AddPairsHasEdges(Connect(g, checked), pairs[1..], check, i - 1);
      assert pairs[1..][i - 1] == pairs[i];
    }
  }

  /** A pair with an invalid path makes the whole list fail. */
  lemma {:induction false} AddPairsRefusesInvalid(g: Graph, pairs: seq<(string, string)>, check: Checker, i: nat)
    requires i < |pairs| && |check(pairs[i]).1.errors| > 0
    ensures AddPairs(g, pairs, check) == None
    decreases |pairs|
  {
    var checked := check(pairs[0]);
    if i > 0 && |checked.1.errors| == 0 {
      assert pairs[1..][i - 1] == pairs[i];
      AddPairsRefusesInvalid(Connect(g, checked), pairs[1..], check, i - 1);
    }
  }

  /**
   * Every accepted graph holds the master vertex, joins only its vertices,
   * has an edge for every pair and no cycle.
   */
  lemma AcceptedGraph(d: Description, insLevel: bool, priorError: bool, rule: PortRule)
    requires FromDescription(d, insLevel, priorError, rule).Some?
    ensures var g := FromDescription(d, insLevel, priorError, rule).value;
      MASTER in g.vertices && Closed(g) && !Cyclic(g) &&
      (d.Pairs? ==> forall i :: 0 <= i < |d.pairs| ==> PairEdge(CheckPair(d.pairs[i], insLevel, rule)) in g.edges)
  {
    if !d.Pairs? {
      assert Links(Initial) == {};
      ReachOfNoLinks(1);
    } else {
      var h := AddPairs(Initial, d.pairs, PairChecker(insLevel, rule)).value;
      assert FromDescription(d, insLevel, priorError, rule) == Some(h) && !Cyclic(h);
      AddPairsGrows(Initial, d.pairs, PairChecker(insLevel, rule));
      assert MASTER in Initial.vertices;
      forall i | 0 <= i < |d.pairs|
        ensures PairEdge(CheckPair(d.pairs[i], insLevel, rule)) in h.edges
      {
        AddPairsHasEdges(Initial, d.pairs, PairChecker(insLevel, rule), i);
      }
    }
  }

  /** No description, or the empty list "[]", gives the master vertex alone. */
  lemma NullOrEmptyIsMasterOnly(d: Description, insLevel: bool, rule: PortRule)
    requires d == Null || d == Pairs([])
    ensures FromDescription(d, insLevel, false, rule) == Some(Graph({MASTER}, {}))
  {
    if d == Pairs([]) {
      assert Reach(Links(Initial), 1) == {};
    }
  }

  /** A graph with a closed walk through at most all its vertices is refused. */
  lemma CycleRefused(d: Description, insLevel: bool, priorError: bool, rule: PortRule, w: seq<string>)
    requires d.Pairs? && AddPairs(Initial, d.pairs, PairChecker(insLevel, rule)).Some?
    requires var g := AddPairs(Initial, d.pairs, PairChecker(insLevel, rule)).value;
      IsWalk(Links(g), w) && w[0] == w[|w| - 1] && |w| <= |g.vertices| + 2
    ensures FromDescription(d, insLevel, priorError, rule) == None
  {
    ClosedWalkIsCyclic(AddPairs(Initial, d.pairs, PairChecker(insLevel, rule)).value, w);
  }
}

=== FILE: controller.dfy ===
/**
 * The editor controller's store-facing tasks: prefix stripping, the
 * random-seed update, loading and saving a module, and exporting and
 * importing an audio unit. Archive writing is modelled as the map from
 * archive path to entry that the zip file receives.
 */
module Controller {
  import opened Wrappers
  import opened Strings
  import opened Store

  // ---------------------------------------------------------------------
  // _remove_prefix

  datatype Stripped = Rest(path: string) | Mismatch | TooShort

  /**
   * `_remove_prefix`: pops one path component per prefix component; the
   * first difference gives None (`Mismatch`), running out of path
   * components raises IndexError (`TooShort`), otherwise the remaining
   * components are joined with '/'.
   */
  method RemovePrefix(path: string, prefix: string) returns (r: Stripped)
    ensures var pre, key := Split(prefix, '/'), Split(path, '/');
      (r.Rest? <==> |pre| <= |key| && key[..|pre|] == pre) &&
      (r.Rest? ==> r.path == Join(key[|pre|..], '/')) &&
      (r.Mismatch? <==> exists i :: 0 <= i < |pre| && i < |key| && key[..i] == pre[..i] && key[i] != pre[i]) &&
      (r.TooShort? <==> |key| < |pre| && key == pre[..|key|])
  {
    var preparts := Split(prefix, '/');
    var keyparts := Split(path, '/');
    ghost var key := keyparts;
    var i := 0;
    while i < |preparts|
      invariant 0 <= i <= |preparts| && i <= |key|
      invariant keyparts == key[i..] && key[..i] == preparts[..i]
    {
      if keyparts == [] {
        assert key == preparts[..|key|];
        return TooShort;
      }
      var kp := keyparts[0];
      keyparts := keyparts[1..];
      if preparts[i] != kp {
        assert key[i] != preparts[i];
        return Mismatch;
      }
      assert key[..i + 1] == key[..i] + [key[i]];
      i := i + 1;
    }
    assert key[..|preparts|] == preparts;
    r := Rest(Join(keyparts, '/'));
  }

  /** Stripping a prefix from `prefix + "/" + rest` gives back `rest`. */
  method RemovePrefixRoundTrip(prefix: string, rest: string) returns (r: Stripped)
    ensures r == Rest(rest)
  {
    SplitAround(prefix, '/', rest);
    var pre, tail := Split(prefix, '/'), Split(rest, '/');
    assert (pre + tail)[..|pre|] == pre && (pre + tail)[|pre|..] == tail;
    JoinSplit(rest, '/');
    r := RemovePrefix(prefix + "/" + rest, prefix);
  }

  // ---------------------------------------------------------------------
  // _check_update_random_seed

  const RANDOM_SEED_UPDATE_KEY: string := "i_random_seed_auto_update.json"
  const RANDOM_SEED_KEY: string := "p_random_seed.json"
  const SEED_MODULUS: int := 0x8000_0000_0000_0000

  /** `(old_seed + 1) % 2**63` with Python's floored modulo. */
  function NextSeed(s: int): (r: int)
    ensures 0 <= r < SEED_MODULUS
    ensures (r - (s + 1)) % SEED_MODULUS == 0
    ensures 0 <= s < SEED_MODULUS - 1 ==> r == s + 1
    ensures s == SEED_MODULUS - 1 ==> r == 0
  {
    (s + 1) % SEED_MODULUS
  }

  /** Python truthiness of a stored value. */
  predicate Truthy(v: Value) {
    match v
    case Bool(b) => b
    case Int(i) => i != 0
    case Num(r) => r != 0.0
    case Str(s) => s != []
    case List(items) => items != []
    case Dict(fields) => fields != map[]
    case Bytes(data) => data != []
  }

  /** `(old_seed + 1) % 2**63` for a float seed: Python's float modulo takes the sign of the divisor. */
  function NextSeedNum(x: real): (r: real)
    ensures 0.0 <= r < SEED_MODULUS as real
    ensures ((x + 1.0 - r) / SEED_MODULUS as real).Floor as real == (x + 1.0 - r) / SEED_MODULUS as real
    ensures 0.0 <= x + 1.0 < SEED_MODULUS as real ==> r == x + 1.0
  {
    var y := x + 1.0;
    var q := (y / SEED_MODULUS as real).Floor;
    assert q as real <= y / SEED_MODULUS as real < q as real + 1.0;
    assert y - q as real * SEED_MODULUS as real == (y / SEED_MODULUS as real - q as real) * SEED_MODULUS as real;
    y - q as real * SEED_MODULUS as real
  }

  /**
   * The seed after `old_seed + 1` and `% 2**63`: a bool counts as 0 or 1
   * and gives an int, a float stays a float; any other value makes the
   * addition raise TypeError (None).
   */
  function SeedAfter(v: Value): (r: Option<Value>)
    ensures r.Some? <==> v.Bool? || v.Int? || v.Num?
    ensures r.Some? && v.Num? ==> r.value.Num? && 0.0 <= r.value.r < SEED_MODULUS as real
    ensures r.Some? && !v.Num? ==> r.value.Int? && 0 <= r.value.i < SEED_MODULUS
    ensures v.Int? ==> r == Some(Int(NextSeed(v.i)))
  {
    match v
    case Bool(b) => Some(Int(NextSeed(if b then 1 else 0)))
    case Int(i) => Some(Int(NextSeed(i)))
    case Num(x) => Some(Num(NextSeedNum(x)))
    case _ => None
  }

  /** A stored `true` seed becomes 2 and a `false` one 1, as Python's bool arithmetic gives. */
  lemma BoolSeedCountsAsInt(b: bool)
    ensures SeedAfter(Bool(b)) == Some(Int(if b then 2 else 1))
  {
  }

  datatype SeedOutcome = AutoUpdateOff | SeedUpdated(seed: Value) | SeedTypeError | SeedPutWhileSaving

  /**
   * When auto-update is on, the seed `s` (or the default) becomes
   * `(s + 1) mod 2^63`, put without marking the module modified; a seed
   * that is not a number raises before anything is put, and so does the
   * put's assertion while the store is saving.
   */
  method CheckUpdateRandomSeed(store: Store, defaultSeed: Value) returns (outcome: SeedOutcome)
    requires store.Valid()
    modifies store
    ensures store.Valid()
    ensures var on := GetOr(old(store.pending), old(store.content), RANDOM_SEED_UPDATE_KEY, Some(Bool(false)));
      var seed := GetOr(old(store.pending), old(store.content), RANDOM_SEED_KEY, Some(defaultSeed));
      if !Truthy(on.value) then (outcome == AutoUpdateOff && store.pending == old(store.pending))
      else if SeedAfter(seed.value).None? then (outcome == SeedTypeError && store.pending == old(store.pending))
      else if old(store.saving) then (outcome == SeedPutWhileSaving && store.pending == old(store.pending))
      else (outcome == SeedUpdated(SeedAfter(seed.value).value) &&
        store.pending == old(store.pending) + [Pending(old(store.nextId), map[RANDOM_SEED_KEY := SeedAfter(seed.value)])])
    ensures outcome.SeedUpdated? ==> (store.nextId == old(store.nextId) + 1 &&
      store.engineLog == old(store.engineLog) + [(old(store.nextId), Some(map[RANDOM_SEED_KEY := Some(outcome.seed)]))])
    ensures !outcome.SeedUpdated? ==> store.nextId == old(store.nextId) && store.engineLog == old(store.engineLog)
    ensures store.modified == old(store.modified) && store.content == old(store.content)
    ensures store.saving == old(store.saving) && store.flushCallbacks == old(store.flushCallbacks) && store.fired == old(store.fired)
  {
    var on := GetOr(store.pending, store.content, RANDOM_SEED_UPDATE_KEY, Some(Bool(false)));
    if !Truthy(on.value) {
      return AutoUpdateOff;
    }
    var seed := GetOr(store.pending, store.content, RANDOM_SEED_KEY, Some(defaultSeed));
    var newSeed := SeedAfter(seed.value);
    if newSeed.None? {
      return SeedTypeError;
    }
    if store.saving {
      return SeedPutWhileSaving;
    }
    store.Put(map[RANDOM_SEED_KEY := newSeed], false);
    outcome := SeedUpdated(newSeed.value);
  }

  // ---------------------------------------------------------------------
  // get_task_load_module

  /** The dictionary `values[key] = value` builds from the entries. */
  function EntriesMap(entries: seq<(string, Value)>): Transaction
    decreases |entries|
  {
    if entries == [] then map[]
    else
      var last := entries[|entries| - 1];
      EntriesMap(entries[..|entries| - 1])[last.0 := Some(last.1)]
  }

  /** The dictionary holds exactly the keys of the entries. */
  lemma {:induction false} EntriesMapKeys(entries: seq<(string, Value)>, k: string)
    ensures k in EntriesMap(entries) <==> exists i :: 0 <= i < |entries| && entries[i].0 == k
    decreases |entries|
  {
    if entries != [] {
      var init := entries[..|entries| - 1];
      EntriesMapKeys(init, k);
      assert forall i :: 0 <= i < |init| ==> init[i] == entries[i];
      if k in EntriesMap(init) {
        var i :| 0 <= i < |init| && init[i].0 == k;
        assert entries[i].0 == k;
      }
    }
  }

  /** Each key holds the value of its last entry. */
  lemma {:induction false} EntriesMapLast(entries: seq<(string, Value)>, i: nat)
    requires i < |entries|
    requires forall j :: i < j < |entries| ==> entries[j].0 != entries[i].0
    ensures entries[i].0 in EntriesMap(entries) && EntriesMap(entries)[entries[i].0] == Some(entries[i].1)
    decreases |entries|
  {
    if i < |entries| - 1 {
      var init := entries[..|entries| - 1];
      assert entries[|entries| - 1].0 != entries[i].0;
      assert forall j :: 0 <= j < |init| ==> init[j] == entries[j];
      EntriesMapLast(init, i);
    }
  }

  datatype LoadOutcome = ModuleLoadFailed(message: string) | PutWhileSaving | ModuleLoaded(values: Transaction)

  /**
   * `get_task_load_module`: a read failure reports the error before any
   * put; otherwise one put of all entries, then the modified flag is cleared.
   * A put while the store is saving fails its assertion and changes nothing.
   */
  method LoadModule(store: Store, read: Result<seq<(string, Value)>, string>) returns (outcome: LoadOutcome)
    requires store.Valid()
    modifies store
    ensures store.Valid()
    ensures read.Err? ==> (outcome == ModuleLoadFailed(read.error) &&
      store.pending == old(store.pending) && store.nextId == old(store.nextId) &&
      store.modified == old(store.modified))
    ensures read.Ok? && old(store.saving) ==> (outcome == PutWhileSaving &&
      store.pending == old(store.pending) && store.nextId == old(store.nextId) &&
      store.modified == old(store.modified))
    ensures read.Ok? && !old(store.saving) ==> (outcome == ModuleLoaded(EntriesMap(read.value)) &&
      store.pending == old(store.pending) + [Pending(old(store.nextId), EntriesMap(read.value))] &&
      store.nextId == old(store.nextId) + 1 && !store.modified)
    ensures outcome.ModuleLoaded? ==>
      store.engineLog == old(store.engineLog) + [(old(store.nextId), Some(EntriesMap(read.value)))]
    ensures !outcome.ModuleLoaded? ==> store.engineLog == old(store.engineLog)
    ensures store.content == old(store.content)
    ensures store.saving == old(store.saving) && store.flushCallbacks == old(store.flushCallbacks) && store.fired == old(store.fired)
  {
    if read.Err? {
      return ModuleLoadFailed(read.error);
    }
    var entries := read.value;
    var values: Transaction := map[];
    var i := 0;
    while i < |entries|
      invariant 0 <= i <= |entries|
      invariant values == EntriesMap(entries[..i])
    {
      assert entries[..i + 1][..i] == entries[..i];
      values := values[entries[i].0 := Some(entries[i].1)];
      i := i + 1;
    }
    assert entries[..|entries|] == entries;
    if store.saving {
      return PutWhileSaving;
    }
    store.Put(values, true);
    store.ClearModifiedFlag();
    outcome := ModuleLoaded(values);
  }

  // ---------------------------------------------------------------------
  // get_task_save_module and get_task_export_audio_unit

  /** A zip entry: `.json` keys are JSON-encoded and deflated, others stored raw. */
  datatype ZipEntry = ZipEntry(value: Value, deflatedJson: bool)

  function EntryFor(key: string, v: Value): ZipEntry {
    ZipEntry(v, HasSuffix(key, ".json"))
  }

  /** The keys with `prefix`, renamed without it. */
  function StripPrefix<V>(items: map<string, V>, prefix: string): (r: map<string, V>)
    ensures forall k :: k in items && HasPrefix(k, prefix) ==> k[|prefix|..] in r && r[k[|prefix|..]] == items[k]
    ensures forall s :: s in r ==> prefix + s in items && r[s] == items[prefix + s]
  {
    var suffixes := set k | k in items && HasPrefix(k, prefix) :: k[|prefix|..];
    assert forall k :: k in items && HasPrefix(k, prefix) ==> prefix + k[|prefix|..] == k;
    map s | s in suffixes && prefix + s in items :: items[prefix + s]
  }

  /** Every key renamed to `prefix + key`. */
  function AddPrefix<V>(items: map<string, V>, prefix: string): (r: map<string, V>)
    ensures forall k :: k in items ==> prefix + k in r && r[prefix + k] == items[k]
    ensures forall p :: p in r ==>
      HasPrefix(p, prefix) && p[|prefix|..] in items && p == prefix + p[|prefix|..]
  {
    var keys := set k | k in items :: prefix + k;
    assert forall k :: k in items ==> (prefix + k)[|prefix|..] == k;
    map p | p in keys && HasPrefix(p, prefix) && p[|prefix|..] in items :: items[p[|prefix|..]]
  }

  lemma StripAddPrefix<V>(items: map<string, V>, prefix: string)
    ensures StripPrefix(AddPrefix(items, prefix), prefix) == items
  {
    var r := StripPrefix(AddPrefix(items, prefix), prefix);
    forall k | k in items ensures k in r && r[k] == items[k] {
      assert (prefix + k)[|prefix|..] == k;
    }
  }

  /** Putting the prefix back on the stripped keys selects the items under that prefix. */
  lemma AddStripPrefix<V>(items: map<string, V>, prefix: string)
    ensures AddPrefix(StripPrefix(items, prefix), prefix) == map k | k in items && HasPrefix(k, prefix) :: items[k]
  {
    var r := AddPrefix(StripPrefix(items, prefix), prefix);
    forall k | k in items && HasPrefix(k, prefix) ensures k in r && r[k] == items[k] {
      assert prefix + k[|prefix|..] == k;
    }
  }

  function Entries(items: map<string, Value>): map<string, ZipEntry> {
    map k | k in items :: EntryFor(k, items[k])
  }

  /** The archive written for `items` under directory `container`. */
  function Pack(items: map<string, Value>, container: string): map<string, ZipEntry> {
    AddPrefix(Entries(items), container + "/")
  }

  /** What an archive reader returns for the entries under `container`. */
  function Unpack(entries: map<string, ZipEntry>, container: string): map<string, Value> {
    var inside := StripPrefix(entries, container + "/");
    map k | k in inside :: inside[k].value
  }

  /** Reading back a written archive yields the items written. */
  lemma UnpackPack(items: map<string, Value>, container: string)
    ensures Unpack(Pack(items, container), container) == items
  {
    StripAddPrefix(Entries(items), container + "/");
  }

  /** The readable items of a store: every key iteration yields, with its read value. */
  function View(pending: seq<Pending>, content: map<string, Value>): (v: map<string, Value>)
    ensures forall k :: k in v <==> k in IterKeys(pending, content) && Lookup(pending, content, k).Found?
    ensures forall k :: k in v ==> Lookup(pending, content, k) == Found(v[k])
  {
    map k | k in IterKeys(pending, content) && Lookup(pending, content, k).Found? :: Lookup(pending, content, k).value
  }

  /** `items()` raises KeyError when iteration yields a key that cannot be read. */
  predicate ItemsRaise(pending: seq<Pending>, content: map<string, Value>, prefix: string) {
    exists k :: k in IterKeys(pending, content) && HasPrefix(k, prefix) && Lookup(pending, content, k).KeyError?
  }

  /** A map that holds exactly the renamed prefix items is their archive. */
  lemma PackStripPrefixExt(items: map<string, Value>, prefix: string, container: string, m: map<string, ZipEntry>)
    requires forall k :: k in items && HasPrefix(k, prefix) ==>
      container + "/" + k[|prefix|..] in m && m[container + "/" + k[|prefix|..]] == EntryFor(k[|prefix|..], items[k])
    requires forall p :: p in m ==> exists k :: k in items && HasPrefix(k, prefix) && p == container + "/" + k[|prefix|..]
    ensures m == Pack(StripPrefix(items, prefix), container)
  {
    var stripped := StripPrefix(items, prefix);
    var packed := Pack(stripped, container);
    forall p | p in packed ensures p in m && m[p] == packed[p] {
      var s := p[|container| + 1..];
      assert prefix + s in items && (prefix + s)[|prefix|..] == s;
      assert container + "/" + s == p;
    }
    forall p | p in m ensures p in packed {
      var k :| k in items && HasPrefix(k, prefix) && p == container + "/" + k[|prefix|..];
      assert container + "/" + k[|prefix|..] == (container + "/") + k[|prefix|..];
    }
  }

  /** The entries written so far hold exactly the renamed keys of `done`. */
  ghost predicate Written(entries: map<string, ZipEntry>, done: set<string>, view: map<string, Value>,
                          prefix: string, container: string)
  {
    (forall k :: k in done ==>
      k in view && HasPrefix(k, prefix) && container + "/" + k[|prefix|..] in entries &&
      entries[container + "/" + k[|prefix|..]] == EntryFor(k[|prefix|..], view[k])) &&
    (forall p :: p in entries ==> exists k :: k in done && p == container + "/" + k[|prefix|..])
  }

  lemma WrittenStep(entries: map<string, ZipEntry>, done: set<string>, view: map<string, Value>,
                    prefix: string, container: string, k: string)
    requires Written(entries, done, view, prefix, container)
    requires k !in done && k in view && HasPrefix(k, prefix)
    ensures Written(entries[container + "/" + k[|prefix|..] := EntryFor(k[|prefix|..], view[k])],
                    done + {k}, view, prefix, container)
  {
    var p := container + "/" + k[|prefix|..];
    forall k' | k' in done ensures container + "/" + k'[|prefix|..] != p {
      assert prefix + k'[|prefix|..] == k' && prefix + k[|prefix|..] == k;
      var q := container + "/" + k'[|prefix|..];
      assert q[|container| + 1..] == k'[|prefix|..] && p[|container| + 1..] == k[|prefix|..];
    }
  }

  /**
   * The archive-writing loop shared by save (prefix "", container
   * "kqtc00") and export (prefix "<au_id>/", container "kqti00"): every
   * iterated key with the prefix is read and written as
   * `<container>/<key without prefix>`.
   */
  method PackStore(store: Store, prefix: string, container: string) returns (r: Result<map<string, ZipEntry>, string>)
    ensures ItemsRaise(store.pending, store.content, prefix) <==> r.Err?
    ensures r.Ok? ==> r.value == Pack(StripPrefix(View(store.pending, store.content), prefix), container)
  {
    ghost var view := View(store.pending, store.content);
    var keys := set k | k in store.Keys() && HasPrefix(k, prefix);
    ghost var all := keys;
    var entries: map<string, ZipEntry> := map[];
    ghost var done: set<string> := {};
    while keys != {}
      invariant keys !! done && keys + done == all
      invariant Written(entries, done, view, prefix, container)
      decreases keys
    {
      var k :| k in keys;
      var v := store.Get(k);
      if v.KeyError? {
        assert k in store.Keys() && HasPrefix(k, prefix);
        assert ItemsRaise(store.pending, store.content, prefix);
        return Err("KeyError");
      }
      WrittenStep(entries, done, view, prefix, container, k);
      entries := entries[container + "/" + k[|prefix|..] := EntryFor(k[|prefix|..], v.value)];
      keys := keys - {k};
      done := done + {k};
    }
    PackStripPrefixExt(view, prefix, container, entries);
    assert !ItemsRaise(store.pending, store.content, prefix) by {
      forall k | k in store.Keys() && HasPrefix(k, prefix) ensures Lookup(store.pending, store.content, k).Found? {
        assert k in done;
      }
    }
    r := Ok(entries);
  }

  /** `get_task_save_module`: every store item under `kqtc00/`. */
  method SaveModule(store: Store) returns (r: Result<map<string, ZipEntry>, string>)
    ensures ItemsRaise(store.pending, store.content, "") <==> r.Err?
    ensures r.Ok? ==> r.value == Pack(View(store.pending, store.content), "kqtc00")
  {
    r := PackStore(store, "", "kqtc00");
    if r.Ok? {
      var view := View(store.pending, store.content);
      assert StripPrefix(view, "") == view by {
        forall k | k in view ensures HasPrefix(k, "") && k[0..] == k { }
      }
    }
  }

  /** `get_task_export_audio_unit`: the keys under `<au_id>/`, moved under `kqti00/`. */
  method ExportAudioUnit(store: Store, auId: string) returns (r: Result<map<string, ZipEntry>, string>)
    ensures ItemsRaise(store.pending, store.content, auId + "/") <==> r.Err?
    ensures r.Ok? ==> r.value == Pack(StripPrefix(View(store.pending, store.content), auId + "/"), "kqti00")
  {
    r := PackStore(store, auId + "/", "kqti00");
  }

  // ---------------------------------------------------------------------
  // get_task_load_audio_unit

  function AsTransaction(items: map<string, Value>): Transaction {
    map k | k in items :: Some(items[k])
  }

  /** `transaction['<au_id>/<key>'] = value` for every imported key. */
  function Prefixed(contents: Transaction, auId: string): Transaction {
    AddPrefix(contents, auId + "/")
  }

  /**
   * Exporting an audio unit and importing the archive under the same id
   * submits exactly the readable items that were under that id.
   */
  lemma ExportImportRoundTrip(view: map<string, Value>, auId: string)
    ensures Prefixed(AsTransaction(Unpack(Pack(StripPrefix(view, auId + "/"), "kqti00"), "kqti00")), auId) ==
      AsTransaction(map k | k in view && HasPrefix(k, auId + "/") :: view[k])
  {
    var stripped := StripPrefix(view, auId + "/");
    UnpackPack(stripped, "kqti00");
    AddStripPrefix(view, auId + "/");
    PrefixCommutes(stripped, auId + "/");
  }

  /** Prefixing the keys commutes with turning the items into a transaction. */
  lemma PrefixCommutes(items: map<string, Value>, prefix: string)
    ensures AddPrefix(AsTransaction(items), prefix) == AsTransaction(AddPrefix(items, prefix))
  {
    var lhs := AddPrefix(AsTransaction(items), prefix);
    var inner := AddPrefix(items, prefix);
    forall k | k in lhs ensures k in inner && lhs[k] == Some(inner[k]) { }
    forall k | k in inner ensures k in lhs { }
  }

  /** Saving a module and reading the archive back gives the readable items of the store. */
  lemma SaveLoadRoundTrip(view: map<string, Value>)
    ensures Unpack(Pack(view, "kqtc00"), "kqtc00") == view
  {
    UnpackPack(view, "kqtc00");
  }

  /** The import loop over `contents.items()`. */
  method AssembleTransaction(contents: Transaction, auId: string) returns (t: Transaction)
    ensures t == Prefixed(contents, auId)
  {
    var prefix := auId + "/";
    t := map[];
    var todo := contents.Keys;
    while todo != {}
      invariant todo <= contents.Keys
      invariant forall k :: k in contents && k !in todo ==> prefix + k in t && t[prefix + k] == contents[k]
      invariant forall p :: p in t ==>
        HasPrefix(p, prefix) && p == prefix + p[|prefix|..] && p[|prefix|..] in contents &&
        p[|prefix|..] !in todo && t[p] == contents[p[|prefix|..]]
      decreases todo
    {
      var k :| k in todo;
      assert (prefix + k)[|prefix|..] == k;
      t := t[prefix + k := contents[k]];
      todo := todo - {k};
    }
    var spec := Prefixed(contents, auId);
    forall p | p in t ensures p in spec && spec[p] == t[p] { }
    forall p | p in spec ensures p in t { }
  }

  const MANIFEST_KEY: string := "p_manifest.json"
  const CONTROL_MAP_KEY: string := "p_control_map.json"
  const CONNECTIONS_KEY: string := "p_connections.json"

  predicate IsLowerHex(c: char) {
    '0' <= c <= '9' || 'a' <= c <= 'f'
  }

  function HexDigit(c: char): (r: Option<nat>)
    ensures r.Some? <==> ('0' <= c <= '9' || 'a' <= c <= 'f' || 'A' <= c <= 'F')
    ensures r.Some? ==> r.value < 16
  {
    if '0' <= c <= '9' then Some(c as nat - '0' as nat)
    else if 'a' <= c <= 'f' then Some(c as nat - 'a' as nat + 10)
    else if 'A' <= c <= 'F' then Some(c as nat - 'A' as nat + 10)
    else None
  }

  /** `int(s, 16)` for a plain string of hexadecimal digits; None where Python raises ValueError. */
  function HexValue(s: string): (r: Option<nat>)
    ensures r.Some? <==> s != [] && forall i :: 0 <= i < |s| ==> HexDigit(s[i]).Some?
    ensures r.Some? ==> r.value < Pow16(|s|)
    decreases |s|
  {
    if s == [] then None
    else if HexDigit(s[|s| - 1]).None? then None
    else
      assert forall i :: 0 <= i < |s| - 1 ==> s[..|s| - 1][i] == s[i];
      if |s| == 1 then HexDigit(s[0])
      else
        match HexValue(s[..|s| - 1])
        case None => None
        case Some(h) => Some(16 * h + HexDigit(s[|s| - 1]).value)
  }

  function Pow16(n: nat): nat {
    if n == 0 then 1 else 16 * Pow16(n - 1)
  }

  /** Two lowercase digits name a port number below 0x100. */
  lemma TwoDigitIndex(a: char, b: char)
    requires IsLowerHex(a) && IsLowerHex(b)
    ensures HexValue([a, b]).Some? && HexValue([a, b]).value < 0x100
    ensures HexValue([a, b]).value == 16 * HexDigit(a).value + HexDigit(b).value
  {
    assert [a, b][..1] == [a];
  }

  /** `int(s.split('_')[1], 16)`; None where Python raises. */
  function IndexAfterUnderscore(s: string): Option<nat> {
    var parts := Split(s, '_');
    if |parts| < 2 then None else HexValue(parts[1])
  }

  /**
   * `re.match('<au_id>/out_[0-9a-f]{2}/p_manifest.json', path)`: anchored at
   * the start only, and the unescaped '.' matches any character.
   */
  predicate IsOutPortManifest(path: string, auId: string) {
    var pre := auId + "/out_";
    var tail := "/p_manifest.json";
    HasPrefix(path, pre) && |path| >= |pre| + 2 + |tail| &&
    IsLowerHex(path[|pre|]) && IsLowerHex(path[|pre| + 1]) &&
    forall i :: 0 <= i < |tail| && tail[i] != '.' ==> path[|pre| + 2 + i] == tail[i]
  }

  /** `path.split('/')[-2]` */
  function PortName(path: string): string {
    var parts := Split(path, '/');
    if |parts| >= 2 then parts[|parts| - 2] else ""
  }

  /** The instrument's out-port keys: matching paths whose value is not None. */
  predicate OutPortKey(t: Transaction, auId: string, k: string) {
    k in t && IsOutPortManifest(k, auId) && t[k].Some?
  }

  /** `ports` lists the port names of the out-port keys of `t`, sorted, one per key. */
  ghost predicate PortsOf(t: Transaction, auId: string, ports: seq<string>) {
    Sorted(ports) &&
    forall name :: multiset(ports)[name] == |set k | k in t.Keys && OutPortKey(t, auId, k) && PortName(k) == name|
  }

  ghost predicate Counted(t: Transaction, auId: string, todo: set<string>, found: seq<string>) {
    forall name :: multiset(found)[name] ==
      |set k | k in t.Keys && k !in todo && OutPortKey(t, auId, k) && PortName(k) == name|
  }

  lemma CountedStep(t: Transaction, auId: string, todo: set<string>, found: seq<string>, k: string)
    requires k in todo && Counted(t, auId, todo, found)
    ensures OutPortKey(t, auId, k) ==> Counted(t, auId, todo - {k}, found + [PortName(k)])
    ensures !OutPortKey(t, auId, k) ==> Counted(t, auId, todo - {k}, found)
  {
    var found' := if OutPortKey(t, auId, k) then found + [PortName(k)] else found;
    forall name ensures multiset(found')[name] ==
      |set k' | k' in t.Keys && k' !in todo - {k} && OutPortKey(t, auId, k') && PortName(k') == name|
    {
      var before := set k' | k' in t.Keys && k' !in todo && OutPortKey(t, auId, k') && PortName(k') == name;
      var after := set k' | k' in t.Keys && k' !in todo - {k} && OutPortKey(t, auId, k') && PortName(k') == name;
      if OutPortKey(t, auId, k) && PortName(k) == name {
        assert after == before + {k};
      } else {
        assert after == before;
      }
    }
  }

  /** The port-name scan over the transaction's keys, then `sorted`. */
  method CollectOutPorts(t: Transaction, auId: string) returns (ports: seq<string>)
    ensures PortsOf(t, auId, ports)
  {
    var found: seq<string> := [];
    var todo := t.Keys;
    while todo != {}
      invariant todo <= t.Keys
      invariant Counted(t, auId, todo, found)
      decreases todo
    {
      var k :| k in todo;
      CountedStep(t, auId, todo, found, k);
      if IsOutPortManifest(k, auId) && t[k].Some? {
        found := found + [PortName(k)];
      }
      todo := todo - {k};
    }
    ports := Sort(found);
    forall name ensures multiset(ports)[name] ==
      |set k | k in t.Keys && OutPortKey(t, auId, k) && PortName(k) == name|
    {
      assert multiset(found)[name] == |set k | k in t.Keys && k !in todo && OutPortKey(t, auId, k) && PortName(k) == name|;
      assert (set k | k in t.Keys && k !in todo && OutPortKey(t, auId, k) && PortName(k) == name) ==
        (set k | k in t.Keys && OutPortKey(t, auId, k) && PortName(k) == name);
    }
  }

  /** `[['<sub_au_id>/<send>', recv] for send, recv in zip(ins, parent)]` */
  function Pairs(subAuId: string, ins: seq<string>, parent: seq<string>): (r: seq<Value>)
    requires |ins| == |parent|
    ensures |r| == |ins|
    ensures forall i :: 0 <= i < |ins| ==> r[i] == List([Str(subAuId + "/" + ins[i]), Str(parent[i])])
  {
    seq(|ins|, i requires 0 <= i < |ins| => List([Str(subAuId + "/" + ins[i]), Str(parent[i])]))
  }

  /** The loop appending one connection per zipped port pair. */
  method AppendConnections(conns: seq<Value>, subAuId: string, ins: seq<string>, parent: seq<string>) returns (r: seq<Value>)
    requires |ins| == |parent|
    ensures r == conns + Pairs(subAuId, ins, parent)
  {
    r := conns;
    var i := 0;
    while i < |ins|
      invariant 0 <= i <= |ins|
      invariant r == conns + Pairs(subAuId, ins, parent)[..i]
    {
      assert Pairs(subAuId, ins, parent)[..i + 1] == Pairs(subAuId, ins, parent)[..i] + [Pairs(subAuId, ins, parent)[i]];
      r := r + [List([Str(subAuId + "/" + ins[i]), Str(parent[i])])];
      i := i + 1;
    }
    assert Pairs(subAuId, ins, parent)[..i] == Pairs(subAuId, ins, parent);
  }

  /**
   * The manifest's `type` field: Ok(true) for an instrument; Err where
   * Python raises (missing manifest, a None or non-dict manifest, no type).
   */
  function IsInstrument(t: Transaction, auId: string): Result<bool, string> {
    var key := auId + "/" + MANIFEST_KEY;
    if key !in t then Err("KeyError")
    else if t[key].None? || !t[key].value.Dict? then Err("TypeError")
    else if "type" !in t[key].value.fields then Err("KeyError")
    else Ok(t[key].value.fields["type"] == Str("instrument"))
  }

  /** A top-level instrument imported with a control id gets a control-map entry and an empty control manifest. */
  function WithControl(t: Transaction, pending: seq<Pending>, content: map<string, Value>,
                       auId: string, controlId: Option<string>): Result<Transaction, string>
  {
    if '/' in auId || controlId.None? || controlId.value == "" then Ok(t)
    else
      var controlNum := IndexAfterUnderscore(controlId.value);
      var auNum := IndexAfterUnderscore(auId);
      var controlMap := GetOr(pending, content, CONTROL_MAP_KEY, Some(List([])));
      if controlNum.None? || auNum.None? then Err("ValueError")
      else if !controlMap.value.List? then Err("AttributeError")
      else
        Ok(t[CONTROL_MAP_KEY := Some(List(controlMap.value.items + [List([Int(controlNum.value), Int(auNum.value)])]))]
            [controlId.value + "/" + MANIFEST_KEY := Some(Dict(map[]))])
  }

  /** The ports an instrument is connected to: the parent's sorted out ports, or the master's two. */
  function ParentPorts(auId: string, parentOutPorts: seq<string>): seq<string> {
    if '/' in auId then Sort(parentOutPorts) else ["out_00", "out_01"]
  }

  /** `s[-1]` of a `split` result, which is never empty. */
  function Last(parts: seq<string>): string
    requires |parts| >= 1
  {
    parts[|parts| - 1]
  }

  /** Connections are added only when both port lists are non-empty and equally long. */
  function WithConnections(t: Transaction, pending: seq<Pending>, content: map<string, Value>,
                           auId: string, insPorts: seq<string>, parent: seq<string>): Result<Transaction, string>
  {
    if |parent| > 0 && |parent| == |insPorts| then
      var conns := GetOr(pending, content, CONNECTIONS_KEY, Some(List([])));
      if !conns.value.List? then Err("AttributeError")
      else Ok(t[CONNECTIONS_KEY := Some(List(conns.value.items + Pairs(Last(Split(auId, '/')), insPorts, parent)))])
    else Ok(t)
  }

  /**
   * The transaction an import submits, given the store's state and the
   * instrument's collected out ports `insPorts`; Err names the Python
   * exception that aborts the task before the put.
   */
  function ImportTransaction(pending: seq<Pending>, content: map<string, Value>, contents: Transaction,
                             auId: string, controlId: Option<string>, parentOutPorts: seq<string>,
                             insPorts: seq<string>): Result<Transaction, string>
  {
    var t0 := Prefixed(contents, auId);
    match IsInstrument(t0, auId)
    case Err(e) => Err(e)
    case Ok(isInstrument) =>
      if !isInstrument then Ok(t0)
      else
        match WithControl(t0, pending, content, auId, controlId)
        case Err(e) => Err(e)
        case Ok(t1) => WithConnections(t1, pending, content, auId, insPorts, ParentPorts(auId, parentOutPorts))
  }

  /** The keys an import may add besides those under `<au_id>/`. */
  predicate ImportScoped(k: string, auId: string, controlId: Option<string>) {
    HasPrefix(k, auId + "/") || k == CONTROL_MAP_KEY || k == CONNECTIONS_KEY ||
    (controlId.Some? && k == controlId.value + "/" + MANIFEST_KEY)
  }

  /**
   * Every imported file arrives under `<au_id>/` unchanged unless it is
   * overwritten by the control manifest, and nothing is written outside
   * `<au_id>/` except the control map, the control manifest and the
   * connections.
   */
  lemma ImportPreservesContents(pending: seq<Pending>, content: map<string, Value>, contents: Transaction,
                                auId: string, controlId: Option<string>, parentOutPorts: seq<string>,
                                insPorts: seq<string>, k: string)
    requires ImportTransaction(pending, content, contents, auId, controlId, parentOutPorts, insPorts).Ok?
    ensures var t := ImportTransaction(pending, content, contents, auId, controlId, parentOutPorts, insPorts).value;
      (forall p :: p in t ==> ImportScoped(p, auId, controlId)) &&
      (k in contents && auId + "/" + k != CONTROL_MAP_KEY && auId + "/" + k != CONNECTIONS_KEY &&
       (controlId.None? || auId + "/" + k != controlId.value + "/" + MANIFEST_KEY) ==>
         auId + "/" + k in t && t[auId + "/" + k] == contents[k])
  {
  }

  /** Importing something other than an instrument submits exactly the prefixed contents. */
  lemma NonInstrumentImport(pending: seq<Pending>, content: map<string, Value>, contents: Transaction,
                            auId: string, controlId: Option<string>, parentOutPorts: seq<string>,
                            insPorts: seq<string>)
    requires IsInstrument(Prefixed(contents, auId), auId) == Ok(false)
    ensures ImportTransaction(pending, content, contents, auId, controlId, parentOutPorts, insPorts) ==
      Ok(Prefixed(contents, auId))
  {
  }

  /**
   * A connected instrument appends one connection per zipped port pair to
   * the stored connections, keeping the existing ones first.
   */
  lemma ConnectionsAppended(t: Transaction, pending: seq<Pending>, content: map<string, Value>,
                            auId: string, insPorts: seq<string>, parent: seq<string>)
    requires WithConnections(t, pending, content, auId, insPorts, parent).Ok?
    requires |parent| > 0 && |parent| == |insPorts|
    ensures var r := WithConnections(t, pending, content, auId, insPorts, parent).value;
      var stored := GetOr(pending, content, CONNECTIONS_KEY, Some(List([]))).value.items;
      var sub := Last(Split(auId, '/'));
      CONNECTIONS_KEY in r && r[CONNECTIONS_KEY].Some? && r[CONNECTIONS_KEY].value.List? &&
      |r[CONNECTIONS_KEY].value.items| == |stored| + |insPorts| &&
      r[CONNECTIONS_KEY].value.items[..|stored|] == stored &&
      (forall i :: 0 <= i < |insPorts| ==>
        r[CONNECTIONS_KEY].value.items[|stored| + i] == List([Str(sub + "/" + insPorts[i]), Str(parent[i])]))
    ensures forall k :: k in t && k != CONNECTIONS_KEY ==>
      k in WithConnections(t, pending, content, auId, insPorts, parent).value &&
      WithConnections(t, pending, content, auId, insPorts, parent).value[k] == t[k]
  {
    var stored := GetOr(pending, content, CONNECTIONS_KEY, Some(List([]))).value.items;
    var pairs := Pairs(Last(Split(auId, '/')), insPorts, parent);
    var conns := stored + pairs;
    assert WithConnections(t, pending, content, auId, insPorts, parent).value[CONNECTIONS_KEY] == Some(List(conns));
    assert conns[..|stored|] == stored;
    forall i | 0 <= i < |insPorts| ensures conns[|stored| + i] == pairs[i] { }
  }

  /**
   * The read-only part of `get_task_load_audio_unit`: builds the
   * transaction from the archive contents and the store's state.
   */
  method BuildImport(pending: seq<Pending>, content: map<string, Value>, contents: Transaction,
                     auId: string, controlId: Option<string>, parentOutPorts: seq<string>)
    returns (r: Result<Transaction, string>, insPorts: seq<string>)
    ensures r == ImportTransaction(pending, content, contents, auId, controlId, parentOutPorts, insPorts)
    ensures (IsInstrument(Prefixed(contents, auId), auId) == Ok(true) &&
             WithControl(Prefixed(contents, auId), pending, content, auId, controlId).Ok?) ==>
      PortsOf(WithControl(Prefixed(contents, auId), pending, content, auId, controlId).value, auId, insPorts)
  {
    insPorts := [];
    var t0 := AssembleTransaction(contents, auId);
    var kind := IsInstrument(t0, auId);
    if kind.Err? {
      return Err(kind.error), insPorts;
    }
    if !kind.value {
      return Ok(t0), insPorts;
    }
    var t1 := AddControl(t0, pending, content, auId, controlId);
    if t1.Err? {
      return Err(t1.error), insPorts;
    }
    insPorts := CollectOutPorts(t1.value, auId);
    r := AddConnections(t1.value, pending, content, auId, insPorts, ParentPorts(auId, parentOutPorts));
  }

  /** The control-map update of an import. */
  method AddControl(t: Transaction, pending: seq<Pending>, content: map<string, Value>,
                    auId: string, controlId: Option<string>) returns (r: Result<Transaction, string>)
    ensures r == WithControl(t, pending, content, auId, controlId)
  {
    if '/' in auId || controlId.None? || controlId.value == "" {
      return Ok(t);
    }
    var controlNum := IndexAfterUnderscore(controlId.value);
    var auNum := IndexAfterUnderscore(auId);
    if controlNum.None? || auNum.None? {
      return Err("ValueError");
    }
    var controlMap := GetOr(pending, content, CONTROL_MAP_KEY, Some(List([])));
    if !controlMap.value.List? {
      return Err("AttributeError");
    }
    var t' := t[CONTROL_MAP_KEY := Some(List(controlMap.value.items + [List([Int(controlNum.value), Int(auNum.value)])]))];
    r := Ok(t'[controlId.value + "/" + MANIFEST_KEY := Some(Dict(map[]))]);
  }

  /** The connection step of an import. */
  method AddConnections(t: Transaction, pending: seq<Pending>, content: map<string, Value>,
                        auId: string, insPorts: seq<string>, parent: seq<string>) returns (r: Result<Transaction, string>)
    ensures r == WithConnections(t, pending, content, auId, insPorts, parent)
  {
    if |parent| > 0 && |parent| == |insPorts| {
      var conns := GetOr(pending, content, CONNECTIONS_KEY, Some(List([])));
      if !conns.value.List? {
        return Err("AttributeError");
      }
      var items := AppendConnections(conns.value.items, Last(Split(auId, '/')), insPorts, parent);
      r := Ok(t[CONNECTIONS_KEY := Some(List(items))]);
    } else {
      r := Ok(t);
    }
  }

  datatype ImportOutcome =
    | ReadFailed(message: string)
    | ValidationFailed(message: string)
    | ImportRaised(reason: string)
    | ImportPutWhileSaving
    | Imported(transaction: Transaction)

  /**
   * `get_task_load_audio_unit`: a read or validation failure is reported
   * before anything is put; otherwise the built transaction goes out in a
   * single put that marks the module modified, unless the store is saving,
   * where the put's assertion fails first.
   */
  method LoadAudioUnit(store: Store, read: Result<Transaction, string>, validation: Option<string>,
                       auId: string, controlId: Option<string>, parentOutPorts: seq<string>)
    returns (outcome: ImportOutcome, insPorts: seq<string>)
    requires store.Valid()
    modifies store
    ensures store.Valid() && store.content == old(store.content) && store.saving == old(store.saving)
    ensures store.flushCallbacks == old(store.flushCallbacks) && store.fired == old(store.fired)
    ensures read.Err? ==> outcome == ReadFailed(read.error)
    ensures read.Ok? && validation.Some? ==> outcome == ValidationFailed(validation.value)
    ensures read.Ok? && validation.None? ==>
      var r := ImportTransaction(old(store.pending), old(store.content), read.value, auId, controlId, parentOutPorts, insPorts);
      (r.Err? ==> outcome == ImportRaised(r.error)) &&
      (r.Ok? && old(store.saving) ==> outcome == ImportPutWhileSaving) &&
      (r.Ok? && !old(store.saving) ==> outcome == Imported(r.value))
    ensures (read.Ok? && validation.None? && IsInstrument(Prefixed(read.value, auId), auId) == Ok(true) &&
             WithControl(Prefixed(read.value, auId), old(store.pending), old(store.content), auId, controlId).Ok?) ==>
      PortsOf(WithControl(Prefixed(read.value, auId), old(store.pending), old(store.content), auId, controlId).value, auId, insPorts)
    ensures !outcome.Imported? ==>
      store.pending == old(store.pending) && store.nextId == old(store.nextId) &&
      store.modified == old(store.modified) && store.engineLog == old(store.engineLog)
    ensures outcome.Imported? ==>
      store.pending == old(store.pending) + [Pending(old(store.nextId), outcome.transaction)] &&
      store.engineLog == old(store.engineLog) + [(old(store.nextId), Some(outcome.transaction))] &&
      store.nextId == old(store.nextId) + 1 && store.modified
  {
    insPorts := [];
    if read.Err? {
      return ReadFailed(read.error), insPorts;
    }
    if validation.Some? {
      return ValidationFailed(validation.value), insPorts;
    }
    var r;
    r, insPorts := BuildImport(store.pending, store.content, read.value, auId, controlId, parentOutPorts);
    if r.Err? {
      return ImportRaised(r.error), insPorts;
    }
    if store.saving {
      return ImportPutWhileSaving, insPorts;
    }
    store.Put(r.value, true);
    outcome := Imported(r.value);
  }
}

=== FILE: device.dfy ===
/**
 * The common part of every device (audio unit or processor): its
 * identity, whether it exists in the composition, its mixing rate and
 * buffer size, and the matrix of the ports it has registered, one row per
 * port type. Device.c is not part of this model: the operations follow
 * the contracts of their declarations, and a new device is taken to have
 * no port registered and not to exist yet.
 */
module Device {
  import opened Limits

  /** The port types; the header that numbers them is not part of this model. */
  const DEVICE_PORT_TYPES: nat := 2

  datatype PortType = Receive | Send

  /** The row of a port type in the port matrices. */
  function TypeIndex(t: PortType): (i: nat)
    ensures i < DEVICE_PORT_TYPES
    ensures i == 0 <==> t == Receive
  {
    if t.Receive? then 0 else 1
  }

  class Device {
    const id: uint32
    var existent: bool
    var mixRate: uint32
    var bufferSize: uint32
    /** `reg[type][port]`: whether the port of that type is registered. */
    const reg: array2<bool>

    predicate Valid()
      reads this
    {
      reg.Length0 == DEVICE_PORT_TYPES && reg.Length1 == KQT_DEVICE_PORTS_MAX
    }

    /** `Device_init`: a positive buffer size up to KQT_BUFFER_SIZE_MAX and a positive mixing rate. */
    constructor(id: uint32, bufferSize: uint32, mixRate: uint32)
      requires 0 < bufferSize as int <= KQT_BUFFER_SIZE_MAX && mixRate > 0
      ensures Valid() && fresh(reg)
      ensures this.id == id && this.bufferSize == bufferSize && this.mixRate == mixRate && !existent
      ensures forall i, j :: 0 <= i < DEVICE_PORT_TYPES && 0 <= j < KQT_DEVICE_PORTS_MAX ==> !reg[i, j]
    {
      this.id := id;
      this.bufferSize := bufferSize;
      this.mixRate := mixRate;
      existent := false;
      reg := new bool[DEVICE_PORT_TYPES, KQT_DEVICE_PORTS_MAX]((i, j) => false);
    }

    /** `Device_set_existent`. */
    method SetExistent(e: bool)
      modifies this
      ensures existent == e
      ensures mixRate == old(mixRate) && bufferSize == old(bufferSize)
    {
      existent := e;
    }

    /** `Device_is_existent`. */
    method IsExistent() returns (e: bool)
      ensures e == existent
    {
      e := existent;
    }

    /** `Device_port_is_registered`. */
    predicate PortIsRegistered(t: PortType, port: nat)
      requires Valid() && port < KQT_DEVICE_PORTS_MAX
      reads this, reg
    {
      reg[TypeIndex(t), port]
    }

    /** `Device_register_port`: the port becomes registered; one already registered leaves the matrix as it was. */
    method RegisterPort(t: PortType, port: nat)
      requires Valid() && port < KQT_DEVICE_PORTS_MAX
      modifies reg
      ensures old(reg[TypeIndex(t), port]) ==> unchanged(reg)
      ensures forall i, j :: 0 <= i < DEVICE_PORT_TYPES && 0 <= j < KQT_DEVICE_PORTS_MAX ==>
        reg[i, j] == if i == TypeIndex(t) && j == port then true else old(reg[i, j])
    {
      reg[TypeIndex(t), port] := true;
    }

    /** `Device_unregister_port`: the port is no longer registered; one not registered leaves the matrix as it was. */
    method UnregisterPort(t: PortType, port: nat)
      requires Valid() && port < KQT_DEVICE_PORTS_MAX
      modifies reg
      ensures !old(reg[TypeIndex(t), port]) ==> unchanged(reg)
      ensures forall i, j :: 0 <= i < DEVICE_PORT_TYPES && 0 <= j < KQT_DEVICE_PORTS_MAX ==>
        reg[i, j] == if i == TypeIndex(t) && j == port then false else old(reg[i, j])
    {
      reg[TypeIndex(t), port] := false;
    }
  }

  /** A registration change of one port. */
  datatype PortOp = Register(t: PortType, port: nat) | Unregister(t: PortType, port: nat)

  /** Whether the last change of (t, port) in ops, if any, registered it; a new device has none registered. */
  function LastRegistered(ops: seq<PortOp>, t: PortType, port: nat): bool {
    if ops == [] then false
    else
      var op := ops[|ops| - 1];
      if op.t == t && op.port == port then op.Register?
      else LastRegistered(ops[..|ops| - 1], t, port)
  }

  /**
   * Registering and unregistering ports of a new device in the order of
   * ops: each port is registered exactly when its last change registered it.
   */
  method Replay(ops: seq<PortOp>) returns (d: Device)
    requires forall i :: 0 <= i < |ops| ==> ops[i].port < KQT_DEVICE_PORTS_MAX
    ensures d.Valid()
    ensures forall t: PortType, port: nat :: port < KQT_DEVICE_PORTS_MAX ==>
      (d.PortIsRegistered(t, port) <==> LastRegistered(ops, t, port))
  {
    d := new Device(0, 1, 1);
    var k: nat := 0;
    while k < |ops|
      invariant 0 <= k <= |ops| && d.Valid() && fresh(d.reg)
      invariant forall t: PortType, port: nat :: port < KQT_DEVICE_PORTS_MAX ==>
        (d.PortIsRegistered(t, port) <==> LastRegistered(ops[..k], t, port))
    {
      assert ops[..k + 1][..k] == ops[..k];
      match ops[k] {
        case Register(t, port) => d.RegisterPort(t, port);
        case Unregister(t, port) => d.UnregisterPort(t, port);
      }
      k := k + 1;
    }
    assert ops[..k] == ops;
  }

  /** The existent flag reads back as set. */
  method ExistentRoundTrip(e: bool) returns (r: bool)
    ensures r == e
  {
    var d := new Device(0, 1, 1);
    d.SetExistent(e);
    r := d.IsExistent();
  }
}

=== FILE: device_state.dfy ===
/**
 * The play state of one device: its audio rate and buffer size, and the
 * optional hooks a device implementation installs to follow changes. Each
 * hook is an opaque identity, or None for a NULL pointer. What running a
 * hook returns is a parameter of the operation that runs it; what a hook
 * does to the state is not part of this model.
 */
module DeviceState {
  import opened Wrappers
  import opened Limits
  import Device

  type HookId = nat

  /** How a state is disposed of: through its own destructor, or freed as plain memory. */
  datatype Disposal = Destroyed(hook: HookId) | Freed

  class DeviceState {
    var device: Device.Device
    var deviceId: uint32
    var audioRate: int
    var audioBufferSize: int
    var addBuffer: Option<HookId>
    var setAudioRate: Option<HookId>
    var setAudioBufferSize: Option<HookId>
    var setTempo: Option<HookId>
    var reset: Option<HookId>
    var renderMixed: Option<HookId>
    var destroy: Option<HookId>

    /** The installed hooks, in declaration order. */
    function Hooks(): seq<Option<HookId>>
      reads this
    {
      [addBuffer, setAudioRate, setAudioBufferSize, setTempo, reset, renderMixed, destroy]
    }

    /** No hook is installed. */
    predicate Plain()
      reads this
    {
      Hooks() == [None, None, None, None, None, None, None]
    }

    /**
     * `new_Device_state_plain` with `Device_state_init`: a positive rate, a
     * non-negative buffer size, the device's id and no hooks.
     */
    constructor(d: Device.Device, rate: int, size: int)
      requires rate > 0 && size >= 0
      ensures device == d && deviceId == d.id && audioRate == rate && audioBufferSize == size
      ensures Plain()
    {
      device := d;
      deviceId := d.id;
      audioRate := rate;
      audioBufferSize := size;
      addBuffer, setAudioRate, setAudioBufferSize := None, None, None;
      setTempo, reset, renderMixed, destroy := None, None, None, None;
    }

    /**
     * `Device_state_set_audio_rate`: the current rate succeeds without the
     * hook; a new rate is stored first and the hook, if any, is given it and
     * decides the result.
     */
    method SetAudioRate(rate: int, run: (HookId, int) -> bool) returns (ok: bool)
      requires rate > 0
      modifies this
      ensures audioRate == rate && audioBufferSize == old(audioBufferSize) && Hooks() == old(Hooks())
      ensures ok <==> old(audioRate) == rate || setAudioRate.None? || run(setAudioRate.value, audioRate)
      ensures old(audioRate) == rate ==> ok
    {
      if audioRate == rate {
        return true;
      }
      audioRate := rate;
      if setAudioRate.Some? {
        return run(setAudioRate.value, rate);
      }
      return true;
    }

    /**
     * `Device_state_set_audio_buffer_size`: the hook, if any, runs while the
     * size is the smaller of the old and the new one. When it fails the size
     * stays there and the result is false; otherwise the size is the new one.
     * `run(hook, seen, size)` is the hook's result when it sees the stored
     * size `seen` and is asked for `size`.
     */
    method SetAudioBufferSize(size: int, run: (HookId, int, int) -> bool) returns (ok: bool)
      requires size >= 0
      modifies this
      ensures ok <==> setAudioBufferSize.None? || run(setAudioBufferSize.value, Min(old(audioBufferSize), size), size)
      ensures audioBufferSize == if ok then size else Min(old(audioBufferSize), size)
      ensures !ok ==> audioBufferSize <= old(audioBufferSize) && audioBufferSize <= size
      ensures audioRate == old(audioRate) && Hooks() == old(Hooks())
    {
      audioBufferSize := Min(audioBufferSize, size);
      if setAudioBufferSize.Some? && !run(setAudioBufferSize.value, audioBufferSize, size) {
        return false;
      }
      audioBufferSize := size;
      return true;
    }

    /** `Device_state_add_audio_buffer`: true unless the hook is installed and fails. */
    method AddAudioBuffer(t: Device.PortType, port: nat, run: (HookId, Device.PortType, nat) -> bool)
        returns (ok: bool)
      requires port < KQT_DEVICE_PORTS_MAX
      ensures ok <==> addBuffer.None? || run(addBuffer.value, t, port)
    {
      if addBuffer.Some? && !run(addBuffer.value, t, port) {
        return false;
      }
      return true;
    }

    /** `Device_state_set_tempo`: the hook that is called for a positive tempo, if any. */
    method SetTempo(tempo: real) returns (called: Option<HookId>)
      requires tempo > 0.0
      ensures called == setTempo
    {
      called := None;
      if setTempo.Some? {
        called := setTempo;
      }
    }

    /** `Device_state_reset`: the hook that is called, if any. */
    method Reset() returns (called: Option<HookId>)
      ensures called == reset
    {
      called := None;
      if reset.Some? {
        called := reset;
      }
    }

    /**
     * `Device_state_render_mixed`: the hook runs only for a device with
     * mixed signals (`mixedSignals`, read from the device) and when it is
     * installed.
     */
    method RenderMixed(mixedSignals: bool, bufStart: int, bufStop: int, tempo: real) returns (called: bool)
      requires bufStart >= 0 && tempo > 0.0
      ensures called <==> mixedSignals && renderMixed.Some?
    {
      called := mixedSignals && renderMixed.Some?;
    }

    /** `del_Device_state`: its destructor when it has one, plain freeing otherwise. */
    method Dispose() returns (how: Disposal)
      ensures destroy.Some? ==> how == Destroyed(destroy.value)
      ensures destroy.None? ==> how == Freed
    {
      if destroy.Some? {
        return Destroyed(destroy.value);
      }
      return Freed;
    }
  }

  function Min(a: int, b: int): (m: int)
    ensures m <= a && m <= b && (m == a || m == b)
  {
    if a <= b then a else b
  }

  /**
   * A new state has no hooks: setting a new rate, changing the buffer size,
   * adding a buffer and rendering all succeed without running anything.
   */
  method PlainStateAcceptsAll(rate: int, size: int, newRate: int, newSize: int,
                              runRate: (HookId, int) -> bool, runSize: (HookId, int, int) -> bool,
                              runAdd: (HookId, Device.PortType, nat) -> bool)
      returns (rateOk: bool, sizeOk: bool, addOk: bool, rendered: bool, finalRate: int, finalSize: int)
    requires rate > 0 && size >= 0 && newRate > 0 && newSize >= 0
    ensures rateOk && sizeOk && addOk && !rendered
    ensures finalRate == newRate && finalSize == newSize
  {
    var d := new Device.Device(0, 1, 1);
    var ds := new DeviceState(d, rate, size);
    rateOk := ds.SetAudioRate(newRate, runRate);
    sizeOk := ds.SetAudioBufferSize(newSize, runSize);
    addOk := ds.AddAudioBuffer(Device.Send, 0, runAdd);
    rendered := ds.RenderMixed(true, 0, 0, 1.0);
    finalRate, finalSize := ds.audioRate, ds.audioBufferSize;
  }

  /**
   * With a buffer-size hook that fails, the state ends at the smaller of the
   * two sizes: it never claims buffers larger than the ones it has.
   */
  method FailingSizeHook(size: int, newSize: int) returns (ok: bool, finalSize: int)
    requires size >= 0 && newSize >= 0
    ensures !ok && finalSize == Min(size, newSize)
  {
    var d := new Device.Device(0, 1, 1);
    var ds := new DeviceState(d, 1, size);
    ds.setAudioBufferSize := Some(7);
    ok := ds.SetAudioBufferSize(newSize, (h, seen, requested) => false);
    finalSize := ds.audioBufferSize;
  }
}

=== FILE: device_thread_state.dfy ===
/**
 * The per-thread play state of one device: its node state in the
 * connection graph walk, the work buffers of its ports (one slot per port
 * type and port, NULL until added) and the marks of the receive ports
 * that are connected in the current render. The buffer matrix is stored
 * row by row, as C stores `buffers[type][port]`. A work buffer is seen as
 * its size in frames: Work_buffer and Bit_array are not part of this
 * model, and neither are buffer contents.
 */
module DeviceThreadState {
  import opened Wrappers
  import opened Limits
  import Device

  /** The node states of the graph walk; the header that lists them is not part of this model. */
  datatype NodeState = New | Reached | Visited

  datatype WorkBuffer = WorkBuffer(size: nat)

  const SLOTS: nat := Device.DEVICE_PORT_TYPES * KQT_DEVICE_PORTS_MAX

  /** Where `buffers[type][port]` lies in the row-by-row matrix. */
  function Slot(t: Device.PortType, port: nat): (k: nat)
    requires port < KQT_DEVICE_PORTS_MAX
    ensures k < SLOTS
  {
    Device.TypeIndex(t) * KQT_DEVICE_PORTS_MAX + port
  }

  /** The first slot, below m, whose buffer exists and cannot be resized; m when there is none. */
  function FirstFailure(slots: seq<Option<WorkBuffer>>, resizeOk: nat -> bool, m: nat): (n: nat)
    requires m <= |slots|
    ensures n <= m
    ensures forall k :: 0 <= k < n && slots[k].Some? ==> resizeOk(k)
    ensures n < m ==> slots[n].Some? && !resizeOk(n)
  {
    if m == 0 then 0
    else
      var n := FirstFailure(slots, resizeOk, m - 1);
      if n == m - 1 && (slots[m - 1].None? || resizeOk(m - 1)) then m else n
  }

  /** The slots after every existing buffer below n was resized to size. */
  function Resized(slots: seq<Option<WorkBuffer>>, size: nat, n: nat): (r: seq<Option<WorkBuffer>>)
    ensures |r| == |slots|
    ensures forall k :: 0 <= k < |r| ==> r[k].Some? == slots[k].Some?
  {
    seq(|slots|, k requires 0 <= k < |slots| => if k < n && slots[k].Some? then Some(WorkBuffer(size)) else slots[k])
  }

  /** Resizing one more slot changes that slot alone. */
  lemma ResizedStep(slots: seq<Option<WorkBuffer>>, size: nat, k: nat)
    requires k < |slots|
    ensures Resized(slots, size, k + 1) ==
      Resized(slots, size, k)[k := if slots[k].Some? then Some(WorkBuffer(size)) else slots[k]]
  {
  }

  /** Once a slot fails, a larger bound finds the same first failure. */
  lemma {:induction false} FirstFailureStays(slots: seq<Option<WorkBuffer>>, resizeOk: nat -> bool, n: nat, m: nat)
    requires n < m <= |slots| && FirstFailure(slots, resizeOk, n) == n && slots[n].Some? && !resizeOk(n)
    ensures FirstFailure(slots, resizeOk, m) == n
  {
    if m > n + 1 {
      FirstFailureStays(slots, resizeOk, n, m - 1);
    }
  }

  class DeviceThreadState {
    const deviceId: uint32
    /** The size given to buffers when they are added. */
    var audioBufferSize: nat
    var nodeState: NodeState
    const buffers: array<Option<WorkBuffer>>
    /** One mark per receive port. */
    const inConnected: array<bool>

    predicate Valid()
      reads this
    {
      buffers.Length == SLOTS && inConnected.Length == KQT_DEVICE_PORTS_MAX
    }

    /** Every buffer has the size the state gives new buffers. */
    predicate Uniform()
      requires Valid()
      reads this, buffers
    {
      forall k :: 0 <= k < SLOTS && buffers[k].Some? ==> buffers[k].value.size == audioBufferSize
    }

    /** `new_Device_thread_state`: node state NEW, every slot empty, no port marked. */
    constructor(deviceId: uint32, size: int)
      requires size >= 0
      ensures Valid() && this.deviceId == deviceId && audioBufferSize == size && nodeState == New
      ensures fresh(buffers) && fresh(inConnected)
      ensures forall k :: 0 <= k < SLOTS ==> buffers[k] == None
      ensures forall p :: 0 <= p < KQT_DEVICE_PORTS_MAX ==> !inConnected[p]
    {
      this.deviceId := deviceId;
      audioBufferSize := size;
      nodeState := New;
      buffers := new Option<WorkBuffer>[SLOTS](_ => None);
      inConnected := new bool[KQT_DEVICE_PORTS_MAX](_ => false);
    }

    /** `Device_thread_state_set_node_state`. */
    method SetNodeState(s: NodeState)
      modifies this
      ensures nodeState == s && audioBufferSize == old(audioBufferSize)
    {
      nodeState := s;
    }

    /** `Device_thread_state_get_node_state`. */
    method GetNodeState() returns (s: NodeState)
      ensures s == nodeState
    {
      s := nodeState;
    }

    /**
     * `Device_thread_state_set_audio_buffer_size` as written: resizes the
     * existing buffers type by type and port by port, and returns false at
     * the first one that cannot be resized (`resizeOk` of its slot). The
     * size given to buffers added later stays as it was.
     */
    method SetAudioBufferSizeAsWritten(size: nat, resizeOk: nat -> bool) returns (ok: bool)
      requires Valid()
      modifies buffers
      ensures ok <==> FirstFailure(old(buffers[..]), resizeOk, SLOTS) == SLOTS
      ensures buffers[..] == Resized(old(buffers[..]), size, FirstFailure(old(buffers[..]), resizeOk, SLOTS))
    {
      ghost var slots := buffers[..];
      for t := 0 to Device.DEVICE_PORT_TYPES
        invariant buffers[..] == Resized(slots, size, t * KQT_DEVICE_PORTS_MAX)
        invariant FirstFailure(slots, resizeOk, t * KQT_DEVICE_PORTS_MAX) == t * KQT_DEVICE_PORTS_MAX
      {
        for port := 0 to KQT_DEVICE_PORTS_MAX
          invariant buffers[..] == Resized(slots, size, t * KQT_DEVICE_PORTS_MAX + port)
          invariant FirstFailure(slots, resizeOk, t * KQT_DEVICE_PORTS_MAX + port) == t * KQT_DEVICE_PORTS_MAX + port
        {
          var resized := ResizeSlot(slots, size, resizeOk, t * KQT_DEVICE_PORTS_MAX + port);
          if !resized {
            return false;
          }
        }
      }
      ok := true;
    }

    /** One step of the resize loop: the buffer in slot k, if any, is resized or the loop stops there. */
    method ResizeSlot(ghost slots: seq<Option<WorkBuffer>>, size: nat, resizeOk: nat -> bool, k: nat) returns (ok: bool)
      requires Valid() && k < SLOTS && |slots| == SLOTS
      requires buffers[..] == Resized(slots, size, k) && FirstFailure(slots, resizeOk, k) == k
      modifies buffers
      ensures ok ==> buffers[..] == Resized(slots, size, k + 1) && FirstFailure(slots, resizeOk, k + 1) == k + 1
      ensures !ok ==> buffers[..] == Resized(slots, size, k) && FirstFailure(slots, resizeOk, SLOTS) == k
    {
      ResizedStep(slots, size, k);
      if buffers[k].Some? {
        if !resizeOk(k) {
          FirstFailureStays(slots, resizeOk, k, SLOTS);
          return false;
        }
        buffers[k] := Some(WorkBuffer(size));
      }
      return true;
    }

    /**
     * `Device_thread_state_set_audio_buffer_size` as evidently intended:
     * as written, and on success the new size is kept for the buffers added
     * later, so that all buffers agree on it.
     */
    method SetAudioBufferSize(size: nat, resizeOk: nat -> bool) returns (ok: bool)
      requires Valid()
      modifies this, buffers
      ensures ok <==> FirstFailure(old(buffers[..]), resizeOk, SLOTS) == SLOTS
      ensures buffers[..] == Resized(old(buffers[..]), size, FirstFailure(old(buffers[..]), resizeOk, SLOTS))
      ensures audioBufferSize == if ok then size else old(audioBufferSize)
      ensures ok ==> Uniform()
      ensures nodeState == old(nodeState)
    {
      ok := SetAudioBufferSizeAsWritten(size, resizeOk);
      if ok {
        audioBufferSize := size;
      }
    }

    /**
     * `Device_thread_state_add_audio_buffer`: an existing buffer is kept
     * and reported as added; otherwise a buffer of the state's size is
     * created, unless allocation fails (`allocOk`).
     */
    method AddAudioBuffer(t: Device.PortType, port: nat, allocOk: bool) returns (ok: bool)
      requires Valid() && port < KQT_DEVICE_PORTS_MAX
      modifies buffers
      ensures old(buffers[Slot(t, port)]).Some? ==> ok && unchanged(buffers)
      ensures old(buffers[Slot(t, port)]).None? ==>
        (ok <==> allocOk) &&
        buffers[..] == old(buffers[..])[Slot(t, port) := if allocOk then Some(WorkBuffer(audioBufferSize)) else None]
      ensures old(Uniform()) ==> Uniform()
    {
      var k := Slot(t, port);
      if buffers[k].Some? {
        return true;
      }
      buffers[k] := if allocOk then Some(WorkBuffer(audioBufferSize)) else None;
      return allocOk;
    }

    /**
     * `Device_thread_state_clear_audio_buffers`: for a range with
     * 0 <= start <= stop, clears the buffers there (contents are not part
     * of this model) and every connection mark.
     */
    method ClearAudioBuffers(bufStart: int, bufStop: int)
      requires Valid() && 0 <= bufStart <= bufStop
      modifies inConnected
      ensures forall p :: 0 <= p < KQT_DEVICE_PORTS_MAX ==> !inConnected[p]
    {
      forall p | 0 <= p < KQT_DEVICE_PORTS_MAX {
        inConnected[p] := false;
      }
    }

    /** `Device_thread_state_mark_input_port_connected`. */
    method MarkInputPortConnected(port: nat)
      requires Valid() && port < KQT_DEVICE_PORTS_MAX
      modifies inConnected
      ensures inConnected[..] == old(inConnected[..])[port := true]
    {
      inConnected[port] := true;
    }

    /** `Device_thread_state_is_input_port_connected`. */
    predicate IsInputPortConnected(port: nat)
      requires Valid() && port < KQT_DEVICE_PORTS_MAX
      reads this, inConnected
    {
      inConnected[port]
    }

    /** `Device_thread_state_get_audio_buffer`: none for a receive port that is not marked, else the slot. */
    method GetAudioBuffer(t: Device.PortType, port: nat) returns (b: Option<WorkBuffer>)
      requires Valid() && port < KQT_DEVICE_PORTS_MAX
      ensures t == Device.Receive && !IsInputPortConnected(port) ==> b == None
      ensures t == Device.Send || IsInputPortConnected(port) ==> b == buffers[Slot(t, port)]
    {
      if t == Device.Receive && !inConnected[port] {
        return None;
      }
      return buffers[Slot(t, port)];
    }
  }

  /** `Device_thread_state_cmp`: -1, 0 or 1 as the first device id is below, equal to or above the second. */
  function Cmp(ts1: DeviceThreadState, ts2: DeviceThreadState): (r: int)
    ensures r == -1 || r == 0 || r == 1
    ensures r == -1 <==> ts1.deviceId < ts2.deviceId
    ensures r == 1 <==> ts1.deviceId > ts2.deviceId
  {
    if ts1.deviceId < ts2.deviceId then -1
    else if ts1.deviceId > ts2.deviceId then 1
    else 0
  }

  /** The comparison is an order: swapping the states negates it, and it is transitive. */
  lemma CmpOrders(a: DeviceThreadState, b: DeviceThreadState, c: DeviceThreadState)
    ensures Cmp(a, b) == -Cmp(b, a)
    ensures Cmp(a, b) <= 0 && Cmp(b, c) <= 0 ==> Cmp(a, c) <= 0
    ensures Cmp(a, b) == 0 <==> a.deviceId == b.deviceId
  {
  }

  /** Adding a buffer twice keeps the first one and succeeds both times. */
  method AddTwice(t: Device.PortType, port: nat, size: nat, secondAlloc: bool) returns (first: bool, second: bool, b: Option<WorkBuffer>)
    requires port < KQT_DEVICE_PORTS_MAX
    ensures first && second && b == Some(WorkBuffer(size))
  {
    var ts := new DeviceThreadState(0, size);
    first := ts.AddAudioBuffer(t, port, true);
    second := ts.AddAudioBuffer(t, port, secondAlloc);
    ts.MarkInputPortConnected(port);
    b := ts.GetAudioBuffer(t, port);
  }

  /**
   * A port of a new thread state is not connected; marking connects it
   * and leaves the other ports, and clearing the buffers disconnects it.
   */
  method MarkThenConnected(port: nat, other: nat) returns (before: bool, marked: bool, otherMarked: bool, cleared: bool)
    requires port < KQT_DEVICE_PORTS_MAX && other < KQT_DEVICE_PORTS_MAX && other != port
    ensures !before && marked && !otherMarked && !cleared
  {
    var ts := new DeviceThreadState(0, 1);
    before := ts.IsInputPortConnected(port);
    ts.MarkInputPortConnected(port);
    marked := ts.IsInputPortConnected(port);
    otherMarked := ts.IsInputPortConnected(other);
    ts.ClearAudioBuffers(0, 0);
    cleared := ts.IsInputPortConnected(port);
  }

  /**
   * A receive buffer is visible while its port is marked connected and
   * hidden again after the buffers are cleared; a send buffer is always visible.
   */
  method MarkClearGet(port: nat, size: nat) returns (afterMark: Option<WorkBuffer>, afterClear: Option<WorkBuffer>,
                                                     send: Option<WorkBuffer>)
    requires port < KQT_DEVICE_PORTS_MAX
    ensures afterMark == Some(WorkBuffer(size)) && afterClear == None && send == Some(WorkBuffer(size))
  {
    var ts := new DeviceThreadState(0, size);
    var ok := ts.AddAudioBuffer(Device.Receive, port, true);
    ok := ts.AddAudioBuffer(Device.Send, port, true);
    ts.MarkInputPortConnected(port);
    afterMark := ts.GetAudioBuffer(Device.Receive, port);
    ts.ClearAudioBuffers(0, 0);
    afterClear := ts.GetAudioBuffer(Device.Receive, port);
    send := ts.GetAudioBuffer(Device.Send, port);
  }

  /**
   * As written, a state made for 128-frame buffers and then resized to 256
   * frames still adds a 128-frame buffer.
   */
  method StaleSizeAsWritten() returns (ok: bool, b: Option<WorkBuffer>)
    ensures ok && b == Some(WorkBuffer(128))
  {
    var ts := new DeviceThreadState(0, 128);
    ok := ts.SetAudioBufferSizeAsWritten(256, k => true);
    assert ts.buffers[..] == Resized(seq(SLOTS, k => None), 256, SLOTS);
    var added := ts.AddAudioBuffer(Device.Send, 0, true);
    b := ts.GetAudioBuffer(Device.Send, 0);
  }

  /** With the new size kept, the buffer added after a successful resize has the new size. */
  method ResizedSizeCorrected(size: nat, newSize: nat) returns (ok: bool, b: Option<WorkBuffer>)
    ensures ok && b == Some(WorkBuffer(newSize))
  {
    var ts := new DeviceThreadState(0, size);
    ok := ts.SetAudioBufferSize(newSize, k => true);
    var added := ts.AddAudioBuffer(Device.Send, 0, true);
    b := ts.GetAudioBuffer(Device.Send, 0);
  }
}

=== FILE: event.dfy ===
/**
 * A pattern event: a type, a position and a fixed array of fields, each
 * an integer or a double (a C union). The setters validate the value
 * against the event type before writing it. The note table header is not
 * part of this model: its limits below stand in for its constants.
 */
module Event {
  import opened Wrappers
  import opened Limits

  const EVENT_FIELDS: nat := 4
  const NOTE_TABLE_NOTES: int := 128
  const NOTE_TABLE_NOTE_MODS: int := 16
  const NOTE_TABLE_OCTAVE_FIRST: int := -3
  const NOTE_TABLE_OCTAVE_LAST: int := 12

  datatype EventType = NoteOn | NoteOff | GlobalTempo | GlobalVolume | OtherEvent

  /** A position: beats and a remainder. */
  datatype Reltime = Reltime(beats: int, rem: int)

  /**
   * One field of the union. A field written as one member and read as the
   * other is not modelled: reading a double from an integer field gives 0.0.
   */
  datatype Field = IntField(i: int64) | FloatField(d: real)

  function AsFloat(f: Field): real {
    if f.FloatField? then f.d else 0.0
  }

  /** `Event_type_get_field_types`: "iiii" for a note on, "" for a note off. */
  function FieldTypes(t: EventType): (r: Option<string>)
    ensures r.Some? <==> t == NoteOn || t == NoteOff
    ensures t == NoteOn ==> r == Some("iiii") && |r.value| == EVENT_FIELDS
    ensures t == NoteOff ==> r == Some("")
  {
    match t
    case NoteOn => Some("iiii")
    case NoteOff => Some("")
    case _ => None
  }

  /** The values `Event_set_int` accepts for the field at index of a note on. */
  predicate NoteOnFieldAccepts(index: nat, value: int) {
    (index == 0 && 0 <= value < NOTE_TABLE_NOTES) ||
    (index == 1 && -1 <= value < NOTE_TABLE_NOTE_MODS) ||
    (index == 2 && NOTE_TABLE_OCTAVE_FIRST <= value <= NOTE_TABLE_OCTAVE_LAST) ||
    (index == 3 && 0 < value < 256)
  }

  /** The fields of a note on after a reset: note, modifier, octave and instrument. */
  const NOTE_ON_DEFAULTS: seq<Field> := [IntField(-1), IntField(-1), IntField(INT64_MIN as int64), IntField(0)]

  class Event {
    var eventType: EventType
    var pos: Reltime
    const fields: array<Field>

    /** The field array has its fixed size, and the fields of a note on are integers. */
    predicate Valid()
      reads this, fields
    {
      fields.Length == EVENT_FIELDS &&
      (eventType == NoteOn ==> forall k :: 0 <= k < fields.Length ==> fields[k].IntField?)
    }

    /** `new_Event`: the position is copied and the fields are reset for the type. */
    constructor(p: Reltime, t: EventType)
      ensures Valid() && eventType == t && pos == p
      ensures t == NoteOn ==> fields[..] == NOTE_ON_DEFAULTS
    {
      pos := p;
      eventType := t;
      fields := new Field[EVENT_FIELDS](_ => IntField(0));
      new;
      Reset(t);
    }

    /** `Event_reset`: a note on gets note -1, modifier -1, the lowest octave and instrument 0; other types keep their fields. */
    method Reset(t: EventType)
      requires fields.Length == EVENT_FIELDS
      modifies this, fields
      ensures Valid() && eventType == t && pos == old(pos)
      ensures t == NoteOn ==> fields[..] == NOTE_ON_DEFAULTS
      ensures t != NoteOn ==> fields[..] == old(fields[..])
    {
      eventType := t;
      if t == NoteOn {
        fields[0] := IntField(-1);
        fields[1] := IntField(-1);
        fields[2] := IntField(INT64_MIN as int64);
        fields[3] := IntField(0);
        assert fields[..] == NOTE_ON_DEFAULTS;
      }
    }

    /** `Event_set_pos`: the position is copied in. */
    method SetPos(p: Reltime)
      modifies this
      ensures pos == p && eventType == old(eventType)
    {
      pos := p;
    }

    /** `Event_int`: only a note on has integer fields. */
    method Int(index: nat) returns (ok: bool, value: int64)
      requires Valid() && index < EVENT_FIELDS
      ensures ok <==> eventType == NoteOn
      ensures ok ==> fields[index] == IntField(value)
    {
      if eventType == NoteOn {
        return true, fields[index].i;
      }
      return false, 0;
    }

    /** `Event_float`: the global volume and tempo have one double field. */
    method Float(index: nat) returns (ok: bool, value: real)
      requires Valid() && index < EVENT_FIELDS
      ensures ok <==> (eventType == GlobalVolume || eventType == GlobalTempo) && index == 0
      ensures ok ==> value == AsFloat(fields[0])
    {
      if (eventType == GlobalVolume || eventType == GlobalTempo) && index == 0 {
        return true, AsFloat(fields[0]);
      }
      return false, 0.0;
    }

    /** `Event_set_int`: writes the field only when the note on accepts the value there. */
    method SetInt(index: nat, value: int64) returns (ok: bool)
      requires Valid() && index < EVENT_FIELDS
      modifies fields
      ensures Valid()
      ensures ok <==> eventType == NoteOn && NoteOnFieldAccepts(index, value as int)
      ensures ok ==> fields[..] == old(fields[..])[index := IntField(value)]
      ensures !ok ==> fields[..] == old(fields[..])
    {
      if eventType == NoteOn && NoteOnFieldAccepts(index, value as int) {
        fields[index] := IntField(value);
        return true;
      }
      return false;
    }

    /** `Event_set_float`: the volume takes any value, the tempo a positive one, both at index 0. */
    method SetFloat(index: nat, value: real) returns (ok: bool)
      requires Valid() && index < EVENT_FIELDS
      modifies fields
      ensures Valid()
      ensures ok <==> index == 0 && (eventType == GlobalVolume || (eventType == GlobalTempo && value > 0.0))
      ensures ok ==> fields[..] == old(fields[..])[0 := FloatField(value)]
      ensures !ok ==> fields[..] == old(fields[..])
    {
      if index == 0 && (eventType == GlobalVolume || (eventType == GlobalTempo && value > 0.0)) {
        fields[0] := FloatField(value);
        return true;
      }
      return false;
    }
  }

  /** A value accepted by `Event_set_int` is what `Event_int` then reads. */
  method SetIntThenInt(e: Event, index: nat, value: int64) returns (stored: bool, got: bool, read: int64)
    requires e.Valid() && index < EVENT_FIELDS
    modifies e.fields
    ensures stored ==> got && read == value
    ensures !stored ==> e.fields[..] == old(e.fields[..])
  {
    stored := e.SetInt(index, value);
    got, read := e.Int(index);
  }
}

=== FILE: event_buffer.dfy ===
/**
 * The event buffer of the player: a fixed character buffer that collects
 * the events fired during one render call as the text of a JSON list,
 * `[[ch, ["name", value]], ...]`. The value serialiser is not part of
 * this model: `Add` takes the text it produced.
 */
module EventBuffer {
  import opened Limits

  const EMPTY_BUFFER: string := "[]"

  /** A decimal digit. */
  function Digit(d: nat): (c: char)
    requires d < 10
    ensures '0' <= c <= '9' && (c - '0') as int == d
  {
    ('0' as int + d) as char
  }

  /** `%d` of a non-negative number. */
  function Decimal(n: nat): (s: string)
    ensures 1 <= |s| && forall i :: 0 <= i < |s| ==> '0' <= s[i] <= '9'
    ensures n < 10 ==> |s| == 1
    ensures n < 100 ==> |s| <= 2
  {
    if n < 10 then [Digit(n)] else Decimal(n / 10) + [Digit(n % 10)]
  }

  /** Reads back a string of decimal digits. */
  function DecimalValue(s: string): nat
    requires forall i :: 0 <= i < |s| ==> '0' <= s[i] <= '9'
  {
    if s == [] then 0 else DecimalValue(s[..|s| - 1]) * 10 + (s[|s| - 1] - '0') as nat
  }

  /** The channel number written into an event reads back as itself. */
  lemma {:induction false} DecimalRoundTrip(n: nat)
    ensures DecimalValue(Decimal(n)) == n
  {
    var s := Decimal(n);
    if n >= 10 {
      DecimalRoundTrip(n / 10);
      assert s[..|s| - 1] == Decimal(n / 10);
      assert (s[|s| - 1] - '0') as nat == n % 10;
      assert (n / 10) * 10 + n % 10 == n;
    }
  }

  /** The text before the value: a separator unless first, the channel and the quoted name. */
  function Opening(first: bool, ch: nat, name: string): string {
    (if first then "" else ", ") + "[" + Decimal(ch) + ", [\"" + name + "\", "
  }

  /** One event as written: `[ch, ["name", value]]`, after ", " unless it is the first. */
  function EventText(first: bool, ch: nat, name: string, value: string): (t: string)
    ensures |t| == |Opening(first, ch, name)| + |value| + 2
    ensures t[|t| - 2..] == "]]"
  {
    Opening(first, ch, name) + value + "]]"
  }

  /** The event texts joined, each after the first behind its ", " separator. */
  function Listing(events: seq<string>): string {
    if events == [] then "" else Listing(events[..|events| - 1]) + events[|events| - 1]
  }

  /** Appending an event text extends the listing by exactly that text. */
  lemma ListingSnoc(events: seq<string>, t: string)
    ensures Listing(events + [t]) == Listing(events) + t
  {
    assert (events + [t])[..|events|] == events;
  }

  class EventBuffer {
    var size: nat
    var writePos: nat
    const buf: array<char>
    /** The event texts written since the buffer was last cleared. */
    ghost var events: seq<string>

    /**
     * The text is `[`, the events, `]` and a NUL; the write position is at
     * the closing bracket, which is position 1 exactly when nothing was written.
     */
    ghost predicate Valid()
      reads this, buf
    {
      buf.Length == size + 1 && |EMPTY_BUFFER| + 1 <= size && 1 <= writePos < size &&
      buf[..writePos] == "[" + Listing(events) &&
      buf[writePos] == ']' && buf[writePos + 1] == '\0' &&
      (writePos == 1 <==> events == [])
    }

    /** The list the buffer holds, up to its NUL. */
    function Text(): (t: string)
      requires Valid()
      reads this, buf
      ensures t == "[" + Listing(events) + "]"
    {
      buf[..writePos + 1]
    }

    /** `new_Event_buffer`: at least room for `[]` and its NUL, and cleared. */
    constructor(size: nat)
      ensures Valid() && events == [] && Text() == EMPTY_BUFFER
      ensures fresh(buf)
      ensures this.size == if size < |EMPTY_BUFFER| + 1 then |EMPTY_BUFFER| + 1 else size
    {
      var n := if size < |EMPTY_BUFFER| + 1 then |EMPTY_BUFFER| + 1 else size;
      this.size := n;
      writePos := 1;
      buf := new char[n + 1](_ => '\0');
      events := [];
      new;
      buf[0] := '[';
      buf[1] := ']';
      assert buf[..writePos] == "[" + Listing(events);
    }

    /** `Event_buffer_is_full`: no more than one maximal event of room is left. */
    function IsFull(): (full: bool)
      reads this
      ensures !full <==> writePos + EVENT_LEN_MAX < size
    {
      size < EVENT_LEN_MAX || writePos >= size - EVENT_LEN_MAX
    }

    /** `Event_buffer_clear`: back to the empty list. */
    method Clear()
      requires Valid()
      modifies this, buf
      ensures Valid() && size == old(size) && events == [] && Text() == EMPTY_BUFFER
    {
      buf[0] := '[';
      buf[1] := ']';
      buf[2] := '\0';
      writePos := 1;
      events := [];
      assert buf[..writePos] == "[" + Listing(events);
    }

    /**
     * `Event_buffer_add`: appends one event and closes the list again. The
     * event, separator included, fits in EVENT_LEN_MAX characters because
     * the value serialiser is given the room that is left; the buffer then
     * keeps its closing bracket and NUL inside its size.
     */
    method Add(ch: nat, name: string, value: string)
      requires Valid() && !IsFull() && ch < KQT_CHANNELS_MAX
      requires |EventText(writePos == 1, ch, name, value)| <= EVENT_LEN_MAX
      modifies this, buf
      ensures Valid() && size == old(size)
      ensures events == old(events) + [EventText(old(events) == [], ch, name, value)]
      ensures writePos == old(writePos) + |EventText(old(events) == [], ch, name, value)|
    {
      var t := EventText(writePos == 1, ch, name, value);
      var at := writePos;
      ghost var listing := Listing(events);
      Write(at, t);
      ghost var written := buf[..at + |t|];
      assert written == "[" + (listing + t);
      writePos := at + |t|;
      buf[writePos] := ']';
      buf[writePos + 1] := '\0';
      assert buf[..writePos] == written;
      ListingSnoc(events, t);
      events := events + [t];
    }

    /** Copies t into the buffer at position at, as `sprintf` and `strcpy` do. */
    method Write(at: nat, t: string)
      requires at + |t| <= buf.Length
      modifies buf
      ensures buf[..at + |t|] == old(buf[..at]) + t
    {
      forall i | 0 <= i < |t| {
        buf[at + i] := t[i];
      }
    }
  }

  /** After a clear, two adds give the list of the two events, the second behind ", ". */
  method TwoEvents(size: nat, name1: string, value1: string, name2: string, value2: string)
      returns (text: string)
    requires size >= 3 * EVENT_LEN_MAX
    requires |EventText(true, 0, name1, value1)| <= EVENT_LEN_MAX
    requires |EventText(false, 1, name2, value2)| <= EVENT_LEN_MAX
    ensures text == "[" + (EventText(true, 0, name1, value1) + EventText(false, 1, name2, value2)) + "]"
  {
    var b := new EventBuffer(size);
    b.Add(0, name1, value1);
    b.Add(1, name2, value2);
    text := b.Text();
    ListingTwo(EventText(true, 0, name1, value1), EventText(false, 1, name2, value2));
  }

  /** Two event texts are listed one after the other. */
  lemma ListingTwo(e1: string, e2: string)
    ensures Listing([e1, e2]) == e1 + e2
  {
    ListingSnoc([e1], e2);
    ListingSnoc([], e1);
    assert [e1] + [e2] == [e1, e2];
  }

  /** The first event opens with its channel; a later one with ", " and then its channel. */
  lemma EventTextOpens(name1: string, value1: string, name2: string, value2: string)
    ensures EventText(true, 0, name1, value1)[..4] == "[0, "
    ensures EventText(false, 1, name2, value2)[..6] == ", [1, "
  {
    assert Decimal(0) == "0" && Decimal(1) == "1";
  }
}

=== FILE: event_cache.dfy ===
/**
 * The event cache of the player: the last value seen for each event name
 * it was told to track. The balanced tree that holds the entries is not
 * part of this model; the entries are a map from name to value.
 */
module EventCache {
  import opened Limits
  import opened Values

  /** Every tracked name mapped back to no value. */
  function Cleared(states: map<string, Value>): (r: map<string, Value>)
    ensures r.Keys == states.Keys
    ensures forall name :: name in r ==> r[name] == NoneValue
  {
    map name | name in states :: NoneValue
  }

  class EventCache {
    var states: map<string, Value>

    /** `new_Event_cache`: tracks nothing. */
    constructor()
      ensures states == map[]
    {
      states := map[];
    }

    /**
     * `Event_cache_add_event`: a name already tracked keeps its value; a
     * new one, at most EVENT_NAME_MAX characters long, starts with no value.
     */
    method AddEvent(name: string)
      requires name in states || |name| <= EVENT_NAME_MAX
      modifies this
      ensures name in old(states) ==> states == old(states)
      ensures name !in old(states) ==> states == old(states)[name := NoneValue]
    {
      if name in states {
        return;
      }
      states := states[name := NoneValue];
    }

    /** `Event_cache_update`: stores the value for a tracked name and ignores any other name. */
    method Update(name: string, value: Value)
      modifies this
      ensures name in old(states) ==> states == old(states)[name := value]
      ensures name !in old(states) ==> states == old(states)
    {
      if name !in states {
        return;
      }
      states := states[name := value];
    }

    /** `Event_cache_get_value`: the value last stored for a tracked name. */
    method GetValue(name: string) returns (value: Value)
      requires name in states
      ensures value == states[name]
    {
      value := states[name];
    }

    /** `Event_cache_reset`: visits every entry and forgets its value; the tracked names stay. */
    method Reset()
      modifies this
      ensures states == Cleared(old(states))
    {
      var todo := states.Keys;
      while todo != {}
        invariant todo <= states.Keys && states.Keys == old(states).Keys
        invariant forall name :: name in states && name !in todo ==> states[name] == NoneValue
        invariant forall name :: name in todo ==> states[name] == old(states)[name]
        decreases todo
      {
        var name :| name in todo;
        states := states[name := NoneValue];
        todo := todo - {name};
      }
    }
  }

  /** An update of a tracked name is what the next lookup returns. */
  method UpdateThenGet(cache: EventCache, name: string, value: Value) returns (got: Value)
    requires name in cache.states
    modifies cache
    ensures got == value
    ensures cache.states.Keys == old(cache.states.Keys)
  {
    cache.Update(name, value);
    got := cache.GetValue(name);
  }

  /** Adding a name and resetting leave exactly the added names tracked, all without value. */
  method AddThenReset(names: seq<string>) returns (cache: EventCache)
    requires forall i :: 0 <= i < |names| ==> |names[i]| <= EVENT_NAME_MAX
    ensures cache.states.Keys == set i | 0 <= i < |names| :: names[i]
    ensures forall name :: name in cache.states ==> cache.states[name] == NoneValue
  {
    cache := new EventCache();
    var i := 0;
    while i < |names|
      invariant i <= |names|
      invariant cache.states.Keys == set j | 0 <= j < i :: names[j]
      invariant fresh(cache)
    {
      cache.AddEvent(names[i]);
      i := i + 1;
    }
    cache.Reset();
  }
}

=== FILE: event_handler.dfy ===
/**
 * The event handler of the player: three tables of event processors, one
 * per event category (channel, global, instrument), indexed by event type,
 * and the states the processors act on. Handling an event looks up the
 * processor registered for its type and runs it on the column, instrument
 * or global state the event addresses.
 *
 * The event type header is not part of this model: the ranges below stand
 * in for its constants, and every property of the model holds for any
 * three disjoint ranges. The processors themselves are not part of this
 * model either: a processor is an opaque identity, and what running it
 * returns is the parameter `run`.
 */
module EventHandler {
  import opened Wrappers
  import opened Limits

  const EVENT_NONE: nat := 0
  const EVENT_GLOBAL_LOWER: nat := 10
  const EVENT_GLOBAL_UPPER: nat := 30
  const EVENT_CHANNEL_LOWER: nat := 30
  const EVENT_CHANNEL_UPPER: nat := 70
  const EVENT_INS_LOWER: nat := 70
  const EVENT_INS_UPPER: nat := 80
  const EVENT_LAST: nat := 100

  predicate IsValidType(t: nat) { EVENT_NONE < t < EVENT_LAST }
  predicate IsChannel(t: nat) { EVENT_CHANNEL_LOWER < t < EVENT_CHANNEL_UPPER }
  predicate IsGlobal(t: nat) { EVENT_GLOBAL_LOWER < t < EVENT_GLOBAL_UPPER }
  predicate IsIns(t: nat) { EVENT_INS_LOWER < t < EVENT_INS_UPPER }

  /** An event processor; a table slot without one holds None (a NULL pointer). */
  type ProcId = nat
  /** A column's channel state, as the pointer the handler was given. */
  type ChannelRef = nat
  /** The global play state, as the pointer the handler was given. */
  type GlobalRef = nat

  /** What a processor is run on. */
  datatype Target = ChannelTarget(ch: ChannelRef) | InsTarget(ins: nat) | GlobalTarget(global: GlobalRef)

  /** One processor the constructor installs for one event type. */
  datatype Registration = Registration(eventType: nat, proc: ProcId)

  predicate Registrable(r: Registration) {
    IsChannel(r.eventType) || IsGlobal(r.eventType) || IsIns(r.eventType)
  }

  /** The processor the last registration of type t installs, if any. */
  function LastFor(regs: seq<Registration>, t: nat): (p: Option<ProcId>)
    ensures p.None? <==> forall i :: 0 <= i < |regs| ==> regs[i].eventType != t
    ensures p.Some? ==> exists i :: 0 <= i < |regs| && regs[i] == Registration(t, p.value)
  {
    if regs == [] then None
    else if regs[|regs| - 1].eventType == t then Some(regs[|regs| - 1].proc)
    else
      var p := LastFor(regs[..|regs| - 1], t);
      assert forall i :: 0 <= i < |regs| - 1 ==> regs[..|regs| - 1][i] == regs[i];
      p
  }

  /** A table slot after the registrations: the last one for its type, when the type belongs to the table. */
  function Installed(regs: seq<Registration>, inTable: bool, t: nat): Option<ProcId> {
    if inTable then LastFor(regs, t) else None
  }

  /** The columns, in order, before the first one whose gen state refuses the key. */
  function Accepted(key: string, setKey: (nat, string) -> bool, m: nat): (n: nat)
    requires m <= KQT_COLUMNS_MAX
    ensures n <= m
    ensures forall i :: 0 <= i < n ==> setKey(i, key)
    ensures n < m ==> !setKey(n, key)
  {
    if m == 0 then 0
    else
      var n := Accepted(key, setKey, m - 1);
      if n == m - 1 && setKey(m - 1, key) then m else n
  }

  class EventHandler {
    const globalState: GlobalRef
    const chStates: seq<ChannelRef>
    /** The instrument table: the indices that hold an instrument. */
    const insts: set<nat>
    const chProcess: array<Option<ProcId>>
    const globalProcess: array<Option<ProcId>>
    const insProcess: array<Option<ProcId>>
    /** The keys of each column's generator state. */
    const genKeys: array<set<string>>

    predicate Valid()
      reads this
    {
      |chStates| == KQT_COLUMNS_MAX && genKeys.Length == KQT_COLUMNS_MAX &&
      chProcess.Length == EVENT_CHANNEL_UPPER &&
      globalProcess.Length == EVENT_GLOBAL_UPPER &&
      insProcess.Length == EVENT_INS_UPPER &&
      chProcess != globalProcess && chProcess != insProcess && globalProcess != insProcess
    }

    /**
     * `new_Event_handler`: keeps the states it is given and installs the
     * built-in processors, each in its category's table.
     */
    constructor(global: GlobalRef, chs: seq<ChannelRef>, table: set<nat>, keys: seq<set<string>>,
                defaults: seq<Registration>)
      requires |chs| == KQT_COLUMNS_MAX && |keys| == KQT_COLUMNS_MAX
      requires forall i :: 0 <= i < |defaults| ==> Registrable(defaults[i])
      ensures Valid() && globalState == global && chStates == chs && insts == table && genKeys[..] == keys
      ensures fresh(chProcess) && fresh(globalProcess) && fresh(insProcess) && fresh(genKeys)
      ensures forall t :: 0 <= t < EVENT_CHANNEL_UPPER ==> chProcess[t] == Installed(defaults, IsChannel(t), t)
      ensures forall t :: 0 <= t < EVENT_GLOBAL_UPPER ==> globalProcess[t] == Installed(defaults, IsGlobal(t), t)
      ensures forall t :: 0 <= t < EVENT_INS_UPPER ==> insProcess[t] == Installed(defaults, IsIns(t), t)
    {
      globalState := global;
      chStates := chs;
      insts := table;
      chProcess := new Option<ProcId>[EVENT_CHANNEL_UPPER](_ => None);
      globalProcess := new Option<ProcId>[EVENT_GLOBAL_UPPER](_ => None);
      insProcess := new Option<ProcId>[EVENT_INS_UPPER](_ => None);
      genKeys := new set<string>[KQT_COLUMNS_MAX](i requires 0 <= i < KQT_COLUMNS_MAX => keys[i]);
      new;
      assert genKeys[..] == keys;
      var i := 0;
      while i < |defaults|
        invariant 0 <= i <= |defaults| && Valid() && genKeys[..] == keys
        invariant forall t :: 0 <= t < EVENT_CHANNEL_UPPER ==> chProcess[t] == Installed(defaults[..i], IsChannel(t), t)
        invariant forall t :: 0 <= t < EVENT_GLOBAL_UPPER ==> globalProcess[t] == Installed(defaults[..i], IsGlobal(t), t)
        invariant forall t :: 0 <= t < EVENT_INS_UPPER ==> insProcess[t] == Installed(defaults[..i], IsIns(t), t)
      {
        Register(defaults, i);
        i := i + 1;
      }
      assert defaults[..i] == defaults;
    }

    /** One registration of the constructor: the slot of its type now holds the last one for that type. */
    method Register(defaults: seq<Registration>, i: nat)
      requires Valid() && i < |defaults| && Registrable(defaults[i])
      requires forall t :: 0 <= t < EVENT_CHANNEL_UPPER ==> chProcess[t] == Installed(defaults[..i], IsChannel(t), t)
      requires forall t :: 0 <= t < EVENT_GLOBAL_UPPER ==> globalProcess[t] == Installed(defaults[..i], IsGlobal(t), t)
      requires forall t :: 0 <= t < EVENT_INS_UPPER ==> insProcess[t] == Installed(defaults[..i], IsIns(t), t)
      modifies chProcess, globalProcess, insProcess
      ensures forall t :: 0 <= t < EVENT_CHANNEL_UPPER ==> chProcess[t] == Installed(defaults[..i + 1], IsChannel(t), t)
      ensures forall t :: 0 <= t < EVENT_GLOBAL_UPPER ==> globalProcess[t] == Installed(defaults[..i + 1], IsGlobal(t), t)
      ensures forall t :: 0 <= t < EVENT_INS_UPPER ==> insProcess[t] == Installed(defaults[..i + 1], IsIns(t), t)
    {
      var r := defaults[i];
      assert defaults[..i + 1] == defaults[..i] + [r];
      assert defaults[..i + 1][..i] == defaults[..i];
      if IsChannel(r.eventType) {
        SetChProcess(r.eventType, r.proc);
      } else if IsGlobal(r.eventType) {
        SetGlobalProcess(r.eventType, r.proc);
      } else {
        SetInsProcess(r.eventType, r.proc);
      }
    }

    /** `Event_handler_set_ch_process`: a channel event type gets the (non-NULL) processor. */
    method SetChProcess(t: nat, p: ProcId)
      requires Valid() && IsChannel(t)
      modifies chProcess
      ensures chProcess[..] == old(chProcess[..])[t := Some(p)]
    {
      chProcess[t] := Some(p);
    }

    /** `Event_handler_set_global_process`: a global event type gets the (non-NULL) processor. */
    method SetGlobalProcess(t: nat, p: ProcId)
      requires Valid() && IsGlobal(t)
      modifies globalProcess
      ensures globalProcess[..] == old(globalProcess[..])[t := Some(p)]
    {
      globalProcess[t] := Some(p);
    }

    /** `Event_handler_set_ins_process`: an instrument event type gets the (non-NULL) processor. */
    method SetInsProcess(t: nat, p: ProcId)
      requires Valid() && IsIns(t)
      modifies insProcess
      ensures insProcess[..] == old(insProcess[..])[t := Some(p)]
    {
      insProcess[t] := Some(p);
    }

    /**
     * `Event_handler_handle`: a channel event addresses a column, an
     * instrument event an instrument and a global event no index (-1). The
     * result is the processor's, and false when the type has no processor,
     * the instrument is absent or the type is of another category.
     */
    method Handle(index: int, t: nat, fields: string, run: (ProcId, Target, string) -> bool) returns (r: bool)
      requires Valid() && IsValidType(t)
      requires IsChannel(t) ==> 0 <= index < KQT_COLUMNS_MAX
      requires IsIns(t) ==> 0 <= index < KQT_INSTRUMENTS_MAX
      requires IsGlobal(t) ==> index == -1
      ensures IsChannel(t) ==> (r <==> chProcess[t].Some? && run(chProcess[t].value, ChannelTarget(chStates[index]), fields))
      ensures IsIns(t) ==> (r <==> index in insts && insProcess[t].Some? && run(insProcess[t].value, InsTarget(index), fields))
      ensures IsGlobal(t) ==> (r <==> globalProcess[t].Some? && run(globalProcess[t].value, GlobalTarget(globalState), fields))
      ensures !IsChannel(t) && !IsIns(t) && !IsGlobal(t) ==> !r
    {
      if IsChannel(t) {
        if chProcess[t] == None {
          return false;
        }
        return run(chProcess[t].value, ChannelTarget(chStates[index]), fields);
      } else if IsIns(t) {
        if index in insts {
          if insProcess[t] == None {
            return false;
          }
          return run(insProcess[t].value, InsTarget(index), fields);
        }
      } else if IsGlobal(t) {
        if globalProcess[t] == None {
          return false;
        }
        return run(globalProcess[t].value, GlobalTarget(globalState), fields);
      }
      return false;
    }

    /**
     * `Event_handler_add_channel_gen_state_key`: gives the key to each
     * column's generator state in column order and stops with false at the
     * first one that refuses it; the columns before it have the key.
     */
    method AddChannelGenStateKey(key: string, setKey: (nat, string) -> bool) returns (ok: bool)
      requires Valid()
      modifies genKeys
      ensures ok <==> forall i :: 0 <= i < KQT_COLUMNS_MAX ==> setKey(i, key)
      ensures forall i :: 0 <= i < KQT_COLUMNS_MAX ==>
        genKeys[i] == if i < Accepted(key, setKey, KQT_COLUMNS_MAX) then old(genKeys[i]) + {key} else old(genKeys[i])
    {
      var i := 0;
      while i < KQT_COLUMNS_MAX
        invariant 0 <= i <= KQT_COLUMNS_MAX && Accepted(key, setKey, i) == i
        invariant forall j :: 0 <= j < KQT_COLUMNS_MAX ==>
          genKeys[j] == if j < i then old(genKeys[j]) + {key} else old(genKeys[j])
      {
        if !setKey(i, key) {
          AcceptedStops(key, setKey, i, KQT_COLUMNS_MAX);
          return false;
        }
        genKeys[i] := genKeys[i] + {key};
        i := i + 1;
      }
      ok := true;
    }
  }

  /** Once a column refuses the key, no later bound moves the first refusal. */
  lemma {:induction false} AcceptedStops(key: string, setKey: (nat, string) -> bool, n: nat, m: nat)
    requires n < m <= KQT_COLUMNS_MAX && Accepted(key, setKey, n) == n && !setKey(n, key)
    ensures Accepted(key, setKey, m) == n
  {
    if m > n + 1 {
      AcceptedStops(key, setKey, n, m - 1);
    }
  }

  /**
   * `Event_handler_handle` as written: an instrument event whose type has
   * no processor still calls the empty table slot. None stands for that call
   * through a NULL pointer; otherwise the result is as in the corrected
   * `Handle`.
   */
  function HandleAsWritten(insProcess: seq<Option<ProcId>>, insts: set<nat>, index: int, t: nat, fields: string,
                           run: (ProcId, Target, string) -> bool): (r: Option<bool>)
    requires |insProcess| == EVENT_INS_UPPER && IsIns(t) && 0 <= index < KQT_INSTRUMENTS_MAX
    ensures r.None? <==> index in insts && insProcess[t].None?
  {
    if index in insts then
      if insProcess[t].None? then None else Some(run(insProcess[t].value, InsTarget(index), fields))
    else Some(false)
  }

  /**
   * The constructor installs a single instrument processor. Any other
   * instrument event sent to an instrument that exists reaches the NULL
   * table slot as written, while the corrected `Handle` returns false.
   */
  method InsEventWithoutProcessor(pedal: nat, other: nat, run: (ProcId, Target, string) -> bool)
      returns (asWritten: Option<bool>, corrected: bool)
    requires IsIns(pedal) && IsIns(other) && pedal != other
    ensures asWritten == None
    ensures !corrected
  {
    var chs := seq(KQT_COLUMNS_MAX, i => i);
    var keys := seq(KQT_COLUMNS_MAX, i => {});
    var h := new EventHandler(0, chs, {0}, keys, [Registration(pedal, 1)]);
    assert LastFor([Registration(pedal, 1)], other) == None;
    asWritten := HandleAsWritten(h.insProcess[..], h.insts, 0, other, "[]", run);
    corrected := h.Handle(0, other, "[]", run);
  }

  /** A processor set for a channel event type is the one handling that event on every column. */
  method SetThenHandle(h: EventHandler, t: nat, p: ProcId, index: nat, fields: string,
                       run: (ProcId, Target, string) -> bool) returns (r: bool)
    requires h.Valid() && IsChannel(t) && index < KQT_COLUMNS_MAX
    modifies h.chProcess
    ensures r == run(p, ChannelTarget(h.chStates[index]), fields)
  {
    h.SetChProcess(t, p);
    r := h.Handle(index, t, fields, run);
  }
}

=== FILE: event_queue.dfy ===
/**
 * The bounded event queue of the player: a ring of `size` nodes, each a
 * starting frame and an event, read from `start` for `count` nodes. The
 * queue hands events out in order of their starting frame, and events that
 * start on the same frame in the order they were inserted.
 */
module EventQueue {
  import opened Limits

  /** An event is referred to by an opaque identity; the queue never looks inside. */
  type EventRef = nat

  datatype Node = Node(pos: uint32, event: EventRef)

  /** Nondecreasing starting frames. */
  predicate Sorted(c: seq<Node>) {
    forall i, j :: 0 <= i < j < |c| ==> c[i].pos <= c[j].pos
  }

  /**
   * Where a node starting at p goes: after the last node that starts no
   * later than p, so that it follows every earlier node of the same frame.
   */
  function Slot(c: seq<Node>, p: uint32): (k: nat)
    ensures k <= |c|
    ensures forall j :: k <= j < |c| ==> c[j].pos > p
    ensures k > 0 ==> c[k - 1].pos <= p
  {
    SlotBelow(c, p, |c|)
  }

  /** The slot for p among the first m nodes of c, searched from the back. */
  function SlotBelow(c: seq<Node>, p: uint32, m: nat): (k: nat)
    requires m <= |c|
    ensures k <= m
    ensures forall j :: k <= j < m ==> c[j].pos > p
    ensures k > 0 ==> c[k - 1].pos <= p
  {
    if m == 0 || c[m - 1].pos <= p then m else SlotBelow(c, p, m - 1)
  }

  /** The slot is the one index with the later nodes behind it and an earlier-or-equal node before it. */
  lemma SlotUnique(c: seq<Node>, p: uint32, k: nat)
    requires k <= |c| && (k > 0 ==> c[k - 1].pos <= p)
    requires forall j :: k <= j < |c| ==> c[j].pos > p
    ensures Slot(c, p) == k
  {
  }

  /** The queued nodes after inserting n. */
  function Insert(c: seq<Node>, n: Node): (r: seq<Node>)
    ensures |r| == |c| + 1
  {
    var k := Slot(c, n.pos);
    c[..k] + ([n] + c[k..])
  }

  /** Inserting loses and duplicates nothing. */
  lemma InsertPermutes(c: seq<Node>, n: Node)
    ensures multiset(Insert(c, n)) == multiset(c) + multiset{n}
  {
    var k := Slot(c, n.pos);
    assert c == c[..k] + c[k..];
    assert multiset([n] + c[k..]) == multiset{n} + multiset(c[k..]);
  }

  /** Inserting into an ordered queue keeps it ordered. */
  lemma InsertKeepsSorted(c: seq<Node>, n: Node)
    requires Sorted(c)
    ensures Sorted(Insert(c, n))
  {
    var r := Insert(c, n);
    forall i, j | 0 <= i < j < |r|
      ensures r[i].pos <= r[j].pos
    {
      InsertPair(c, n, i, j);
    }
  }

  /** One pair of the ordering of Insert(c, n). */
  lemma InsertPair(c: seq<Node>, n: Node, i: nat, j: nat)
    requires Sorted(c) && i < j < |c| + 1
    ensures Insert(c, n)[i].pos <= Insert(c, n)[j].pos
  {
    var k := Slot(c, n.pos);
    InsertAt(c, n, i);
    InsertAt(c, n, j);
    if j == k {
      assert c[i].pos <= c[k - 1].pos;
    }
  }

  /** The i-th node after inserting n: a node before the slot, n itself, or the node it displaced. */
  lemma InsertAt(c: seq<Node>, n: Node, i: nat)
    requires i < |c| + 1
    ensures Insert(c, n)[i] == if i < Slot(c, n.pos) then c[i] else if i == Slot(c, n.pos) then n else c[i - 1]
  {
    SpliceAt(c, n, Slot(c, n.pos), i);
  }

  /** Indexing into c with n spliced in at k. */
  lemma SpliceAt(c: seq<Node>, n: Node, k: nat, i: nat)
    requires k <= |c| && i < |c| + 1
    ensures (c[..k] + ([n] + c[k..]))[i] == if i < k then c[i] else if i == k then n else c[i - 1]
  {
    var tail := [n] + c[k..];
    if i < k {
      assert (c[..k] + tail)[i] == c[..k][i];
    } else {
      assert (c[..k] + tail)[i] == tail[i - k];
      if i > k {
        assert tail[i - k] == c[k..][i - k - 1];
      }
    }
  }

  /**
   * The new node lands exactly behind the nodes that start no later than it:
   * an earlier node of the same frame is handed out before it, a later frame after it.
   */
  lemma {:induction false} InsertAfterTies(c: seq<Node>, n: Node)
    requires Sorted(c)
    ensures forall j :: 0 <= j < |c| ==> (c[j].pos <= n.pos <==> j < Slot(c, n.pos))
  {
    var k := Slot(c, n.pos);
    forall j | 0 <= j < k
      ensures c[j].pos <= n.pos
    {
      assert c[j].pos <= c[k - 1].pos;
    }
  }

  /** The array slot of the i-th node of a ring of size nodes that starts at start. */
  function At(start: nat, size: nat, i: nat): (k: nat)
    requires start < size && i < size
    ensures k < size
  {
    if start + i < size then start + i else start + i - size
  }

  /** Distinct nodes of the ring sit in distinct slots. */
  lemma AtDistinct(start: nat, size: nat, k: nat)
    requires start < size && k < size
    ensures forall j :: 0 <= j < size && j != k ==> At(start, size, j) != At(start, size, k)
  {
  }

  class EventQueue {
    var size: nat
    var start: nat
    var count: nat
    var queue: array<Node>

    /** The ring's shape: `size` nodes, a start inside it and at most `size` events. */
    predicate Ring()
      reads this
    {
      queue.Length == size && 0 < size && start < size && count <= size
    }

    /** The queued nodes, from the next one get returns to the last. */
    function Contents(): (c: seq<Node>)
      requires Ring()
      reads this, queue
      ensures |c| == count
      ensures forall i {:trigger At(start, size, i)} :: 0 <= i < count ==> c[i] == queue[At(start, size, i)]
    {
      seq(count, i requires 0 <= i < count && Ring() reads this, queue => queue[At(start, size, i)])
    }

    predicate Valid()
      reads this, queue
    {
      Ring() && Sorted(Contents())
    }

    /** `new_Event_queue`: an empty queue with room for size events. */
    constructor(size: nat)
      requires size > 0
      ensures Valid() && this.size == size && Contents() == []
      ensures fresh(queue)
    {
      this.size := size;
      start := 0;
      count := 0;
      queue := new Node[size](_ => Node(0, 0));
    }

    /**
     * `Event_queue_ins`: fails exactly when the queue is full; otherwise the
     * node is shifted in behind every queued node that starts no later.
     */
    method Ins(event: EventRef, pos: uint32) returns (ok: bool)
      requires Valid()
      modifies this, queue
      ensures Valid() && size == old(size) && queue == old(queue)
      ensures ok <==> old(count) < size
      ensures ok ==> Contents() == Insert(old(Contents()), Node(pos, event))
      ensures !ok ==> Contents() == old(Contents())
    {
      if count == size {
        return false;
      }
      ghost var c := Contents();
      var k := OpenGap(pos);
      SlotUnique(c, pos, k);
      Place(k, Node(pos, event));
      ghost var r := Insert(c, Node(pos, event));
      forall i | 0 <= i < count
        ensures Contents()[i] == r[i]
      {
        assert Contents()[i] == queue[At(start, size, i)];
        InsertAt(c, Node(pos, event), i);
      }
      assert Contents() == r;
      InsertKeepsSorted(c, Node(pos, event));
      return true;
    }

    /** Writes n into the gap at logical index k and counts it. */
    method Place(k: nat, n: Node)
      requires Ring() && k <= count < size
      modifies this, queue
      ensures Ring() && start == old(start) && size == old(size) && queue == old(queue)
      ensures count == old(count) + 1
      ensures forall j {:trigger At(start, size, j)} :: 0 <= j < count ==>
        queue[At(start, size, j)] == if j == k then n else old(queue[At(start, size, j)])
    {
      AtDistinct(start, size, k);
      queue[At(start, size, k)] := n;
      count := count + 1;
    }

    /**
     * Moves every queued node that starts later than pos one slot towards
     * the end of the ring, and returns the logical index of the opened gap.
     */
    method OpenGap(pos: uint32) returns (k: nat)
      requires Ring() && count < size
      modifies queue
      ensures k <= count && (k > 0 ==> old(Contents())[k - 1].pos <= pos)
      ensures forall j :: k <= j < count ==> old(Contents())[j].pos > pos
      ensures forall j {:trigger At(start, size, j)} :: 0 <= j < k ==> queue[At(start, size, j)] == old(Contents())[j]
      ensures forall j {:trigger At(start, size, j)} :: k < j <= count ==> queue[At(start, size, j)] == old(Contents())[j - 1]
    {
      ghost var c := Contents();
      var a, st, sz := queue, start, size;
      k := count;
      while k > 0 && a[At(st, sz, k - 1)].pos > pos
        invariant k <= |c| && forall j :: k <= j < |c| ==> c[j].pos > pos
        invariant forall j {:trigger At(st, sz, j)} :: 0 <= j <= |c| && j != k ==> a[At(st, sz, j)] == if j < k then c[j] else c[j - 1]
        decreases k
      {
        AtDistinct(st, sz, k);
        a[At(st, sz, k)] := a[At(st, sz, k - 1)];
        k := k - 1;
      }
    }

    /** `Event_queue_get`: removes and returns the first node; nothing changes on an empty queue. */
    method Get() returns (ok: bool, event: EventRef, pos: uint32)
      requires Valid()
      modifies this
      ensures Valid() && size == old(size) && queue == old(queue)
      ensures ok <==> old(count) > 0
      ensures ok ==> Node(pos, event) == old(Contents())[0] && Contents() == old(Contents())[1..]
      ensures !ok ==> Contents() == old(Contents())
    {
      if count == 0 {
        return false, 0, 0;
      }
      ghost var c := Contents();
      var node := queue[start];
      start := if start + 1 == size then 0 else start + 1;
      count := count - 1;
      assert forall i :: 0 <= i < count ==> Contents()[i] == c[i + 1];
      return true, node.event, node.pos;
    }

    /** `Event_queue_peek`: the node at index without removing it; index 0 is the one get returns next. */
    method Peek(index: nat) returns (ok: bool, event: EventRef, pos: uint32)
      requires Valid()
      ensures ok <==> index < |Contents()|
      ensures ok ==> Contents()[index] == Node(pos, event)
    {
      if index >= count {
        return false, 0, 0;
      }
      var node := queue[At(start, size, index)];
      return true, node.event, node.pos;
    }

    /** `Event_queue_clear`: empties the queue and keeps its size. */
    method Clear()
      requires Valid()
      modifies this
      ensures Valid() && size == old(size) && Contents() == []
    {
      start := 0;
      count := 0;
    }

    /** `Event_queue_resize`: a fresh ring of the new size, left empty. */
    method Resize(newSize: nat)
      requires newSize > 0
      modifies this
      ensures Valid() && size == newSize && Contents() == []
      ensures fresh(queue)
    {
      queue := new Node[newSize](_ => Node(0, 0));
      size := newSize;
      start := 0;
      count := 0;
    }
  }

  /**
   * The ordering scenario of the queue's tests: events 1 and 2 at frame 1,
   * then event 3 at frame 0, fill a queue of three; a fourth insert fails,
   * and get returns 3, 1, 2 and then nothing.
   */
  method InsGetOrder() returns (full: bool, first: Node, second: Node, third: Node, more: bool)
    ensures !full
    ensures first == Node(0, 3) && second == Node(1, 1) && third == Node(1, 2)
    ensures !more
  {
    var q := InsThree();
    full := q.Ins(2, 4);
    var ok, e, p;
    ok, e, p := q.Get();
    first := Node(p, e);
    ok, e, p := q.Get();
    second := Node(p, e);
    ok, e, p := q.Get();
    third := Node(p, e);
    more, e, p := q.Get();
  }

  /** The inserts of the ordering scenario: a queue of three, filled. */
  method InsThree() returns (q: EventQueue)
    ensures fresh(q) && fresh(q.queue) && q.Valid()
    ensures q.count == q.size && q.Contents() == [Node(0, 3), Node(1, 1), Node(1, 2)]
  {
    q := new EventQueue(3);
    var ok := q.Ins(1, 1);
    assert q.Contents() == [Node(1, 1)];
    ok := q.Ins(2, 1);
    assert q.Contents() == [Node(1, 1), Node(1, 2)];
    ok := q.Ins(3, 0);
  }

  /** The capacity scenario of the queue's tests: a new queue of size takes exactly size events. */
  method CapacityIsSize(size: nat) returns (accepted: nat, extra: bool)
    requires size > 0
    ensures accepted == size && !extra
  {
    var q := new EventQueue(size);
    accepted := 0;
    while accepted < size
      invariant q.Valid() && q.size == size && q.count == accepted <= size
      invariant fresh(q) && fresh(q.queue)
      decreases size - accepted
    {
      var ok := q.Ins(accepted, 0);
      assert ok;
      accepted := accepted + 1;
    }
    extra := q.Ins(size, 0);
  }
}

=== FILE: gcd.dfy ===
/**
 * Greatest common divisors of natural numbers, defined by subtractive
 * Euclid, with the facts the binary GCD algorithm relies on: scaling,
 * dropping a factor two beside an odd number, and divisibility.
 */
module Divisors {

  function Gcd(a: nat, b: nat): nat
    decreases a + b
  {
    if a == 0 then b
    else if b == 0 then a
    else if a >= b then Gcd(a - b, b)
    else Gcd(a, b - a)
  }

  /** d divides n. */
  predicate Divides(d: nat, n: nat) {
    d > 0 && n % d == 0
  }

  lemma {:induction false} MulAtLeast(d: nat, m: nat)
    requires m >= 1
    ensures d * m >= d
  {
    if m > 1 {
      MulAtLeast(d, m - 1);
      assert d * m == d * (m - 1) + d;
    }
  }

  lemma MulDiv(d: nat, k: int)
    requires d > 0
    ensures (d * k) % d == 0 && (d * k) / d == k
  {
    var q, r := (d * k) / d, (d * k) % d;
    assert d * k == d * q + r && 0 <= r < d;
    assert d * (k - q) == r;
    if k - q > 0 {
      MulAtLeast(d, k - q);
    }
  }

  lemma Distribute(g: int, x: int, y: int)
    ensures g * x + g * y == g * (x + y)
    ensures g * x - g * y == g * (x - y)
  {
  }

  lemma DividesWitness(d: nat, n: nat)
    requires Divides(d, n)
    ensures n == d * (n / d)
  {
  }

  lemma DividesProduct(d: nat, k: nat)
    requires d > 0
    ensures Divides(d, d * k)
  {
    MulDiv(d, k);
  }

  lemma {:induction false} GcdComm(a: nat, b: nat)
    ensures Gcd(a, b) == Gcd(b, a)
    decreases a + b
  {
    if a == 0 || b == 0 {
    } else if a > b {
      GcdComm(a - b, b);
    } else if a < b {
      GcdComm(a, b - a);
    }
  }

  lemma {:induction false} GcdPositive(a: nat, b: nat)
    requires a > 0 || b > 0
    ensures Gcd(a, b) > 0
    decreases a + b
  {
    if a == 0 || b == 0 {
    } else if a >= b {
      GcdPositive(a - b, b);
    } else {
      GcdPositive(a, b - a);
    }
  }

  /** Subtracting the smaller number keeps the gcd. */
  lemma GcdSub(a: nat, b: nat)
    requires 0 < a <= b
    ensures Gcd(a, b) == Gcd(a, b - a)
  {
    if a == b {
      GcdComm(a, 0);
    }
  }

  /** Gcd(c*a, c*b) == c * Gcd(a, b) */
  lemma GcdScale(c: nat, a: nat, b: nat)
    ensures Gcd(c * a, c * b) == c * Gcd(a, b)
  {
    GcdScaled(c, a, b, c * a, c * b);
  }

  lemma {:induction false} GcdScaled(c: nat, a: nat, b: nat, x: nat, y: nat)
    requires x == c * a && y == c * b
    ensures Gcd(x, y) == c * Gcd(a, b)
    decreases a + b
  {
    if c == 0 || a == 0 || b == 0 {
      ScaledBase(c, a, b, x, y);
    } else if a >= b {
      ScaledDiff(c, a, b, x, y);
      GcdScaled(c, a - b, b, x - y, y);
      ScaledStep(c, a, b, x, y, Gcd(a - b, b));
    } else {
      ScaledDiff(c, b, a, y, x);
      GcdScaled(c, a, b - a, x, y - x);
      GcdComm(a, b);
      GcdComm(x, y);
      GcdComm(a, b - a);
      GcdComm(x, y - x);
      ScaledStep(c, b, a, y, x, Gcd(b - a, a));
    }
  }

  lemma ScaledBase(c: nat, a: nat, b: nat, x: nat, y: nat)
    requires x == c * a && y == c * b
    requires c == 0 || a == 0 || b == 0
    ensures Gcd(x, y) == c * Gcd(a, b)
  {
  }

  lemma ScaledDiff(c: nat, a: nat, b: nat, x: nat, y: nat)
    requires x == c * a && y == c * b && c > 0 && a >= b > 0
    ensures x - y == c * (a - b) && x >= y > 0
  {
    Distribute(c, a, b);
    MulAtLeast(c, b);
  }

  lemma ScaledStep(c: nat, a: nat, b: nat, x: nat, y: nat, g: nat)
    requires c > 0 && a >= b > 0 && x >= y > 0
    requires g == Gcd(a - b, b) && Gcd(x - y, y) == c * g
    ensures Gcd(x, y) == c * Gcd(a, b)
  {
  }

  lemma DividesSum(g: nat, x: nat, y: nat)
    requires Divides(g, x) && Divides(g, y)
    ensures Divides(g, x + y)
  {
    DividesWitness(g, x);
    DividesWitness(g, y);
    Distribute(g, x / g, y / g);
    DividesProduct(g, x / g + y / g);
  }

  /** The gcd divides both arguments. */
  lemma {:induction false} GcdDivides(a: nat, b: nat)
    requires a > 0 || b > 0
    ensures Divides(Gcd(a, b), a) && Divides(Gcd(a, b), b)
    decreases a + b
  {
    var g := Gcd(a, b);
    GcdPositive(a, b);
    if a == 0 {
      DividesProduct(b, 0);
      DividesProduct(b, 1);
    } else if b == 0 {
      DividesProduct(a, 0);
      DividesProduct(a, 1);
    } else if a >= b {
      GcdDivides(a - b, b);
      DividesSum(g, a - b, b);
    } else {
      GcdDivides(a, b - a);
      DividesSum(g, b - a, a);
    }
  }

  /** Every common divisor divides the gcd. */
  lemma {:induction false} GcdGreatest(a: nat, b: nat, d: nat)
    requires Divides(d, a) && Divides(d, b)
    ensures Divides(d, Gcd(a, b))
    decreases a + b
  {
    if a == 0 || b == 0 {
    } else if a >= b {
      DividesDifference(d, a, b);
      GcdGreatest(a - b, b, d);
    } else {
      DividesDifference(d, b, a);
      GcdGreatest(a, b - a, d);
    }
  }

  /** A common divisor of x and y divides their difference. */
  lemma DividesDifference(d: nat, x: nat, y: nat)
    requires Divides(d, x) && Divides(d, y) && x >= y
    ensures Divides(d, x - y)
  {
    DividesWitness(d, x);
    DividesWitness(d, y);
    assert x - y == d * (x / d - y / d);
    assert x / d - y / d >= 0;
    DividesProduct(d, x / d - y / d);
  }

  lemma DividesAntisymmetric(x: nat, y: nat)
    requires Divides(x, y) && Divides(y, x)
    ensures x == y
  {
    DividesWitness(x, y);
    DividesWitness(y, x);
    var k, m := y / x, x / y;
    assert y == x * k && x == y * m;
    assert k >= 1 && m >= 1;
  }

  lemma DividesOdd(d: nat, n: nat)
    requires Divides(d, n) && n % 2 == 1
    ensures d % 2 == 1
  {
    DividesWitness(d, n);
    var h, k := d / 2, n / d;
    assert d == 2 * h + d % 2;
    assert n == 2 * (h * k) + (d % 2) * k;
  }

  /** An odd divisor of 2b divides b. */
  lemma OddDividesHalf(d: nat, b: nat)
    requires Divides(d, 2 * b) && d % 2 == 1
    ensures Divides(d, b)
  {
    DividesWitness(d, 2 * b);
    var k := (2 * b) / d;
    var p, q := d / 2, k / 2;
    assert d == 2 * p + 1 && k == 2 * q + k % 2;
    assert d * k == 2 * (2 * p * q + p * (k % 2) + q) + k % 2;
    assert k % 2 == 0;
    assert b == d * q;
    DividesProduct(d, q);
  }

  lemma DividesDouble(d: nat, b: nat)
    requires Divides(d, b)
    ensures Divides(d, 2 * b)
  {
    DividesWitness(d, b);
    assert 2 * b == d * (2 * (b / d));
    DividesProduct(d, 2 * (b / d));
  }

  /** Beside an odd number, a factor two does not change the gcd. */
  lemma GcdOddHalf(a: nat, b: nat)
    requires a % 2 == 1
    ensures Gcd(a, 2 * b) == Gcd(a, b)
  {
    var g1, g2 := Gcd(a, 2 * b), Gcd(a, b);
    GcdDivides(a, 2 * b);
    GcdDivides(a, b);
    DividesDouble(g2, b);
    GcdGreatest(a, 2 * b, g2);
    DividesOdd(g1, a);
    OddDividesHalf(g1, b);
    GcdGreatest(a, b, g1);
    DividesAntisymmetric(g1, g2);
  }

  function Pow2(k: nat): (p: nat)
    ensures p > 0
  {
    if k == 0 then 1 else 2 * Pow2(k - 1)
  }

  /** An odd number and a power of two are coprime. */
  lemma {:induction false} GcdOddPow2(a: nat, k: nat)
    requires a % 2 == 1
    ensures Gcd(a, Pow2(k)) == 1
  {
    if k == 0 {
      if a > 1 {
        GcdSub(1, a);
        GcdCoprimeOne(a);
      }
      GcdComm(a, 1);
    } else {
      GcdOddHalf(a, Pow2(k - 1));
      GcdOddPow2(a, k - 1);
    }
  }

  lemma GcdCoprimeOne(a: nat)
    ensures Gcd(1, a) == 1
  {
    GcdDivides(1, a);
    GcdPositive(1, a);
    var g := Gcd(1, a);
    DividesWitness(g, 1);
  }

  /** Dividing both numbers by their gcd leaves coprime numbers. */
  lemma GcdQuotients(a: nat, b: nat)
    requires a > 0 || b > 0
    ensures var g := Gcd(a, b);
      g > 0 && a == g * (a / g) && b == g * (b / g) && Gcd(a / g, b / g) == 1
  {
    var g := Gcd(a, b);
    GcdPositive(a, b);
    GcdDivides(a, b);
    DividesWitness(g, a);
    DividesWitness(g, b);
    GcdScale(g, a / g, b / g);
    assert g * Gcd(a / g, b / g) == g * 1;
  }
}

=== FILE: general_state.dfy ===
/**
 * The general play state shared by the global and channel states: a pause
 * flag and the conditional-execution flags that decide whether events
 * fire. Events fire unless conditional execution is on and the condition
 * evaluated to something other than the one asked for.
 */
module GeneralState {
  class GeneralState {
    var global: bool
    var pause: bool
    var condExecEnabled: bool
    var condForExec: bool
    var evaluatedCond: bool

    /** `General_state_init`: keeps whether the state is global and clears every flag. */
    method Init(isGlobal: bool)
      modifies this
      ensures global == isGlobal
      ensures !pause && !condExecEnabled && !condForExec && !evaluatedCond
    {
      global := isGlobal;
      pause := false;
      condExecEnabled := false;
      condForExec := false;
      evaluatedCond := false;
    }

    /**
     * `General_state_events_enabled`: events are suppressed exactly when
     * conditional execution is on and the evaluated condition differs
     * from the one execution waits for; pause plays no part.
     */
    function EventsEnabled(): (enabled: bool)
      reads this
      ensures !enabled <==> condExecEnabled && condForExec != evaluatedCond
      ensures !condExecEnabled ==> enabled
    {
      !condExecEnabled || condForExec == evaluatedCond
    }
  }

  /** A freshly initialised state, global or not, lets events through. */
  method InitEnables(s: GeneralState, isGlobal: bool) returns (enabled: bool)
    modifies s
    ensures enabled && s.global == isGlobal
  {
    s.Init(isGlobal);
    enabled := s.EventsEnabled();
  }
}

=== FILE: generatorparams.dfy ===
/**
 * Layered generator parameters: every parameter lives under
 * `<ins_id>/<gen_id>/` with an implementation layer `i/` and a
 * configuration layer `c/` that overrides it.
 */
module GeneratorParams {
  import opened Wrappers
  import opened Store

  /** `_get_key`: prefix, layer and subkey, concatenated. */
  function ParamKey(prefix: string, layer: string, subkey: string): (k: string)
    requires layer == "i/" || layer == "c/"
    ensures |k| == |prefix| + 2 + |subkey|
    ensures k[..|prefix|] == prefix && k[|prefix|..|prefix| + 2] == layer && k[|prefix| + 2..] == subkey
  {
    prefix + layer + subkey
  }

  /** Distinct layers or subkeys never share a key, so the layers cannot alias. */
  lemma ParamKeyInjective(prefix: string, l1: string, s1: string, l2: string, s2: string)
    requires l1 == "i/" || l1 == "c/"
    requires l2 == "i/" || l2 == "c/"
    ensures ParamKey(prefix, l1, s1) == ParamKey(prefix, l2, s2) <==> l1 == l2 && s1 == s2
  {
    var k1, k2 := ParamKey(prefix, l1, s1), ParamKey(prefix, l2, s2);
    if k1 == k2 {
      assert k1[|prefix|..|prefix| + 2] == k2[|prefix|..|prefix| + 2];
      assert k1[|prefix| + 2..] == k2[|prefix| + 2..];
    }
  }

  /**
   * `_get_value` over a store state: the `c/` value when it can be read,
   * else the `i/` value when it can be read, else the default.
   */
  function LayeredValue(pending: seq<Pending>, content: map<string, Value>,
                        confKey: string, implKey: string, default: Option<Value>): (r: Option<Value>)
    ensures Lookup(pending, content, confKey).Found? ==> r == Some(Lookup(pending, content, confKey).value)
    ensures Lookup(pending, content, confKey).KeyError? && Lookup(pending, content, implKey).Found? ==>
      r == Some(Lookup(pending, content, implKey).value)
    ensures Lookup(pending, content, confKey).KeyError? && Lookup(pending, content, implKey).KeyError? ==>
      r == default
  {
    if Lookup(pending, content, confKey).Found? then Some(Lookup(pending, content, confKey).value)
    else
      var v := GetOr(pending, content, implKey, default);
      if v.Some? then v else default
  }

  /** A configuration value written last wins over everything underneath. */
  lemma ConfOverrides(pending: seq<Pending>, content: map<string, Value>, id: nat,
                      confKey: string, implKey: string, x: Value, default: Option<Value>)
    ensures LayeredValue(pending + [Pending(id, map[confKey := Some(x)])], content, confKey, implKey, default) == Some(x)
  {
    ReadYourWrites(pending, content, Pending(id, map[confKey := Some(x)]), confKey);
  }

  /** Writing None to the configuration key falls back to the implementation layer. */
  lemma ClearedConfFallsBack(pending: seq<Pending>, content: map<string, Value>, id: nat,
                             confKey: string, implKey: string, default: Option<Value>)
    requires confKey != implKey
    ensures LayeredValue(pending + [Pending(id, map[confKey := None])], content, confKey, implKey, default) ==
      GetOr(pending, content, implKey, default)
  {
    var p := Pending(id, map[confKey := None]);
    ReadYourWrites(pending, content, p, confKey);
    ReadYourWrites(pending, content, p, implKey);
  }

  class GeneratorParams {
    const keyPrefix: string
    const store: Store

    /** The key prefix is `<ins_id>/<gen_id>/`. */
    constructor (insId: string, genId: string, store: Store)
      ensures keyPrefix == insId + "/" + genId + "/" && this.store == store
    {
      keyPrefix := insId + "/" + genId + "/";
      this.store := store;
    }

    /** `_get_value` on the current store state: the `c/` value, else the `i/` value, else the default. */
    function GetValue(subkey: string, default: Option<Value>): (r: Option<Value>)
      reads store
      ensures var c := Lookup(store.pending, store.content, ParamKey(keyPrefix, "c/", subkey));
        var i := Lookup(store.pending, store.content, ParamKey(keyPrefix, "i/", subkey));
        (c.Found? ==> r == Some(c.value)) &&
        (c.KeyError? && i.Found? ==> r == Some(i.value)) &&
        (c.KeyError? && i.KeyError? ==> r == default)
    {
      LayeredValue(store.pending, store.content,
                   ParamKey(keyPrefix, "c/", subkey), ParamKey(keyPrefix, "i/", subkey), default)
    }

    /** `_set_value`: one store assignment to the `c/` key (None deletes it). */
    method SetValue(subkey: string, value: Option<Value>)
      requires store.Valid() && !store.saving
      modifies store
      ensures store.Valid()
      ensures store.pending == old(store.pending) +
        [Pending(old(store.nextId), map[ParamKey(keyPrefix, "c/", subkey) := value])]
      ensures store.nextId == old(store.nextId) + 1 && store.modified
      ensures store.content == old(store.content) && store.flushCallbacks == old(store.flushCallbacks)
      ensures store.engineLog == old(store.engineLog) +
        [(old(store.nextId), Some(map[ParamKey(keyPrefix, "c/", subkey) := value]))]
      ensures store.saving == old(store.saving) && store.fired == old(store.fired)
    {
      store.Put(map[ParamKey(keyPrefix, "c/", subkey) := value], true);
    }
  }
}

=== FILE: handle.dfy ===
/**
 * The engine's handle layer: the key grammar, the fixed table of live
 * handles, the mode checks on data access, and the JSON escaping of
 * error messages (section 7 of RFC 8259).
 *
 * `kunquat/limits.h` is not part of this model: KQT_KEY_LENGTH_MAX,
 * KQT_HANDLES_MAX and KQT_HANDLE_ERROR_LENGTH are placeholders. A C `char`
 * is taken to be signed, as on x86 and x86-64 (it is unsigned on ARM), so message bytes are
 * values in [-128, 127].
 */
module Handle {
  import opened Wrappers
  import opened Strings

  const KQT_KEY_LENGTH_MAX: nat := 72
  const KQT_HANDLES_MAX: nat := 256
  const KQT_HANDLE_ERROR_LENGTH: nat := 256

  // ---------------------------------------------------------------------
  // key_is_valid

  predicate AllowedKeyChar(c: char) {
    '0' <= c <= '9' || 'a' <= c <= 'z' || c == '_' || c == '.' || c == '/' || c == 'X'
  }

  predicate AllPeriods(s: string) {
    forall j :: 0 <= j < |s| ==> s[j] == '.'
  }

  /**
   * The key grammar: allowed characters only; every component before a
   * '/' is non-empty and has no '.'; the final component has a '.'.
   */
  predicate ValidKey(key: string) {
    (forall i :: 0 <= i < |key| ==> AllowedKeyChar(key[i])) &&
    var comps := Split(key, '/');
    (forall j :: 0 <= j < |comps| - 1 ==> comps[j] != [] && '.' !in comps[j]) &&
    '.' in comps[|comps| - 1]
  }

  datatype KeyCheck =
    | KeyOk
    | NoKey
    | KeyTooLong
    | IllegalChar(c: char)
    | InvalidComponent
    | PeriodInComponent
    | NoFinalPeriod

  /** What the scan over `key[..i]` knows, with its two flags. */
  ghost predicate ScanState(key: string, i: nat, validElement: bool, hasPeriod: bool)
    requires i <= |key|
  {
    var comps := Split(key[..i], '/');
    var last := comps[|comps| - 1];
    (forall j :: 0 <= j < i ==> AllowedKeyChar(key[j])) &&
    (forall j :: 0 <= j < |comps| - 1 ==> comps[j] != [] && '.' !in comps[j]) &&
    (validElement <==> !AllPeriods(last)) &&
    (hasPeriod <==> '.' in last)
  }

  /** A character other than '/' extends the last component. */
  lemma ScanInside(key: string, i: nat, validElement: bool, hasPeriod: bool)
    requires i < |key| && ScanState(key, i, validElement, hasPeriod) && AllowedKeyChar(key[i])
    requires key[i] != '/'
    ensures key[i] != '.' ==> ScanState(key, i + 1, true, hasPeriod)
    ensures key[i] == '.' ==> ScanState(key, i + 1, validElement, true)
  {
    var c := key[i];
    assert key[..i + 1] == key[..i] + [c];
    ExtendLast(key[..i], c);
    var last := Split(key[..i], '/')[|Split(key[..i], '/')| - 1];
    assert (last + [c])[|last|] == c;
    assert '.' in last + [c] <==> '.' in last || c == '.';
    if c == '.' {
      AllPeriodsSnoc(last);
    }
  }

  /** A character other than '/' goes to the end of the last component. */
  lemma ExtendLast(p: string, c: char)
    requires c != '/'
    ensures var comps := Split(p, '/'); var comps' := Split(p + [c], '/');
      |comps'| == |comps| && comps'[|comps| - 1] == comps[|comps| - 1] + [c] &&
      forall j :: 0 <= j < |comps| - 1 ==> comps'[j] == comps[j]
  {
    SplitSnoc(p, c, '/');
  }

  /** A '/' closes the last component and opens an empty one. */
  lemma ScanSlash(key: string, i: nat)
    requires i < |key| && ScanState(key, i, true, false) && key[i] == '/'
    ensures ScanState(key, i + 1, false, false)
  {
    assert key[..i + 1] == key[..i] + ['/'];
    SplitSnoc(key[..i], '/', '/');
    var comps := Split(key[..i], '/');
    var last := comps[|comps| - 1];
    var comps' := Split(key[..i + 1], '/');
    assert comps' == comps + [[]];
    assert forall j :: 0 <= j < |comps| ==> comps'[j] == comps[j];
    assert last != [] by {
      assert !AllPeriods(last);
    }
  }

  /** One more period keeps a component all periods exactly when it was. */
  lemma AllPeriodsSnoc(s: string)
    ensures AllPeriods(s + ['.']) <==> AllPeriods(s)
  {
    var s' := s + ['.'];
    if AllPeriods(s) {
      forall j | 0 <= j < |s'| ensures s'[j] == '.' {
        if j < |s| { assert s'[j] == s[j]; }
      }
    }
    if AllPeriods(s') {
      forall j | 0 <= j < |s| ensures s[j] == '.' {
        assert s'[j] == s[j];
      }
    }
  }

  /** A component closed by the '/' at `i` is a non-final component of the whole key. */
  lemma ClosedComponent(key: string, i: nat)
    requires i < |key| && key[i] == '/'
    ensures var comps := Split(key[..i], '/');
      var all := Split(key, '/');
      |comps| < |all| && all[|comps| - 1] == comps[|comps| - 1]
  {
    assert key == key[..i] + ['/'] + key[i + 1..];
    SplitAround(key[..i], '/', key[i + 1..]);
  }

  /** A '/' that closes an empty, all-period or period-holding component makes the key invalid. */
  lemma ClosedInvalid(key: string, i: nat, validElement: bool, hasPeriod: bool)
    requires i < |key| && key[i] == '/' && ScanState(key, i, validElement, hasPeriod)
    requires !validElement || hasPeriod
    ensures !ValidKey(key)
  {
    ClosedComponent(key, i);
    var comps := Split(key[..i], '/');
    if !validElement && comps[|comps| - 1] != [] {
      assert comps[|comps| - 1][0] == '.';
    }
  }

  /** At the end of the scan the key is valid exactly when its last component has a period. */
  lemma ScanComplete(key: string, validElement: bool, hasPeriod: bool)
    requires ScanState(key, |key|, validElement, hasPeriod)
    ensures ValidKey(key) <==> hasPeriod
  {
    assert key[..|key|] == key;
  }

  /** `key_is_valid`: one left-to-right scan with two flags; the first problem found is reported. */
  method KeyIsValid(key: Option<string>) returns (r: KeyCheck)
    ensures r == NoKey <==> key.None?
    ensures r == KeyTooLong <==> key.Some? && |key.value| > KQT_KEY_LENGTH_MAX
    ensures r == KeyOk <==> key.Some? && |key.value| <= KQT_KEY_LENGTH_MAX && ValidKey(key.value)
    ensures r.IllegalChar? ==> key.Some? && r.c in key.value && !AllowedKeyChar(r.c)
  {
    if key.None? {
      return NoKey;
    }
    var k := key.value;
    if |k| > KQT_KEY_LENGTH_MAX {
      return KeyTooLong;
    }
    var validElement := false;
    var hasPeriod := false;
    var i := 0;
    assert k[..0] == [];
    while i < |k|
      invariant 0 <= i <= |k|
      invariant ScanState(k, i, validElement, hasPeriod)
    {
      var c := k[i];
      if !('0' <= c <= '9') && !(('a' <= c <= 'z') || c == '_' || c == '.' || c == '/' || c == 'X') {
        return IllegalChar(c);
      }
      if c != '.' && c != '/' {
        ScanInside(k, i, validElement, hasPeriod);
        validElement := true;
      } else if c == '.' {
        ScanInside(k, i, validElement, hasPeriod);
        hasPeriod := true;
      } else {
        if !validElement {
          ClosedInvalid(k, i, validElement, hasPeriod);
          return InvalidComponent;
        } else if hasPeriod {
          ClosedInvalid(k, i, validElement, hasPeriod);
          return PeriodInComponent;
        }
        ScanSlash(k, i);
        validElement := false;
        hasPeriod := false;
      }
      i := i + 1;
    }
    ScanComplete(k, validElement, hasPeriod);
    if !hasPeriod {
      return NoFinalPeriod;
    }
    return KeyOk;
  }

  // ---------------------------------------------------------------------
  // add_handle / remove_handle / handle_is_valid

  /** No handle occupies two slots. */
  predicate Unique(s: seq<Option<nat>>) {
    forall i, j :: 0 <= i < j < |s| && s[i].Some? ==> s[i] != s[j]
  }

  /** The static `handles[]` table; `None` is a NULL slot. */
  class HandleTable {
    const slots: array<Option<nat>>

    ghost predicate Valid()
      reads this, slots
    {
      slots.Length == KQT_HANDLES_MAX && Unique(slots[..])
    }

    constructor ()
      ensures Valid() && fresh(slots) && forall i :: 0 <= i < slots.Length ==> slots[i].None?
    {
      slots := new Option<nat>[KQT_HANDLES_MAX](_ => None);
    }

    /** `add_handle`: the first empty slot takes the handle; a full table is a MemoryError (false). */
    method AddHandle(h: nat) returns (ok: bool)
      requires Valid() && forall i :: 0 <= i < slots.Length ==> slots[i] != Some(h)
      modifies slots
      ensures Valid()
      ensures ok <==> exists i :: 0 <= i < slots.Length && old(slots[i]).None?
      ensures ok ==>
        exists i :: (0 <= i < slots.Length && old(slots[i]).None? &&
          (forall j :: 0 <= j < i ==> old(slots[j]).Some?) && slots[..] == old(slots[..])[i := Some(h)])
      ensures !ok ==> slots[..] == old(slots[..])
    {
      var i := 0;
      while i < slots.Length
        invariant 0 <= i <= slots.Length
        invariant forall j :: 0 <= j < i ==> slots[j].Some?
        invariant slots[..] == old(slots[..])
      {
        if slots[i].None? {
          slots[i] := Some(h);
          assert slots[..] == old(slots[..])[i := Some(h)];
          return true;
        }
        i := i + 1;
      }
      return false;
    }

    /** `remove_handle`: clears the handle's slot, or returns false when it is not in the table. */
    method RemoveHandle(h: nat) returns (ok: bool)
      requires Valid()
      modifies slots
      ensures Valid()
      ensures ok <==> Some(h) in old(slots[..])
      ensures ok ==> exists i :: 0 <= i < slots.Length && old(slots[i]) == Some(h) && slots[..] == old(slots[..])[i := None]
      ensures !ok ==> slots[..] == old(slots[..])
      ensures Some(h) !in slots[..]
    {
      var i := 0;
      while i < slots.Length
        invariant 0 <= i <= slots.Length
        invariant forall j :: 0 <= j < i ==> slots[j] != Some(h)
        invariant slots[..] == old(slots[..])
      {
        if slots[i] == Some(h) {
          slots[i] := None;
          assert slots[..] == old(slots[..])[i := None];
          forall j | 0 <= j < slots.Length ensures slots[j] != Some(h) {
            if j > i {
              assert old(slots[..])[i] == Some(h);
            }
          }
          return true;
        }
        i := i + 1;
      }
      return false;
    }

    /** `handle_is_valid`: a non-NULL handle that occupies a slot. */
    method HandleIsValid(h: Option<nat>) returns (ok: bool)
      requires Valid()
      ensures ok <==> h.Some? && h in slots[..]
    {
      if h.None? {
        return false;
      }
      var i := 0;
      while i < slots.Length
        invariant 0 <= i <= slots.Length
        invariant forall j :: 0 <= j < i ==> slots[j] != h
      {
        if slots[i] == h {
          return true;
        }
        i := i + 1;
      }
      return false;
    }
  }

  // ---------------------------------------------------------------------
  // kqt_Handle_get_data / set_data / free_data

  datatype ErrorType = ArgumentError | FormatError | MemoryError | ResourceError

  /**
   * Handle access modes: only KQT_READ and KQT_MEM are named by the
   * access checks; every other mode of the engine's header is `OtherMode`.
   */
  datatype Mode = ReadMode | MemMode | OtherMode

  /**
   * A handle's access state. `check_handle` and `check_key` are macros
   * whose definitions are not part of this model; they are taken to
   * return the failure value when the handle is not in the table or
   * `key_is_valid` fails.
   */
  class Handle {
    const id: nat
    var mode: Mode
    /** the `returned_values` tree: pointers handed out by get_data and not yet freed */
    var returned: set<nat>
    /** the error type of the last error set on this handle */
    var lastError: Option<ErrorType>

    constructor (id: nat, mode: Mode)
      ensures this.id == id && this.mode == mode && returned == {} && lastError == None
    {
      this.id := id;
      this.mode := mode;
      returned := {};
      lastError := None;
    }

    /**
     * `kqt_Handle_get_data`: refused in KQT_MEM mode; a pointer produced
     * by the handle's reader (`fetched`) is remembered so that it can be
     * freed later; failing to remember it (`insertFails`) frees it.
     */
    method GetData(table: HandleTable, key: Option<string>, fetched: Option<nat>, insertFails: bool)
      returns (data: Option<nat>)
      requires table.Valid()
      requires fetched.Some? ==> fetched.value !in returned
      modifies this
      ensures mode == old(mode)
      ensures Some(id) !in table.slots[..] ==> data.None? && returned == old(returned) && lastError == old(lastError)
      ensures data.Some? <==>
        Some(id) in table.slots[..] && key.Some? && |key.value| <= KQT_KEY_LENGTH_MAX && ValidKey(key.value) &&
        mode != MemMode && fetched.Some? && !insertFails
      ensures data.Some? ==> data == fetched && returned == old(returned) + {fetched.value}
      ensures data.None? ==> returned == old(returned)
      ensures (Some(id) in table.slots[..] && key.Some? && |key.value| <= KQT_KEY_LENGTH_MAX && ValidKey(key.value) &&
               mode == MemMode) ==> lastError == Some(ArgumentError)
    {
      var valid := table.HandleIsValid(Some(id));
      if !valid {
        return None;
      }
      var check := KeyIsValid(key);
      if check != KeyOk {
        lastError := Some(ArgumentError);
        return None;
      }
      if mode == MemMode {
        lastError := Some(ArgumentError);
        return None;
      }
      data := fetched;
      if data.Some? {
        if insertFails {
          lastError := Some(MemoryError);
          return None;
        }
        returned := returned + {data.value};
      }
    }

    /** `kqt_Handle_set_data`: refused in KQT_READ mode; otherwise the writer's result `written` is returned. */
    method SetData(table: HandleTable, key: Option<string>, written: int) returns (r: int)
      requires table.Valid()
      modifies this
      ensures mode == old(mode) && returned == old(returned)
      ensures r == (if Some(id) in table.slots[..] && key.Some? && |key.value| <= KQT_KEY_LENGTH_MAX &&
                       ValidKey(key.value) && mode != ReadMode then written else 0)
    {
      var valid := table.HandleIsValid(Some(id));
      if !valid {
        return 0;
      }
      var check := KeyIsValid(key);
      if check != KeyOk {
        lastError := Some(ArgumentError);
        return 0;
      }
      if mode == ReadMode {
        lastError := Some(ArgumentError);
        return 0;
      }
      r := written;
    }

    /** `kqt_Handle_free_data`: NULL is fine; only pointers returned by get_data can be freed, once. */
    method FreeData(table: HandleTable, data: Option<nat>) returns (r: int)
      requires table.Valid()
      modifies this
      ensures mode == old(mode)
      ensures Some(id) !in table.slots[..] ==> r == 0 && returned == old(returned)
      ensures Some(id) in table.slots[..] && data.None? ==> r == 1 && returned == old(returned)
      ensures Some(id) in table.slots[..] && data.Some? ==>
        (r == 1 <==> data.value in old(returned)) && returned == old(returned) - {data.value}
      ensures r == 0 && Some(id) in table.slots[..] ==> lastError == Some(ArgumentError)
      ensures r == 0 || r == 1
    {
      var valid := table.HandleIsValid(Some(id));
      if !valid {
        return 0;
      }
      if data.None? {
        return 1;
      }
      if data.value !in returned {
        lastError := Some(ArgumentError);
        return 0;
      }
      returned := returned - {data.value};
      r := 1;
    }
  }

  // ---------------------------------------------------------------------
  // The message escaping loop of kqt_Handle_set_error_

  /** A C `char` value that can appear inside a C string. */
  predicate MessageByte(c: int) {
    -128 <= c <= 127 && c != 0
  }

  function HexChar(d: nat): char
    requires d < 16
  {
    if d < 10 then ('0' as int + d) as char else ('a' as int + d - 10) as char
  }

  /** `"\\u%04x"` of a value below 0x80. */
  function UnicodeEscape(v: nat): (r: string)
    requires v < 0x80
    ensures |r| == 6
  {
    ['\\', 'u', '0', '0', HexChar(v / 16), HexChar(v % 16)]
  }

  /**
   * The text written for one message byte. `asWritten` selects the loop
   * as it stands, where a negative `char` (a byte of 0x80 or more) passes
   * the `ch < 0x20` test and `snprintf("\\u%04x")` of the sign-extended
   * value is cut to the six characters backslash, u, f, f, f, f; otherwise such a byte is copied as it is.
   */
  function EscapeByte(ch: int, asWritten: bool): (r: string)
    requires MessageByte(ch)
    ensures 1 <= |r| <= 6
    ensures IsNamed(ch) ==> |r| == 2
    ensures !IsNamed(ch) && 0 <= ch && (ch < 0x20 || ch == 0x7f) ==> |r| == 6
  {
    if IsNamed(ch) then NamedEscape(ch)
    else if ch < 0 then (if asWritten then ['\\', 'u', 'f', 'f', 'f', 'f'] else [(ch + 256) as char])
    else if ch < 0x20 || ch == 0x7f then UnicodeEscape(ch)
    else [ch as char]
  }

  /** The characters with a two-character escape: `" \ \b \f \n \r \t`. */
  predicate IsNamed(ch: int) {
    ch == 34 || ch == 92 || ch == 8 || ch == 12 || ch == 10 || ch == 13 || ch == 9
  }

  function NamedEscape(ch: int): (r: string)
    requires IsNamed(ch)
    ensures |r| == 2 && r[0] == '\\'
  {
    if ch == 34 then ['\\', '"']
    else if ch == 92 then ['\\', '\\']
    else if ch == 8 then ['\\', 'b']
    else if ch == 12 then ['\\', 'f']
    else if ch == 10 then ['\\', 'n']
    else if ch == 13 then ['\\', 'r']
    else ['\\', 't']
  }

  /**
   * The escaped text of `msg` when `room` characters are left before the
   * closing `" }`: each byte is written whole if it fits, and the loop
   * stops at the first one that does not.
   */
  function Escaped(msg: seq<int>, room: int, asWritten: bool): (r: string)
    requires forall i :: 0 <= i < |msg| ==> MessageByte(msg[i])
    ensures |r| <= room || r == []
    ensures |r| <= 6 * |msg|
  {
    if msg == [] then []
    else
      var e := EscapeByte(msg[0], asWritten);
      if |e| > room then [] else e + Escaped(msg[1..], room - |e|, asWritten)
  }

  /** How many bytes of `msg` the loop consumes. */
  function Consumed(msg: seq<int>, room: int, asWritten: bool): (n: nat)
    requires forall i :: 0 <= i < |msg| ==> MessageByte(msg[i])
    ensures n <= |msg|
  {
    if msg == [] then 0
    else
      var e := EscapeByte(msg[0], asWritten);
      if |e| > room then 0 else 1 + Consumed(msg[1..], room - |e|, asWritten)
  }

  /** Room for six characters per byte lets the whole message through. */
  lemma {:induction false} EnoughRoomConsumesAll(msg: seq<int>, room: int, asWritten: bool)
    requires forall i :: 0 <= i < |msg| ==> MessageByte(msg[i])
    requires room >= 6 * |msg|
    ensures Consumed(msg, room, asWritten) == |msg|
  {
    if msg != [] {
      EnoughRoomConsumesAll(msg[1..], room - |EscapeByte(msg[0], asWritten)|, asWritten);
    }
  }

  /**
   * The escaping loop, with its three guards: the loop runs while
   * json_pos < L-4, a two-character escape needs json_pos < L-5 and a
   * `\u00XX` escape needs json_pos < L-9. It writes the corrected
   * escapes; `start` is the length of the text before the message.
   */
  method EscapeMessage(msg: seq<int>, start: nat) returns (out: string)
    requires forall i :: 0 <= i < |msg| ==> MessageByte(msg[i])
    requires start <= KQT_HANDLE_ERROR_LENGTH - 4
    ensures out == Escaped(msg, KQT_HANDLE_ERROR_LENGTH - 4 - start, false)
    ensures start + |out| <= KQT_HANDLE_ERROR_LENGTH - 4
  {
    var L := KQT_HANDLE_ERROR_LENGTH;
    out := [];
    var i := 0;
    var jsonPos := start;
    ghost var total := Escaped(msg, L - 4 - start, false);
    while jsonPos < L - 4 && i < |msg|
      invariant 0 <= i <= |msg|
      invariant jsonPos == start + |out| <= L - 4
      invariant out + Escaped(msg[i..], L - 4 - jsonPos, false) == total
      decreases |msg| - i
    {
      var stop;
      stop, out, jsonPos := EscapeOne(msg, i, jsonPos, out, total);
      if stop {
        break;
      }
      i := i + 1;
    }
    EscapeDone(msg, i, jsonPos, out, total);
  }

  /**
   * One turn of the escaping loop at byte i: the escape is written when
   * its branch's guard lets it through, and otherwise the loop stops.
   */
  method EscapeOne(msg: seq<int>, i: nat, jsonPos: int, out: string, ghost total: string)
      returns (stop: bool, out': string, jsonPos': int)
    requires forall j :: 0 <= j < |msg| ==> MessageByte(msg[j])
    requires i < |msg| && jsonPos < KQT_HANDLE_ERROR_LENGTH - 4
    requires out + Escaped(msg[i..], KQT_HANDLE_ERROR_LENGTH - 4 - jsonPos, false) == total
    ensures stop ==> out' == out == total && jsonPos' == jsonPos
    ensures !stop ==> (jsonPos' == jsonPos + |out'| - |out| <= KQT_HANDLE_ERROR_LENGTH - 4 &&
      out' + Escaped(msg[i + 1..], KQT_HANDLE_ERROR_LENGTH - 4 - jsonPos', false) == total)
  {
    var L := KQT_HANDLE_ERROR_LENGTH;
    var ch := msg[i];
    stop, out', jsonPos' := false, out, jsonPos;
    if IsNamed(ch) {
      if jsonPos >= L - 5 {
        EscapeStops(msg, i, jsonPos, out, total);
        return true, out, jsonPos;
      }
      EscapeFits(msg, i, jsonPos, out, total);
      out' := out + NamedEscape(ch);
      jsonPos' := jsonPos + 2;
    } else if 0 <= ch < 0x20 || ch == 0x7f {
      if jsonPos >= L - 4 - 5 {
        EscapeStops(msg, i, jsonPos, out, total);
        return true, out, jsonPos;
      }
      EscapeFits(msg, i, jsonPos, out, total);
      out' := out + UnicodeEscape(ch);
      jsonPos' := jsonPos + 6;
    } else {
      EscapeFits(msg, i, jsonPos, out, total);
      out' := out + EscapeByte(ch, false);
      jsonPos' := jsonPos + 1;
    }
  }

  /** One turn of the escaping loop whose escape fits in the room left: it is written whole. */
  lemma EscapeFits(msg: seq<int>, i: nat, jsonPos: int, out: string, total: string)
    requires forall j :: 0 <= j < |msg| ==> MessageByte(msg[j])
    requires i < |msg| && jsonPos + |EscapeByte(msg[i], false)| <= KQT_HANDLE_ERROR_LENGTH - 4
    requires out + Escaped(msg[i..], KQT_HANDLE_ERROR_LENGTH - 4 - jsonPos, false) == total
    ensures var e := EscapeByte(msg[i], false);
      (out + e) + Escaped(msg[i + 1..], KQT_HANDLE_ERROR_LENGTH - 4 - (jsonPos + |e|), false) == total
  {
    assert msg[i..][1..] == msg[i + 1..];
    var e := EscapeByte(msg[i], false);
    var rest := Escaped(msg[i + 1..], KQT_HANDLE_ERROR_LENGTH - 4 - (jsonPos + |e|), false);
    assert Escaped(msg[i..], KQT_HANDLE_ERROR_LENGTH - 4 - jsonPos, false) == e + rest;
    assert (out + e) + rest == out + (e + rest);
  }

  /** One turn of the escaping loop whose escape does not fit: nothing more is written. */
  lemma EscapeStops(msg: seq<int>, i: nat, jsonPos: int, out: string, total: string)
    requires forall j :: 0 <= j < |msg| ==> MessageByte(msg[j])
    requires i < |msg| && jsonPos + |EscapeByte(msg[i], false)| > KQT_HANDLE_ERROR_LENGTH - 4
    requires out + Escaped(msg[i..], KQT_HANDLE_ERROR_LENGTH - 4 - jsonPos, false) == total
    ensures out == total
  {
    assert Escaped(msg[i..], KQT_HANDLE_ERROR_LENGTH - 4 - jsonPos, false) == [];
    assert out + [] == out;
  }

  lemma EscapeDone(msg: seq<int>, i: nat, jsonPos: int, out: string, total: string)
    requires forall j :: 0 <= j < |msg| ==> MessageByte(msg[j])
    requires i <= |msg| && jsonPos <= KQT_HANDLE_ERROR_LENGTH - 4
    requires out + Escaped(msg[i..], KQT_HANDLE_ERROR_LENGTH - 4 - jsonPos, false) == total
    requires out == total || jsonPos == KQT_HANDLE_ERROR_LENGTH - 4 || i == |msg|
    ensures out == total
  {
    if i < |msg| {
      assert msg[i..][1..] == msg[i + 1..];
    } else {
      assert msg[i..] == [];
    }
  }

  /** The error object ends with the closing `" }` and fits the error buffer with its terminator. */
  method ErrorText(prefix: string, msg: seq<int>) returns (text: string)
    requires forall i :: 0 <= i < |msg| ==> MessageByte(msg[i])
    requires |prefix| <= KQT_HANDLE_ERROR_LENGTH - 4
    ensures |text| <= KQT_HANDLE_ERROR_LENGTH - 1
    ensures text == prefix + Escaped(msg, KQT_HANDLE_ERROR_LENGTH - 4 - |prefix|, false) + ['"', ' ', '}']
  {
    var escaped := EscapeMessage(msg, |prefix|);
    text := prefix + escaped + ['"', ' ', '}'];
  }

  /** The byte a JSON string character or `\u` escape stands for. */
  function HexValue(c: char): Option<nat> {
    if '0' <= c <= '9' then Some(c as nat - '0' as nat)
    else if 'a' <= c <= 'f' then Some(c as nat - 'a' as nat + 10)
    else if 'A' <= c <= 'F' then Some(c as nat - 'A' as nat + 10)
    else None
  }

  /**
   * The contents of a JSON string (section 7 of RFC 8259) as the code
   * units it denotes; None for an unescaped quote or control character,
   * or a malformed escape.
   */
  function Unescape(s: string): Option<seq<int>> {
    if s == [] then Some([])
    else if s[0] == '\\' then
      if |s| >= 2 && NamedCode(s[1]).Some? then
        match Unescape(s[2..])
        case None => None
        case Some(rest) => Some([NamedCode(s[1]).value] + rest)
      else if |s| >= 6 && s[1] == 'u' && HexQuad(s[2..6]).Some? then
        match Unescape(s[6..])
        case None => None
        case Some(rest) => Some([HexQuad(s[2..6]).value] + rest)
      else None
    else if s[0] == '"' || (s[0] as int) < 0x20 then None
    else
      match Unescape(s[1..])
      case None => None
      case Some(rest) => Some([s[0] as int] + rest)
  }

  /** The code of a two-character escape `\c`. */
  function NamedCode(c: char): Option<int> {
    if c == '"' then Some(34) else if c == '\\' then Some(92)
    else if c == '/' then Some(47) else if c == 'b' then Some(8)
    else if c == 'f' then Some(12) else if c == 'n' then Some(10)
    else if c == 'r' then Some(13) else if c == 't' then Some(9) else None
  }

  /** Four hexadecimal digits of a `\u` escape. */
  function HexQuad(q: string): Option<int>
    requires |q| == 4
  {
    if HexValue(q[0]).Some? && HexValue(q[1]).Some? && HexValue(q[2]).Some? && HexValue(q[3]).Some? then
      Some(4096 * HexValue(q[0]).value + 256 * HexValue(q[1]).value + 16 * HexValue(q[2]).value + HexValue(q[3]).value)
    else None
  }

  /** A message byte read as unsigned. */
  function Unsigned(c: int): int {
    if c < 0 then c + 256 else c
  }

  function UnsignedAll(msg: seq<int>): (r: seq<int>)
    ensures |r| == |msg|
    ensures forall i :: 0 <= i < |msg| ==> r[i] == Unsigned(msg[i])
  {
    seq(|msg|, i requires 0 <= i < |msg| => Unsigned(msg[i]))
  }

  lemma UnescapeByte(ch: int, rest: string)
    requires MessageByte(ch)
    requires Unescape(rest).Some?
    ensures Unescape(EscapeByte(ch, false) + rest) == Some([Unsigned(ch)] + Unescape(rest).value)
  {
    var e := EscapeByte(ch, false);
    if |e| == 2 {
      assert (e + rest)[2..] == rest;
    } else if |e| == 6 {
      assert (e + rest)[6..] == rest;
    } else {
      assert (e + rest)[1..] == rest;
    }
  }

  /**
   * The corrected escaping is a JSON string that denotes exactly the
   * message bytes the loop consumed.
   */
  lemma {:induction false} EscapeRoundTrip(msg: seq<int>, room: int)
    requires forall i :: 0 <= i < |msg| ==> MessageByte(msg[i])
    ensures Unescape(Escaped(msg, room, false)) == Some(UnsignedAll(msg[..Consumed(msg, room, false)]))
  {
    if msg != [] {
      var e := EscapeByte(msg[0], false);
      if |e| > room {
        assert msg[..0] == [];
      } else {
        var rest := Escaped(msg[1..], room - |e|, false);
        var n := Consumed(msg[1..], room - |e|, false);
        EscapeRoundTrip(msg[1..], room - |e|);
        EscapedCons(msg, room, false);
        UnescapeByte(msg[0], rest);
        UnsignedCons(msg, n);
      }
    }
  }

  /** An escape that fits is followed by the escaping of the rest of the message. */
  lemma EscapedCons(msg: seq<int>, room: int, asWritten: bool)
    requires forall i :: 0 <= i < |msg| ==> MessageByte(msg[i])
    requires msg != [] && |EscapeByte(msg[0], asWritten)| <= room
    ensures var e := EscapeByte(msg[0], asWritten);
      Escaped(msg, room, asWritten) == e + Escaped(msg[1..], room - |e|, asWritten) &&
      Consumed(msg, room, asWritten) == 1 + Consumed(msg[1..], room - |e|, asWritten)
  {
  }

  lemma UnsignedCons(msg: seq<int>, n: nat)
    requires n < |msg|
    ensures UnsignedAll(msg[..1 + n]) == [Unsigned(msg[0])] + UnsignedAll(msg[1..][..n])
  {
    assert msg[..1 + n] == [msg[0]] + msg[1..][..n];
  }

  /**
   * As written, a message byte 0x80 (the `char` -128, say the first
   * byte of a UTF-8 sequence) comes out as the six characters backslash,
   * u, f, f, f, f, which a JSON reader takes for U+FFFF instead of the byte.
   */
  lemma NonAsciiByteIsMangled()
    ensures Escaped([-128], 10, true) == ['\\', 'u', 'f', 'f', 'f', 'f']
    ensures Unescape(Escaped([-128], 10, true)) == Some([0xffff])
    ensures Unescape(Escaped([-128], 10, false)) == Some([0x80])
  {
    var mangled := ['\\', 'u', 'f', 'f', 'f', 'f'];
    assert Escaped([-128], 10, true) == mangled + Escaped([], 4, true);
    assert mangled[6..] == [];
    assert HexValue('f') == Some(15);
    assert Unescape(mangled[6..]) == Some([]);
    assert mangled[0] == '\\' && mangled[1] == 'u' && |mangled| == 6;
    assert mangled[2] == 'f' && mangled[3] == 'f' && mangled[4] == 'f' && mangled[5] == 'f';
    assert mangled[2..6] == ['f', 'f', 'f', 'f'];
    assert HexQuad(mangled[2..6]) == Some(0xffff);
    assert NamedCode('u').None?;
    assert Unescape(mangled) == Some([HexQuad(mangled[2..6]).value] + []);
    assert [HexQuad(mangled[2..6]).value] + [] == [0xffff];
    assert Escaped([], 4, true) == [] && Escaped([-128], 10, true) == mangled;
    var raw := [(128 as char)];
    assert Escaped([-128], 10, false) == raw + Escaped([], 9, false);
    assert raw[1..] == [];
    assert Unescape(raw[1..]) == Some([]);
    assert raw[0] != '\\' && raw[0] != '"' && raw[0] as int == 128;
    assert Unescape(raw) == Some([raw[0] as int] + []);
    assert [raw[0] as int] + [] == [0x80];
    assert Escaped([], 9, false) == [] && Escaped([-128], 10, false) == raw;
  }
}

=== FILE: handle_state.dfy ===
/**
 * Opening a composition state directory: the "committed", "workspace"
 * and "oldcommit" subdirectories are inspected, an interrupted commit is
 * repaired by the recovery table, and opening proceeds only from the
 * committed-only state. The directory listing is a value; removing,
 * moving and creating directories change it, and `fsFails` says whether
 * those operating-system calls fail.
 */
module HandleState {

  /** What `path_info` reports for a path; every type other than a directory is `NotDir`. */
  datatype PathType = IsDir | NotDir | PathError

  type Listing = seq<(string, PathType)>

  datatype Dirs = Dirs(committed: bool, workspace: bool, oldcommit: bool)

  predicate HasEntry(l: Listing, name: string) {
    exists i :: 0 <= i < |l| && l[i].0 == name
  }

  function DirsOf(l: Listing): Dirs {
    Dirs(HasEntry(l, "committed"), HasEntry(l, "workspace"), HasEntry(l, "oldcommit"))
  }

  predicate StateName(name: string) {
    name == "committed" || name == "workspace" || name == "oldcommit"
  }

  /** Every state entry of the listing is a directory. */
  predicate ListingOk(l: Listing) {
    forall i :: 0 <= i < |l| && StateName(l[i].0) ==> l[i].1 == IsDir
  }

  /**
   * `inspect_dirs`: scans the entries, flags the three state directories
   * and fails on a state entry that is not a directory; a directory that
   * cannot be opened (`dirOpened` false) or an error already recorded
   * (`errorSet`) also fails it.
   */
  method InspectDirs(l: Listing, dirOpened: bool, errorSet: bool) returns (ok: bool, d: Dirs)
    ensures ok <==> dirOpened && ListingOk(l) && !errorSet
    ensures ok ==> d == DirsOf(l)
  {
    if !dirOpened {
      return false, Dirs(false, false, false);
    }
    d := Dirs(false, false, false);
    var i := 0;
    while i < |l|
      invariant 0 <= i <= |l|
      invariant d == DirsOf(l[..i])
      invariant forall j :: 0 <= j < i && StateName(l[j].0) ==> l[j].1 == IsDir
    {
      var (entry, kind) := l[i];
      assert l[..i + 1] == l[..i] + [l[i]];
      var found := false;
      if entry == "committed" {
        found := true;
        d := d.(committed := true);
      } else if entry == "workspace" {
        found := true;
        d := d.(workspace := true);
      } else if entry == "oldcommit" {
        found := true;
        d := d.(oldcommit := true);
      }
      DirsOfSnoc(l[..i], l[i]);
      if found {
        if kind == PathError {
          return false, d;
        }
        if kind != IsDir {
          return false, d;
        }
      }
      i := i + 1;
    }
    assert l[..i] == l;
    ok := !errorSet;
  }

  lemma DirsOfSnoc(l: Listing, e: (string, PathType))
    ensures DirsOf(l + [e]) == Dirs(
      DirsOf(l).committed || e.0 == "committed",
      DirsOf(l).workspace || e.0 == "workspace",
      DirsOf(l).oldcommit || e.0 == "oldcommit")
  {
    var l' := l + [e];
    assert l'[|l|] == e;
    forall name ensures HasEntry(l', name) <==> HasEntry(l, name) || e.0 == name {
      if HasEntry(l, name) {
        var i :| 0 <= i < |l| && l[i].0 == name;
        assert l'[i] == l[i];
      }
    }
  }

  datatype Class = Inconsistent | NeedsRecovery | Empty | Ready

  /** The classification of `kqt_state_init`. */
  function Classify(d: Dirs): (c: Class)
    ensures c == Ready <==> d == Dirs(true, false, false)
    ensures c == Empty <==> d == Dirs(false, false, false)
    ensures c == Inconsistent <==> d == Dirs(true, true, true) || d == Dirs(false, true, false) || d == Dirs(false, false, true)
    ensures c == NeedsRecovery <==> d == Dirs(true, true, false) || d == Dirs(true, false, true) || d == Dirs(false, true, true)
  {
    if (d.committed && d.workspace && d.oldcommit)
       || (!d.committed && d.workspace && !d.oldcommit)
       || (!d.committed && !d.workspace && d.oldcommit) then Inconsistent
    else if (d.committed && d.workspace && !d.oldcommit)
       || (d.committed && !d.workspace && d.oldcommit)
       || (!d.committed && d.workspace && d.oldcommit) then NeedsRecovery
    else if !d.committed && !d.workspace && !d.oldcommit then Empty
    else Ready
  }

  datatype Action = RemoveWorkspace | RemoveOldcommit | MoveWorkspaceToCommitted

  /** The recovery table: which repair `partial_recovery` makes in each recoverable state. */
  function RecoveryAction(d: Dirs): (a: Action)
    requires Classify(d) == NeedsRecovery
    ensures a == RemoveWorkspace <==> d.committed && d.workspace
    ensures a == RemoveOldcommit <==> d.committed && d.oldcommit
    ensures a == MoveWorkspaceToCommitted <==> !d.committed
  {
    if d.committed && d.workspace && !d.oldcommit then RemoveWorkspace
    else if d.committed && !d.workspace && d.oldcommit then RemoveOldcommit
    else MoveWorkspaceToCommitted
  }

  function Remove(l: Listing, name: string): (r: Listing)
    ensures !HasEntry(r, name)
    ensures forall n :: n != name ==> (HasEntry(r, n) <==> HasEntry(l, n))
    ensures ListingOk(l) ==> ListingOk(r)
  {
    if l == [] then []
    else
      assert l == [l[0]] + l[1..];
      HeadRest(l[0], l[1..]);
      var rest := Remove(l[1..], name);
      if l[0].0 == name then rest
      else
        HeadRest(l[0], rest);
        [l[0]] + rest
  }

  function Rename(l: Listing, from: string, to: string): (r: Listing)
    requires from != to
    ensures !HasEntry(r, from)
    ensures HasEntry(r, to) <==> HasEntry(l, to) || HasEntry(l, from)
    ensures forall n :: n != from && n != to ==> (HasEntry(r, n) <==> HasEntry(l, n))
    ensures ListingOk(l) && StateName(from) && StateName(to) ==> ListingOk(r)
  {
    if l == [] then []
    else
      var rest := Rename(l[1..], from, to);
      var head := if l[0].0 == from then (to, l[0].1) else l[0];
      assert l == [l[0]] + l[1..];
      HeadRest(l[0], l[1..]);
      HeadRest(head, rest);
      [head] + rest
  }

  lemma HeadRest(head: (string, PathType), rest: Listing)
    ensures forall n :: HasEntry([head] + rest, n) <==> head.0 == n || HasEntry(rest, n)
    ensures ListingOk([head] + rest) <==> (StateName(head.0) ==> head.1 == IsDir) && ListingOk(rest)
  {
    var l := [head] + rest;
    forall n ensures HasEntry(l, n) ==> head.0 == n || HasEntry(rest, n) {
      if HasEntry(l, n) && head.0 != n {
        var i :| 0 <= i < |l| && l[i].0 == n;
        assert rest[i - 1] == l[i];
      }
    }
    forall n | HasEntry(rest, n) ensures HasEntry(l, n) {
      var i :| 0 <= i < |rest| && rest[i].0 == n;
      assert l[i + 1] == rest[i];
    }
    assert l[0] == head;
    if ListingOk(l) {
      forall i | 0 <= i < |rest| && StateName(rest[i].0) ensures rest[i].1 == IsDir {
        assert l[i + 1] == rest[i];
      }
    }
  }

  /** The directory state after a successful repair. */
  function Apply(d: Dirs, a: Action): Dirs {
    match a
    case RemoveWorkspace => d.(workspace := false)
    case RemoveOldcommit => d.(oldcommit := false)
    case MoveWorkspaceToCommitted => d.(committed := true, workspace := false)
  }

  /** How many more rounds of `kqt_state_init` a state needs before it is committed-only. */
  function Rounds(d: Dirs): nat {
    match Classify(d)
    case Ready => 0
    case Inconsistent => 0
    case Empty => 1
    case NeedsRecovery => if d.committed then 1 else 2
  }

  /**
   * Following the recovery table, every recoverable state becomes
   * committed-only, in one repair or, from workspace+oldcommit, in two.
   */
  lemma {:induction false} RecoveryReachesCommitted(d: Dirs)
    requires Classify(d) == NeedsRecovery
    ensures var d1 := Apply(d, RecoveryAction(d));
      Rounds(d1) < Rounds(d) &&
      (Classify(d1) == Ready || (Classify(d1) == NeedsRecovery && Classify(Apply(d1, RecoveryAction(d1))) == Ready))
  {
    var d1 := Apply(d, RecoveryAction(d));
    if d.committed {
      assert Classify(d1) == Ready;
    } else {
      assert d1 == Dirs(true, false, true);
      assert Classify(Apply(d1, RecoveryAction(d1))) == Ready;
    }
  }

  datatype InitError =
    | BufferSizeNotPositive
    | NullPath
    | PathInfoFailed
    | NotADirectory
    | InspectFailed
    | InconsistentState
    | RecoveryFailed
    | CreateFailed

  datatype InitResult = InitFailed(error: InitError) | ReachedCommitted

  /**
   * `partial_recovery`: inspects again and makes the repair of the
   * recovery table; `fsFails` makes the removal or move fail.
   */
  method PartialRecovery(l: Listing, fsFails: bool, errorSet: bool) returns (ok: bool, l': Listing)
    requires ListingOk(l) && !errorSet ==> Classify(DirsOf(l)) == NeedsRecovery
    ensures ok <==> ListingOk(l) && !errorSet && !fsFails
    ensures !ok ==> l' == l
    ensures ok ==> DirsOf(l') == Apply(DirsOf(l), RecoveryAction(DirsOf(l))) && ListingOk(l')
  {
    var inspected, d := InspectDirs(l, true, errorSet);
    if !inspected {
      return false, l;
    }
    if fsFails {
      return false, l;
    }
    if d.committed && d.workspace && !d.oldcommit {
      l' := Remove(l, "workspace");
    } else if d.committed && !d.workspace && d.oldcommit {
      l' := Remove(l, "oldcommit");
    } else {
      l' := Rename(l, "workspace", "committed");
    }
    ok := true;
  }

  /**
   * `kqt_state_init` up to the creation of the handle (the source falls
   * off the end after it). `rounds` counts the recursive retries.
   */
  method StateInit(bufferSize: int, path: bool, pathType: PathType, l: Listing, fsFails: bool, errorSet: bool)
    returns (r: InitResult, final: Listing, rounds: nat)
    decreases Rounds(DirsOf(l))
    ensures bufferSize <= 0 ==> r == InitFailed(BufferSizeNotPositive)
    ensures bufferSize > 0 && !path ==> r == InitFailed(NullPath)
    ensures r == ReachedCommitted ==> DirsOf(final) == Dirs(true, false, false) && ListingOk(final)
    ensures (bufferSize > 0 && path && pathType == IsDir && ListingOk(l) && !errorSet &&
             Classify(DirsOf(l)) == Inconsistent) ==> r == InitFailed(InconsistentState)
    // every consistent state reaches committed-only, after at most two retries, when nothing fails
    ensures (bufferSize > 0 && path && pathType == IsDir && ListingOk(l) && !errorSet && !fsFails &&
             Classify(DirsOf(l)) != Inconsistent) ==> r == ReachedCommitted && rounds == Rounds(DirsOf(l)) && rounds <= 2
  {
    final := l;
    rounds := 0;
    if bufferSize <= 0 {
      return InitFailed(BufferSizeNotPositive), final, rounds;
    }
    if !path {
      return InitFailed(NullPath), final, rounds;
    }
    if pathType == PathError {
      return InitFailed(PathInfoFailed), final, rounds;
    }
    if pathType != IsDir {
      return InitFailed(NotADirectory), final, rounds;
    }
    var inspected, d := InspectDirs(l, true, errorSet);
    if !inspected {
      return InitFailed(InspectFailed), final, rounds;
    }
    if (d.committed && d.workspace && d.oldcommit)
       || (!d.committed && d.workspace && !d.oldcommit)
       || (!d.committed && !d.workspace && d.oldcommit) {
      return InitFailed(InconsistentState), final, rounds;
    } else if (d.committed && d.workspace && !d.oldcommit)
       || (d.committed && !d.workspace && d.oldcommit)
       || (!d.committed && d.workspace && d.oldcommit) {
      var recovered, l' := PartialRecovery(l, fsFails, errorSet);
      if !recovered {
        return InitFailed(RecoveryFailed), final, rounds;
      }
      RecoveryReachesCommitted(d);
      r, final, rounds := StateInit(bufferSize, path, pathType, l', fsFails, errorSet);
      rounds := rounds + 1;
      return;
    } else if !d.committed && !d.workspace && !d.oldcommit {
      if fsFails {
        return InitFailed(CreateFailed), final, rounds;
      }
      var l' := l + [("committed", IsDir)];
      DirsOfSnoc(l, ("committed", IsDir));
      r, final, rounds := StateInit(bufferSize, path, pathType, l', fsFails, errorSet);
      rounds := rounds + 1;
      return;
    }
    r := ReachedCommitted;
  }
}

=== FILE: limits.dfy ===
/**
 * Engine-wide limits. The header that defines them is not part of this
 * model; the values below stand in for its constants and every property
 * of the model holds for any positive values.
 */
module Limits {
  const KQT_DEVICE_PORTS_MAX: nat := 16
  const KQT_INSTRUMENTS_MAX: nat := 256
  const KQT_PROCESSORS_MAX: nat := 256
  const KQT_GENERATORS_MAX: nat := 8
  const KQT_DSP_EFFECTS_MAX: nat := 16
  const KQT_COLUMNS_MAX: nat := 64
  const KQT_CHANNELS_MAX: nat := 64
  const PATTERNS_MAX: nat := 1024
  const SUBSONGS_MAX: nat := 256
  const KQT_BUFFER_SIZE_MAX: nat := 1048576
  const EVENT_NAME_MAX: nat := 12
  const EVENT_LEN_MAX: nat := 256
  const INT_MAX: int := 0x7fff_ffff
  const INT64_MIN: int := -0x8000_0000_0000_0000
  const INT64_MAX: int := 0x7fff_ffff_ffff_ffff

  /** C's `int64_t`. */
  newtype int64 = x: int | -0x8000_0000_0000_0000 <= x < 0x8000_0000_0000_0000
  /** C's `uint32_t`. */
  newtype uint32 = x: int | 0 <= x < 0x1_0000_0000
  /** The format tag that prefixes directory headers such as `kqtiXX`. */
  const MAGIC_ID: string := "kqt"
}

=== FILE: make.dfy ===
/**
 * The library test runner of the build script: tests are taken from a
 * queue, a test whose prerequisites have not all finished goes to the back
 * of the queue, and the loop gives up after n*n turns for n tests. Building
 * and running a test are inputs: `built` holds the tests whose build
 * produced an output, `failing` those whose run exits with an error.
 */
module Make {

  /** `defaultdict(lambda: [], {...})`: a test missing from the table has no prerequisites. */
  function Prereqs(deps: map<string, seq<string>>, name: string): (r: seq<string>)
    ensures name !in deps ==> r == []
    ensures name in deps ==> r == deps[name]
  {
    if name in deps then deps[name] else []
  }

  /** The dependency table of the script. */
  function TestDeps(): map<string, seq<string>> {
    map[
      "handle" := ["streader", "tstamp"],
      "player" := ["handle", "streader"],
      "memory" := ["handle"],
      "connections" := ["handle", "player"],
      "generator" := ["connections"],
      "instrument" := ["connections"],
      "dsp" := ["connections"],
      "validation" := ["handle"]
    ]
  }

  /** Every test runs after the tests it depends on: `order[i]`'s prerequisites all occur before it. */
  ghost predicate RespectsDeps(deps: map<string, seq<string>>, order: seq<string>) {
    forall i, j :: 0 <= i < |order| && 0 <= j < |Prereqs(deps, order[i])| ==>
      Prereqs(deps, order[i])[j] in order[..i]
  }

  /** The `for prereq in deps[name]` scan that stops at the first unfinished prerequisite. */
  method PrereqsFinished(prereqs: seq<string>, finished: set<string>) returns (ok: bool)
    ensures ok <==> forall j :: 0 <= j < |prereqs| ==> prereqs[j] in finished
  {
    ok := true;
    var j := 0;
    while j < |prereqs|
      invariant 0 <= j <= |prereqs|
      invariant forall k :: 0 <= k < j ==> prereqs[k] in finished
    {
      if prereqs[j] !in finished {
        return false;
      }
      j := j + 1;
    }
  }

  datatype Outcome =
    | AllFinished
    /** RuntimeError: the iteration bound was exceeded with tests still queued. */
    | Stuck(queued: seq<string>)
    /** A test run failed: its binary is removed and the script exits with status 1. */
    | TestFailed(name: string)

  /** What the loop keeps: finished tests are exactly those taken up, in dependency order, none of them failed. */
  ghost predicate Ran(deps: map<string, seq<string>>, built: set<string>, failing: set<string>,
                      order: seq<string>, finished: set<string>) {
    (forall x :: x in finished <==> x in order) &&
    RespectsDeps(deps, order) &&
    forall i :: 0 <= i < |order| ==> order[i] !in built || order[i] !in failing
  }

  lemma RanStep(deps: map<string, seq<string>>, built: set<string>, failing: set<string>,
                order: seq<string>, finished: set<string>, name: string)
    requires Ran(deps, built, failing, order, finished)
    requires forall j :: 0 <= j < |Prereqs(deps, name)| ==> Prereqs(deps, name)[j] in finished
    ensures RespectsDeps(deps, order + [name])
    ensures forall x :: x in finished <==> x in (order + [name])[..|order|]
    ensures name !in built || name !in failing ==> Ran(deps, built, failing, order + [name], finished + {name})
  {
    var order' := order + [name];
    assert order'[..|order|] == order;
    forall i, j | 0 <= i < |order'| && 0 <= j < |Prereqs(deps, order'[i])|
      ensures Prereqs(deps, order'[i])[j] in order'[..i]
    {
      if i < |order| {
        assert order'[..i] == order[..i];
      }
    }
  }

  /**
   * `test_libkunquat`'s scheduling loop. `order` lists the tests that were
   * built and run, in the order they were taken up.
   */
  method RunTests(names: seq<string>, deps: map<string, seq<string>>, built: set<string>, failing: set<string>)
    returns (outcome: Outcome, order: seq<string>, finished: set<string>)
    ensures RespectsDeps(deps, order)
    ensures outcome.AllFinished? ==> multiset(order) == multiset(names)
    ensures outcome.AllFinished? || outcome.Stuck? ==> Ran(deps, built, failing, order, finished)
    ensures outcome.Stuck? ==> multiset(order) + multiset(outcome.queued) == multiset(names) && outcome.queued != []
    ensures outcome.TestFailed? ==>
      |order| > 0 && order[|order| - 1] == outcome.name && outcome.name in built && outcome.name in failing &&
      forall x :: x in finished <==> x in order[..|order| - 1]
    // with no dependencies at all the n*n bound is never reached
    ensures (forall i :: 0 <= i < |names| ==> Prereqs(deps, names[i]) == []) ==> !outcome.Stuck?
  {
    var queue := names;
    var maxIters := |names| * |names|;
    order := [];
    finished := {};
    ghost var noDeps := forall i :: 0 <= i < |names| ==> Prereqs(deps, names[i]) == [];
    while queue != []
      invariant multiset(order) + multiset(queue) == multiset(names)
      invariant Ran(deps, built, failing, order, finished)
      invariant noDeps ==> maxIters >= |queue| && forall i :: 0 <= i < |queue| ==> Prereqs(deps, queue[i]) == []
      decreases maxIters + 1
    {
      maxIters := maxIters - 1;
      if maxIters < 0 {
        return Stuck(queue), order, finished;
      }
      var name := queue[0];
      assert queue == [name] + queue[1..];
      queue := queue[1..];
      var prereqs := Prereqs(deps, name);
      var ok := PrereqsFinished(prereqs, finished);
      if !ok {
        queue := queue + [name];
        continue;
      }
      RanStep(deps, built, failing, order, finished, name);
      order := order + [name];
      if name in built && name in failing {
        return TestFailed(name), order, finished;
      }
      finished := finished + {name};
    }
    outcome := AllFinished;
  }
}

=== FILE: math_common.dfy ===
/**
 * Power-of-two helpers on 64-bit integers. An `int64_t` argument that the
 * helpers require to be positive is a bit pattern below 2^63; the bit
 * operations are those of the 64-bit two's complement word.
 */
module MathCommon {

  const INT64_SIGN: bv64 := 0x8000_0000_0000_0000

  /** A positive `int64_t`. */
  predicate Positive(x: bv64) {
    0 < x < INT64_SIGN
  }

  /** x is 1, 2, 4, ...: halving an even number greater than one reaches 1. */
  predicate PowerOfTwo(x: bv64)
    decreases x
  {
    x == 1 || (x > 1 && x & 1 == 0 && PowerOfTwo(x >> 1))
  }

  /** `is_p2`: the lowest set bit is the only one. */
  function IsP2(x: bv64): (r: bool)
    requires Positive(x)
    ensures r <==> PowerOfTwo(x)
  {
    IsP2Bits(x);
    x & (x - 1) == 0
  }

  lemma {:induction false} IsP2Bits(x: bv64)
    requires x > 0
    ensures x & (x - 1) == 0 <==> PowerOfTwo(x)
    decreases x
  {
    if x & 1 == 1 {
      assert x & (x - 1) == x - 1;
    } else {
      var h := x >> 1;
      assert 0 < h < x;
      assert x & (x - 1) == 0 <==> h & (h - 1) == 0;
      IsP2Bits(h);
    }
  }

  /**
   * `next_p2`: smearing the highest set bit into every lower bit and
   * adding one gives the smallest power of two above x.
   */
  method NextP2(x: bv64) returns (r: bv64)
    requires Positive(x)
    ensures x < 0x4000_0000_0000_0000 ==> PowerOfTwo(r) && r > x && r >> 1 <= x && r <= 0x4000_0000_0000_0000
    ensures x < 0x4000_0000_0000_0000 ==> forall p :: PowerOfTwo(p) && p > x ==> p >= r
    // from 2^62 on, the sum leaves the int64_t range and wraps to its minimum
    ensures x >= 0x4000_0000_0000_0000 ==> r == INT64_SIGN
  {
    var y := x;
    y := y | (y >> 1);
    y := y | (y >> 2);
    y := y | (y >> 4);
    y := y | (y >> 8);
    y := y | (y >> 16);
    y := y | (y >> 32);
    r := y + 1;
    if x < 0x4000_0000_0000_0000 {
      assert r > x && r >> 1 <= x && r & (r - 1) == 0 && r <= 0x4000_0000_0000_0000;
      IsP2Bits(r);
      forall p | PowerOfTwo(p) && p > x ensures p >= r {
        IsP2Bits(p);
        SingleBitAbove(p, r, x);
      }
    }
  }

  /** Of two single-bit words, one above x and one whose half is at most x, the first is not smaller. */
  lemma SingleBitAbove(p: bv64, r: bv64, x: bv64)
    requires p > 0 && r > 0 && p & (p - 1) == 0 && r & (r - 1) == 0 && p > x && r >> 1 <= x
    ensures p >= r
  {
  }

  /** The same when p is only at least x, but x itself has more than one bit set. */
  lemma SingleBitAtLeast(p: bv64, r: bv64, x: bv64)
    requires p > 0 && r > 0 && p & (p - 1) == 0 && r & (r - 1) == 0 && p >= x && r >> 1 <= x
    requires x & (x - 1) != 0
    ensures p >= r
  {
  }

  lemma AtLeast(r: bv64, x: bv64)
    requires r > x
    ensures r >= x
  {
  }

  /** r is the least power of two that is at least x. */
  ghost predicate LeastPowerAtLeast(x: bv64, r: bv64) {
    PowerOfTwo(r) && r >= x && forall p :: PowerOfTwo(p) && p >= x ==> p >= r
  }

  /** `ceil_p2`: the least power of two not below x. */
  method CeilP2(x: bv64) returns (r: bv64)
    requires Positive(x)
    ensures x < 0x4000_0000_0000_0000 ==> LeastPowerAtLeast(x, r) && r <= 0x4000_0000_0000_0000
    ensures PowerOfTwo(x) ==> r == x
  {
    if IsP2(x) {
      r := x;
      assert LeastPowerAtLeast(x, r);
      return;
    }
    r := NextP2(x);
    if x < 0x4000_0000_0000_0000 {
      LeastAtLeast(x, r);
    }
  }

  lemma LeastAtLeast(x: bv64, r: bv64)
    requires Positive(x) && !PowerOfTwo(x) && PowerOfTwo(r) && r > x && r >> 1 <= x
    ensures LeastPowerAtLeast(x, r)
  {
    IsP2Bits(x);
    IsP2Bits(r);
    AllAtLeast(x, r);
    AtLeast(r, x);
  }

  lemma AllAtLeast(x: bv64, r: bv64)
    requires x & (x - 1) != 0 && r > 0 && r & (r - 1) == 0 && r >> 1 <= x
    ensures forall p :: PowerOfTwo(p) && p >= x ==> p >= r
  {
    forall p | PowerOfTwo(p) && p >= x ensures p >= r {
      IsP2Bits(p);
      SingleBitAtLeast(p, r, x);
    }
  }

  /** A power of two is its own ceiling, so ceil_p2 is idempotent. */
  method CeilP2Twice(x: bv64) returns (r1: bv64, r2: bv64)
    requires Positive(x) && x < 0x4000_0000_0000_0000
    ensures r1 == r2
  {
    r1 := CeilP2(x);
    r2 := CeilP2(r1);
  }
}

=== FILE: piano.dfy ===
/**
 * The on-screen piano: pressing a pitch plays it on the next channel of a
 * round-robin cycle; releasing it stops the note on the channel it was
 * started on.
 */
module Piano {
  import Limits

  /** `kqt_limits.COLUMNS_MAX` */
  const COLUMNS_MAX: nat := Limits.KQT_COLUMNS_MAX

  /** Events sent to playback: `['.i', n]`, `['n+', cents]`, `['n-', None]`. */
  datatype PlayEvent = SetInstrument(num: int) | NoteOn(cents: real) | NoteOff

  /** The channel handed out after `n` more presses starting from `c`. */
  function ChannelAfter(c: nat, n: nat): (r: nat)
    requires c < COLUMNS_MAX
    ensures r < COLUMNS_MAX
    ensures r == (c + n) % COLUMNS_MAX
    decreases n
  {
    if n == 0 then c
    else
      CycleStep(c, n);
      ChannelAfter((c + 1) % COLUMNS_MAX, n - 1)
  }

  /** Moving one channel on and then n - 1 more is moving n channels on. */
  lemma CycleStep(c: nat, n: nat)
    requires n > 0
    ensures ((c + 1) % COLUMNS_MAX + (n - 1)) % COLUMNS_MAX == (c + n) % COLUMNS_MAX
  {
    var k := (c + 1) / COLUMNS_MAX;
    assert (c + 1) % COLUMNS_MAX + (n - 1) == c + n - COLUMNS_MAX * k;
  }

  class Piano {
    /** pitch in cents -> channel the note was started on */
    var pressed: map<real, nat>
    /** the next value of the channel cycle */
    var nextChannel: nat
    var instNum: int
    /** every `play_event(channel, event)` sent, in order */
    var sent: seq<(nat, PlayEvent)>

    ghost predicate Valid()
      reads this
    {
      nextChannel < COLUMNS_MAX && forall c :: c in pressed ==> pressed[c] < COLUMNS_MAX
    }

    constructor ()
      ensures Valid() && pressed == map[] && nextChannel == 0 && instNum == 0 && sent == []
    {
      pressed := map[];
      nextChannel := 0;
      instNum := 0;
      sent := [];
    }

    /**
     * `press`: the cycle always advances; an already pressed pitch sends
     * nothing, a fresh one is recorded and gets `.i` then `n+`.
     */
    method Press(cents: real)
      requires Valid()
      modifies this
      ensures Valid() && instNum == old(instNum)
      ensures nextChannel == ChannelAfter(old(nextChannel), 1)
      ensures cents in old(pressed) ==> pressed == old(pressed) && sent == old(sent)
      ensures cents !in old(pressed) ==>
        pressed == old(pressed)[cents := old(nextChannel)] &&
        sent == old(sent) + [(old(nextChannel), SetInstrument(instNum)), (old(nextChannel), NoteOn(cents))]
    {
      var ch := nextChannel;
      nextChannel := (nextChannel + 1) % COLUMNS_MAX;
      if cents in pressed {
        return;
      }
      pressed := pressed[cents := ch];
      sent := sent + [(ch, SetInstrument(instNum)), (ch, NoteOn(cents))];
    }

    /** `release`: an unpressed pitch does nothing; a pressed one sends `n-` on its channel. */
    method Release(cents: real)
      requires Valid()
      modifies this
      ensures Valid() && nextChannel == old(nextChannel) && instNum == old(instNum)
      ensures cents !in old(pressed) ==> pressed == old(pressed) && sent == old(sent)
      ensures cents in old(pressed) ==>
        pressed == old(pressed) - {cents} && sent == old(sent) + [(old(pressed)[cents], NoteOff)]
    {
      if cents !in pressed {
        return;
      }
      var ch := pressed[cents];
      pressed := pressed - {cents};
      sent := sent + [(ch, NoteOff)];
    }
  }

  /**
   * A note released after other presses is stopped on the channel it was
   * started on, and a repeated press still consumed a channel.
   */
  method PressTwiceThenRelease() returns (channels: seq<nat>)
    ensures channels == [0, 0]
  {
    var p := new Piano();
    p.Press(1200.0);
    p.Press(1200.0);
    p.Press(700.0);
    assert p.pressed == map[1200.0 := 0, 700.0 := 2];
    p.Release(1200.0);
    channels := [p.sent[0].0, p.sent[|p.sent| - 1].0];
  }
}

=== FILE: player.dfy ===
/**
 * The player: a song, a voice pool and the play state, with the playback
 * mode machine (stopped, playing an event, a pattern or a song). Every
 * change of mode first stops: the voices and all channels are reset and
 * the position, play time and frame count go back to zero.
 *
 * The song, the voice pool, the channels and the play state's own module
 * are not part of this model: a song is seen as its current subsong and
 * the tempo of each subsong, a channel as an opaque state that a reset
 * returns to CHANNEL_RESET, and the voice pool as its count of active
 * voices, which a reset empties.
 */
module Player {
  import opened Wrappers
  import opened Limits
  import Event

  /**
   * The play modes; later modes outrank earlier ones. The header that
   * declares the mode enum is not part of this model, so this order,
   * STOP < PLAY_EVENT < PLAY_PATTERN < PLAY_SONG, is assumed; Player.c
   * relies only on `mode >= PLAY_EVENT` meaning "playing".
   */
  datatype PlayMode = STOP | PLAY_EVENT | PLAY_PATTERN | PLAY_SONG

  function Rank(m: PlayMode): (r: nat)
    ensures r == 0 <==> m == STOP
  {
    match m
    case STOP => 0
    case PLAY_EVENT => 1
    case PLAY_PATTERN => 2
    case PLAY_SONG => 3
  }

  const MAX_VOICES: nat := 1024

  /** What `Song_get_subsong` and `Song_get_tempo` report. */
  datatype Song = Song(subsong: nat, tempo: nat -> real)

  type ChannelState = nat

  /** The state `Channel_reset` leaves a channel in. */
  const CHANNEL_RESET: ChannelState := 0

  const ZERO: Event.Reltime := Event.Reltime(0, 0)

  /** `static int32_t id` of `new_Player`: the id the next player gets. */
  class IdCounter {
    var next: int

    constructor()
      ensures next == 0
    {
      next := 0;
    }
  }

  class VoicePool {
    var active: nat

    constructor()
      ensures active == 0
    {
      active := 0;
    }
  }

  class Playdata {
    var mode: PlayMode
    var freq: nat
    var pattern: int
    var tempo: real
    var subsong: nat
    var orderIndex: nat
    var playFrames: nat
    var playTime: Event.Reltime
    var pos: Event.Reltime
    const channels: array<ChannelState>

    /** A new play state, taken to be stopped at the start of the song's current subsong. */
    constructor(freq: nat, song: Song)
      ensures this.freq == freq && mode == STOP && channels.Length == KQT_COLUMNS_MAX && fresh(channels)
    {
      mode := STOP;
      this.freq := freq;
      pattern := 0;
      subsong := song.subsong;
      tempo := song.tempo(song.subsong);
      orderIndex := 0;
      playFrames := 0;
      playTime := ZERO;
      pos := ZERO;
      channels := new ChannelState[KQT_COLUMNS_MAX](_ => CHANNEL_RESET);
    }
  }

  class Player {
    const id: int
    const song: Option<Song>
    const play: Playdata?
    const voices: VoicePool

    predicate Valid()
      reads this, play
    {
      play != null && song.Some? && play.channels.Length == KQT_COLUMNS_MAX
    }

    /**
     * Everything a stop resets: no voice and no channel is left playing,
     * and the position, play time, frame count and order index are back at zero.
     */
    predicate Rewound()
      requires Valid()
      reads this, play, play.channels, voices
    {
      voices.active == 0 &&
      (forall i :: 0 <= i < KQT_COLUMNS_MAX ==> play.channels[i] == CHANNEL_RESET) &&
      play.playTime == ZERO && play.pos == ZERO && play.playFrames == 0 && play.orderIndex == 0
    }

    /**
     * `new_Player`: a positive mixing rate, a voice count in (0, MAX_VOICES)
     * and a song; the player takes the next id of the shared counter.
     */
    constructor(freq: nat, voiceCount: nat, s: Song, ids: IdCounter)
      requires freq > 0 && 0 < voiceCount < MAX_VOICES
      modifies ids
      ensures Valid() && fresh(play) && fresh(play.channels) && fresh(voices)
      ensures id == old(ids.next) && ids.next == old(ids.next) + 1
      ensures song == Some(s) && play.freq == freq && play.mode == STOP
    {
      voices := new VoicePool();
      song := Some(s);
      play := new Playdata(freq, s);
      id := ids.next;
      ids.next := ids.next + 1;
    }

    /** `Player_mix`: nothing without a play state or a song, otherwise what mixing the song renders. */
    method Mix(nframes: nat, songMix: (Song, nat) -> nat) returns (mixed: nat)
      ensures play == null || song.None? ==> mixed == 0
      ensures play != null && song.Some? ==> mixed == songMix(song.value, nframes)
    {
      if play == null || song.None? {
        return 0;
      }
      return songMix(song.value, nframes);
    }

    /**
     * `Player_stop`: mode STOP, the song's current subsong at its tempo,
     * pattern 0, and everything rewound.
     */
    method Stop()
      requires Valid()
      modifies play, play.channels, voices
      ensures Valid() && Rewound()
      ensures play.mode == STOP && play.pattern == 0
      ensures play.subsong == song.value.subsong && play.tempo == song.value.tempo(song.value.subsong)
      ensures play.freq == old(play.freq)
    {
      play.mode := STOP;
      voices.active := 0;
      for i := 0 to KQT_COLUMNS_MAX
        modifies play.channels
        invariant forall j :: 0 <= j < i ==> play.channels[j] == CHANNEL_RESET
      {
        play.channels[i] := CHANNEL_RESET;
      }
      play.playTime := ZERO;
      play.playFrames := 0;
      play.subsong := song.value.subsong;
      play.tempo := song.value.tempo(play.subsong);
      play.orderIndex := 0;
      play.pattern := 0;
      play.pos := ZERO;
    }

    /** `Player_play_pattern`: a pattern number below PATTERNS_MAX and a positive tempo; stops, then plays the pattern. */
    method PlayPattern(num: int, tempo: real)
      requires Valid() && 0 <= num < PATTERNS_MAX && tempo > 0.0
      modifies play, play.channels, voices
      ensures Valid() && Rewound()
      ensures play.mode == PLAY_PATTERN && play.pattern == num && play.tempo == tempo
      ensures play.subsong == song.value.subsong && play.freq == old(play.freq)
    {
      Stop();
      play.pattern := num;
      play.tempo := tempo;
      play.mode := PLAY_PATTERN;
    }

    /** `Player_play_subsong`: a subsong below SUBSONGS_MAX; stops, then plays it at its own tempo. */
    method PlaySubsong(subsong: nat)
      requires Valid() && subsong < SUBSONGS_MAX
      modifies play, play.channels, voices
      ensures Valid() && Rewound()
      ensures play.mode == PLAY_SONG && play.subsong == subsong && play.tempo == song.value.tempo(subsong)
      ensures play.pattern == 0 && play.freq == old(play.freq)
    {
      Stop();
      play.subsong := subsong;
      play.tempo := song.value.tempo(play.subsong);
      play.mode := PLAY_SONG;
    }

    /** `Player_play_song`: stops, then plays the song's current subsong. */
    method PlaySong()
      requires Valid()
      modifies play, play.channels, voices
      ensures Valid() && Rewound()
      ensures play.mode == PLAY_SONG && play.subsong == song.value.subsong
      ensures play.tempo == song.value.tempo(song.value.subsong)
      ensures play.pattern == 0 && play.freq == old(play.freq)
    {
      Stop();
      play.subsong := song.value.subsong;
      play.mode := PLAY_SONG;
    }

    /**
     * `Player_play_event`: while anything plays (a mode at or above
     * PLAY_EVENT) nothing changes; a stopped player is stopped afresh and
     * set to play events.
     */
    method PlayEvent()
      requires Valid()
      modifies play, play.channels, voices
      ensures Valid()
      ensures Rank(old(play.mode)) >= Rank(PLAY_EVENT) ==>
        unchanged(play) && unchanged(play.channels) && unchanged(voices)
      ensures Rank(old(play.mode)) < Rank(PLAY_EVENT) ==> Rewound() && play.mode == PLAY_EVENT
    {
      if Rank(play.mode) >= Rank(PLAY_EVENT) {
        return;
      }
      Stop();
      play.mode := PLAY_EVENT;
    }
  }

  /** Each new player takes the next id: two players made one after the other differ by one. */
  method TwoPlayers(s: Song) returns (first: int, second: int)
    ensures first == 0 && second == 1
  {
    var ids := new IdCounter();
    var p1 := new Player(44100, 64, s, ids);
    var p2 := new Player(44100, 64, s, ids);
    first, second := p1.id, p2.id;
  }

  /** An event played during a pattern leaves the pattern playing; a stop then ends it. */
  method EventDuringPattern(s: Song, num: int, tempo: real) returns (during: PlayMode, pattern: int, after: PlayMode)
    requires 0 <= num < PATTERNS_MAX && tempo > 0.0
    ensures during == PLAY_PATTERN && pattern == num && after == STOP
  {
    var ids := new IdCounter();
    var p := new Player(44100, 64, s, ids);
    p.PlayPattern(num, tempo);
    p.PlayEvent();
    during, pattern := p.play.mode, p.play.pattern;
    p.Stop();
    after := p.play.mode;
  }

  /** A stopped player asked to play an event plays events, from the start. */
  method EventWhenStopped(s: Song) returns (mode: PlayMode, frames: nat)
    ensures mode == PLAY_EVENT && frames == 0
  {
    var ids := new IdCounter();
    var p := new Player(44100, 64, s, ids);
    p.PlayEvent();
    mode, frames := p.play.mode, p.play.playFrames;
  }
}

=== FILE: processor.dfy ===
/**
 * A processor's voice features: for each output port, a 32-bit mask with
 * one bit per voice feature that says whether the port applies it, and
 * the flag that turns voice signals on. Processor.c is not part of this
 * model: the setters and getters are the bit operations the flag macros
 * define, and a new processor is taken to start with every feature on at
 * every port and voice signals off.
 */
module Processor {
  import opened Limits

  datatype VoiceFeature = Pitch | Force | Cut | Filter | Panning

  /** `VOICE_FEATURE_COUNT_`: one past the last feature. */
  const VOICE_FEATURE_COUNT: nat := 5

  /** The place of a feature in the enumeration. */
  function FeatureIndex(f: VoiceFeature): (i: nat)
    ensures i < VOICE_FEATURE_COUNT
  {
    match f
    case Pitch => 0
    case Force => 1
    case Cut => 2
    case Filter => 3
    case Panning => 4
  }

  /** The features fit in the mask type, one bit each, with the sign bit to spare. */
  lemma FeaturesFit()
    ensures VOICE_FEATURE_COUNT <= 31
  {
  }

  /** `VOICE_FEATURE_FLAG`: the feature's bit. */
  function FeatureFlag(f: VoiceFeature): (b: bv32)
    ensures b != 0 && b & (b - 1) == 0
  {
    1 << FeatureIndex(f)
  }

  /** `VOICE_FEATURES_ALL`: the low VOICE_FEATURE_COUNT bits. */
  const VOICE_FEATURES_ALL: bv32 := (1 << VOICE_FEATURE_COUNT) - 1

  /** Every feature's bit is in the mask of all features, and no two features share a bit. */
  lemma FlagsInAll(f: VoiceFeature, g: VoiceFeature)
    ensures FeatureFlag(f) & VOICE_FEATURES_ALL == FeatureFlag(f)
    ensures f != g ==> FeatureFlag(f) & FeatureFlag(g) == 0
  {
  }

  /** A port's mask with one feature turned on or off. */
  function WithFeature(mask: bv32, f: VoiceFeature, enabled: bool): bv32 {
    if enabled then mask | FeatureFlag(f) else mask & !FeatureFlag(f)
  }

  predicate HasFeature(mask: bv32, f: VoiceFeature) {
    mask & FeatureFlag(f) != 0
  }

  /** Setting a feature decides that feature and leaves every other feature of the mask as it was. */
  lemma {:induction false} WithFeatureThenHas(mask: bv32, f: VoiceFeature, enabled: bool, g: VoiceFeature)
    ensures HasFeature(WithFeature(mask, f, enabled), g) == if g == f then enabled else HasFeature(mask, g)
  {
    FlagsInAll(f, g);
  }

  class Processor {
    const index: nat
    /** `voice_features[port]`: the feature mask of each output port. */
    const voiceFeatures: array<bv32>
    var enableVoiceSupport: bool

    predicate Valid()
      reads this
    {
      voiceFeatures.Length == KQT_DEVICE_PORTS_MAX
    }

    /** `new_Processor`: an index in the processor table. */
    constructor(index: nat)
      requires index < KQT_PROCESSORS_MAX
      ensures Valid() && this.index == index && fresh(voiceFeatures) && !enableVoiceSupport
      ensures forall port :: 0 <= port < KQT_DEVICE_PORTS_MAX ==> voiceFeatures[port] == VOICE_FEATURES_ALL
    {
      this.index := index;
      voiceFeatures := new bv32[KQT_DEVICE_PORTS_MAX](_ => VOICE_FEATURES_ALL);
      enableVoiceSupport := false;
    }

    /** `Processor_set_voice_feature`: turns one feature of one output port on or off. */
    method SetVoiceFeature(port: nat, f: VoiceFeature, enabled: bool)
      requires Valid() && port < KQT_DEVICE_PORTS_MAX
      modifies voiceFeatures
      ensures voiceFeatures[..] == old(voiceFeatures[..])[port := WithFeature(old(voiceFeatures[port]), f, enabled)]
    {
      voiceFeatures[port] := WithFeature(voiceFeatures[port], f, enabled);
    }

    /** `Processor_is_voice_feature_enabled`. */
    predicate IsVoiceFeatureEnabled(port: nat, f: VoiceFeature)
      requires Valid() && port < KQT_DEVICE_PORTS_MAX
      reads this, voiceFeatures
    {
      HasFeature(voiceFeatures[port], f)
    }

    /** `Processor_set_voice_signals`. */
    method SetVoiceSignals(enabled: bool)
      modifies this
      ensures enableVoiceSupport == enabled
    {
      enableVoiceSupport := enabled;
    }

    /** `Processor_get_voice_signals`. */
    method GetVoiceSignals() returns (enabled: bool)
      ensures enabled == enableVoiceSupport
    {
      enabled := enableVoiceSupport;
    }
  }

  /**
   * On a new processor, setting feature f of one port reads back as set,
   * while feature g keeps its (enabled) state on that port when g differs
   * from f, and on every other port.
   */
  method FeatureRoundTrip(port: nat, f: VoiceFeature, enabled: bool, other: nat, g: VoiceFeature)
      returns (got: bool, otherGot: bool)
    requires port < KQT_DEVICE_PORTS_MAX && other < KQT_DEVICE_PORTS_MAX
    ensures got == enabled
    ensures otherGot == if other == port && g == f then enabled else true
  {
    var p := new Processor(0);
    p.SetVoiceFeature(port, f, enabled);
    got := p.IsVoiceFeatureEnabled(port, f);
    WithFeatureThenHas(VOICE_FEATURES_ALL, f, enabled, f);
    WithFeatureThenHas(VOICE_FEATURES_ALL, f, enabled, g);
    FlagsInAll(g, g);
    otherGot := p.IsVoiceFeatureEnabled(other, g);
  }

  /** The voice-signal flag reads back as set. */
  method VoiceSignalsRoundTrip(enabled: bool) returns (got: bool)
    ensures got == enabled
  {
    var p := new Processor(0);
    p.SetVoiceSignals(enabled);
    got := p.GetVoiceSignals();
  }
}

=== FILE: real.dfy ===
/**
 * Numbers that are either a 64-bit fraction or a double. Fraction
 * arithmetic checks, before multiplying, that the products fit in
 * `int64_t`, and falls back to doubles otherwise; fractions are kept in
 * lowest terms by a binary GCD. C's `/` truncates toward zero, which
 * `CDiv` spells out. A double is a `real`; rounding and infinities are
 * not modelled, NaN is.
 */
module Real {
  import opened Divisors
  import opened Limits

  datatype Double = Finite(v: real) | NaN

  function Abs(x: int): nat {
    if x < 0 then -x else x
  }

  /** C's `/` on integers: truncation toward zero. */
  function CDiv(a: int, b: int): int
    requires b != 0
  {
    var q: int := Abs(a) / Abs(b);
    if (a < 0) != (b < 0) then -q else q
  }

  lemma CDivAbs(a: int, b: int)
    requires b != 0
    ensures Abs(CDiv(a, b)) == Abs(a) / Abs(b)
  {
    var q: int := Abs(a) / Abs(b);
    assert q >= 0;
  }

  /** n/d in lowest terms: the numerator and denominator share no factor. */
  ghost predicate Lowest(n: int, d: int) {
    Gcd(Abs(n), Abs(d)) == 1
  }

  /** The fraction n/d denotes the same number as N/D. */
  predicate SameValue(n: int, d: int, nOld: int, dOld: int) {
    n * dOld == nOld * d
  }

  /** The overflow guard of the numerator product in `Real_mul`. */
  predicate MulNumOverflow(n1: int, n2: int) {
    n2 == INT64_MIN || (n1 != 0 && Abs(CDiv(INT64_MAX, n1)) <= Abs(n2))
  }

  /** The overflow guard of the denominator product in `Real_mul`. */
  predicate MulDenOverflow(d1: int, d2: int)
    requires d1 != 0
  {
    CDiv(INT64_MAX, d1) <= d2
  }

  /** The guard of `Real_div` and `Real_cmp` against n * d leaving `int64_t`. */
  predicate CrossOverflow(n: int, d: int)
    requires d != 0
  {
    n == INT64_MIN || CDiv(INT64_MAX, d) <= Abs(n)
  }

  lemma MulMonotone(x: int, y: int, m: nat)
    requires x <= y
    ensures x * m <= y * m
  {
    assert y * m - x * m == (y - x) * m;
  }

  /** Below the quotient INT64_MAX / m, a multiple of m stays below INT64_MAX. */
  lemma BelowQuotient(x: nat, m: nat)
    requires m > 0 && x < INT64_MAX / m
    ensures x * m < INT64_MAX
  {
    var q := INT64_MAX / m;
    assert q * m <= INT64_MAX;
    MulMonotone(x, q - 1, m);
    assert (q - 1) * m == q * m - m;
  }

  lemma AbsMul(a: int, b: int)
    ensures Abs(a * b) == Abs(a) * Abs(b)
  {
  }

  /** When the guard passes, the numerator product fits in `int64_t`. */
  lemma MulNumFits(n1: int, n2: int)
    requires INT64_MIN <= n1 <= INT64_MAX && INT64_MIN <= n2 <= INT64_MAX
    requires !MulNumOverflow(n1, n2)
    ensures INT64_MIN < n1 * n2 < INT64_MAX
  {
    if n1 != 0 {
      CDivAbs(INT64_MAX, n1);
      assert n1 != INT64_MIN;
      BelowQuotient(Abs(n2), Abs(n1));
      AbsMul(n1, n2);
      assert Abs(n2) * Abs(n1) == Abs(n1) * Abs(n2);
    }
  }

  /** When the guard passes, the cross product n * d fits in `int64_t`. */
  lemma CrossFits(n: int, d: int)
    requires INT64_MIN <= n <= INT64_MAX && 0 < d <= INT64_MAX
    requires !CrossOverflow(n, d)
    ensures INT64_MIN < n * d < INT64_MAX
  {
    CDivAbs(INT64_MAX, d);
    BelowQuotient(Abs(n), d);
    AbsMul(n, d);
  }

  /** When both guards of `Real_mul` pass, both products fit in `int64_t`. */
  lemma MulFits(n1: int, d1: int, n2: int, d2: int)
    requires INT64_MIN <= n1 <= INT64_MAX && INT64_MIN <= n2 <= INT64_MAX
    requires 0 < d1 <= INT64_MAX && 0 < d2 <= INT64_MAX
    requires !MulNumOverflow(n1, n2) && !MulDenOverflow(d1, d2)
    ensures INT64_MIN < n1 * n2 < INT64_MAX && 0 < d1 * d2 < INT64_MAX
  {
    MulNumFits(n1, n2);
    CDivAbs(INT64_MAX, d1);
    BelowQuotient(d2, d1);
    MulAtLeast(d1, d2);
  }


  /** Cross-multiplied equality of fractions is equality of their values. */
  lemma SameValueReal(n: int, d: int, nOld: int, dOld: int)
    requires d > 0 && dOld > 0 && SameValue(n, d, nOld, dOld)
    ensures (n as real) / (d as real) == (nOld as real) / (dOld as real)
  {
    assert (n as real) * (dOld as real) == (nOld as real) * (d as real) by {
      assert (n * dOld) as real == (nOld * d) as real;
    }
  }

  /** Cross-multiplied order of fractions is the order of their values. */
  lemma CrossLess(n1: int, d1: int, n2: int, d2: int)
    requires d1 > 0 && d2 > 0
    ensures n1 * d2 < n2 * d1 <==> (n1 as real) / (d1 as real) < (n2 as real) / (d2 as real)
  {
    var x, y := (n1 as real) / (d1 as real), (n2 as real) / (d2 as real);
    assert x * (d1 as real) == n1 as real;
    assert y * (d2 as real) == n2 as real;
    assert (n1 * d2) as real == x * (d1 as real) * (d2 as real);
    assert (n2 * d1) as real == y * (d1 as real) * (d2 as real);
  }

  /**
   * The loops of `Real_normalise` that compute gcd(a, b): common factors
   * of two are counted in k, the rest is the binary GCD of the odd parts.
   */
  method BinaryGcd(a: nat, b: nat) returns (g: nat)
    requires a > 0 && b > 0
    ensures g == Gcd(a, b)
  {
    var num: nat, den: nat := a, b;
    var k: nat := 0;
    while num % 2 == 0 && den % 2 == 0
      invariant num > 0 && den > 0
      invariant Gcd(a, b) == Pow2(k) * Gcd(num, den)
      decreases num
    {
      HalveBoth(num, den, k, Gcd(a, b));
      num, den := num / 2, den / 2;
      k := k + 1;
    }
    ghost var odd := Gcd(num, den);
    assert Gcd(a, b) == Pow2(k) * odd;
    // a do-while loop whose first test (den > 0) holds on entry
    while den > 0
      invariant num > 0
      invariant num % 2 == 1 || den % 2 == 1
      invariant Gcd(num, den) == odd
      decreases num + den
    {
      if den % 2 == 0 {
        HalveDen(num, den);
        den := den / 2;
      } else if num % 2 == 0 {
        HalveNum(num, den);
        num := num / 2;
      } else if den >= num {
        SubtractFromDen(num, den);
        den := (den - num) / 2;
      } else {
        SubtractFromNum(num, den);
        num := (num - den) / 2;
      }
    }
    assert den == 0 && Gcd(num, den) == num;
    assert odd == num;
    // the common factors of two are restored by num <<= k
    g := Pow2(k) * num;
  }

  lemma HalveDen(num: nat, den: nat)
    requires num % 2 == 1 && den > 0 && den % 2 == 0
    ensures Gcd(num, den / 2) == Gcd(num, den) && den / 2 < den
  {
    GcdOddHalf(num, den / 2);
  }

  lemma HalveNum(num: nat, den: nat)
    requires den % 2 == 1 && num > 0 && num % 2 == 0
    ensures Gcd(num / 2, den) == Gcd(num, den) && 0 < num / 2 < num
  {
    GcdComm(num, den);
    GcdOddHalf(den, num / 2);
    GcdComm(num / 2, den);
  }

  lemma SubtractFromDen(num: nat, den: nat)
    requires num % 2 == 1 && den % 2 == 1 && den >= num
    ensures Gcd(num, (den - num) / 2) == Gcd(num, den)
  {
    var h := (den - num) / 2;
    assert den - num == 2 * h;
    GcdSub(num, den);
    GcdOddHalf(num, h);
  }

  lemma SubtractFromNum(num: nat, den: nat)
    requires num % 2 == 1 && den % 2 == 1 && num > den
    ensures Gcd((num - den) / 2, den) == Gcd(num, den) && 0 < (num - den) / 2 < num
  {
    var h := (num - den) / 2;
    assert num - den == 2 * h;
    GcdComm(num, den);
    GcdSub(den, num);
    GcdOddHalf(den, h);
    GcdComm(h, den);
  }

  lemma HalveBoth(num: nat, den: nat, k: nat, total: nat)
    requires num > 0 && den > 0 && num % 2 == 0 && den % 2 == 0
    requires total == Pow2(k) * Gcd(num, den)
    ensures total == Pow2(k + 1) * Gcd(num / 2, den / 2)
  {
    GcdScale(2, num / 2, den / 2);
    assert Gcd(num, den) == 2 * Gcd(num / 2, den / 2);
  }

  /** An odd denominator under INT64_MIN = -2^63 leaves nothing to cancel. */
  lemma MinOverOddIsLowest(d: int)
    requires d > 0 && d % 2 == 1
    ensures Lowest(INT64_MIN, d)
  {
    Pow2Of63();
    GcdOddPow2(d, 63);
    GcdComm(d, Pow2(63));
  }

  lemma {:induction false} Pow2Sum(i: nat, j: nat)
    ensures Pow2(i + j) == Pow2(i) * Pow2(j)
  {
    if i > 0 {
      Pow2Sum(i - 1, j);
    }
  }

  lemma Pow2Of63()
    ensures Pow2(63) == 0x8000_0000_0000_0000
  {
    assert Pow2(16) == 0x1_0000;
    Pow2Sum(16, 16);
    Pow2Sum(32, 16);
    Pow2Sum(48, 15);
    assert Pow2(15) == 0x8000;
  }

  /** Dividing numerator and denominator by a common factor keeps the value. */
  lemma CancelFactor(n: int, d: int, g: nat, nq: int, dq: int, nOld: int, dOld: int)
    requires g > 0 && n == g * nq && d == g * dq
    requires SameValue(n, d, nOld, dOld)
    ensures SameValue(nq, dq, nOld, dOld)
  {
    assert g * (nq * dOld) == g * (nOld * dq);
  }

  /** Halving INT64_MIN over an even denominator keeps the value. */
  lemma HalveMin(d: int, nOld: int, dOld: int)
    requires d % 2 == 0 && nOld == INT64_MIN && dOld == d
    ensures SameValue(INT64_MIN / 2, d / 2, nOld, dOld)
  {
    assert d == 2 * (d / 2);
  }

  /** Dividing both parts by their gcd gives lowest terms, the same value, and no overflow. */
  lemma ReduceByGcd(n: int, d: int, g: nat, nOld: int, dOld: int)
    requires n != 0 && INT64_MIN < n <= INT64_MAX && 0 < d <= INT64_MAX
    requires g == Gcd(Abs(n), d) && SameValue(n, d, nOld, dOld)
    ensures g > 0 && INT64_MIN < n / g <= INT64_MAX && 0 < d / g <= INT64_MAX
    ensures Lowest(n / g, d / g) && SameValue(n / g, d / g, nOld, dOld)
  {
    GcdQuotients(Abs(n), d);
    ExactDivision(n, g);
    MulDiv(g, d / g);
    QuotientBound(Abs(n), g);
    QuotientBound(d, g);
    CancelFactor(n, d, g, n / g, d / g, nOld, dOld);
  }

  lemma QuotientBound(x: nat, g: nat)
    requires g > 0 && x == g * (x / g)
    ensures x / g <= x && (x > 0 ==> x / g > 0)
  {
    if x / g > 0 {
      MulAtLeast(x / g, g);
      assert x == (x / g) * g;
    }
  }

  /** Exact division of a signed numerator by a positive divisor of its magnitude. */
  lemma ExactDivision(n: int, g: nat)
    requires g > 0 && Abs(n) == g * (Abs(n) / g)
    ensures n == g * (n / g) && Abs(n / g) == Abs(n) / g
  {
    var q := Abs(n) / g;
    if n < 0 {
      assert n == g * (-q);
      MulDiv(g, -q);
    } else {
      MulDiv(g, q);
    }
  }

  class Real {
    var isFrac: bool
    var num: int64
    var den: int64
    var doub: Double

    /** `Real_validate_` for a non-null pointer: a positive denominator, or a double that is not NaN. */
    predicate Valid()
      reads this
    {
      if isFrac then den > 0 else !doub.NaN?
    }

    function Value(): real
      reads this
      requires Valid()
    {
      if isFrac then (num as real) / (den as real) else doub.v
    }

    /** `Real_init`: the fraction 1/1. */
    method Init()
      modifies this
      ensures Valid() && isFrac && num == 1 && den == 1 && Value() == 1.0
    {
      InitAsFrac(1, 1);
      assert num == den;
      assert Gcd(den as int, den as int) == den as int;
    }

    /** `Real_init_as_frac`: the given fraction, reduced to lowest terms. */
    method InitAsFrac(numerator: int64, denominator: int64)
      requires denominator > 0
      modifies this
      ensures Valid() && isFrac && Lowest(num as int, den as int)
      ensures SameValue(num as int, den as int, numerator as int, denominator as int)
      ensures Value() == (numerator as real) / (denominator as real)
    {
      isFrac := true;
      num := numerator;
      den := denominator;
      Normalise();
      SameValueReal(num as int, den as int, numerator as int, denominator as int);
    }

    /** `Real_init_as_double` */
    method InitAsDouble(val: Double)
      modifies this
      ensures !isFrac && doub == val
    {
      isFrac := false;
      doub := val;
    }

    function IsFrac(): (r: bool)
      reads this
      requires Valid()
      ensures r == isFrac
    {
      isFrac
    }

    /** `Real_get_denominator`: 1 for a double. */
    function GetDenominator(): (r: int64)
      reads this
      requires Valid()
      ensures r > 0
      ensures isFrac ==> Value() == (GetNumerator() as real) / (r as real)
      ensures !isFrac ==> r == 1
    {
      if !isFrac then 1 else den
    }

    /** `Real_get_numerator`: the numerator, or a double truncated toward zero. */
    function GetNumerator(): (r: int)
      reads this
      requires Valid()
      ensures isFrac ==> r == num as int
      ensures !isFrac && doub.v >= 0.0 ==> 0 <= r && r as real <= doub.v < r as real + 1.0
      ensures !isFrac && doub.v < 0.0 ==> r <= 0 && r as real - 1.0 < doub.v <= r as real
    {
      if isFrac then num as int
      else if doub.v >= 0.0 then doub.v.Floor
      else -((-doub.v).Floor)
    }

    /** `Real_get_double` */
    function GetDouble(): (r: real)
      reads this
      requires Valid()
      ensures r == Value()
    {
      if isFrac then (num as real) / (den as real) else doub.v
    }

    /** `Real_copy`: same representation and value. */
    method Copy(src: Real)
      requires src.Valid()
      modifies this
      ensures Valid() && isFrac == old(src.isFrac)
      ensures isFrac ==> num == old(src.num) && den == old(src.den)
      ensures !isFrac ==> doub == old(src.doub)
      ensures Value() == old(src.Value())
    {
      if src.isFrac {
        isFrac := true;
        num := src.num;
        den := src.den;
        return;
      }
      isFrac := false;
      doub := src.doub;
    }

    /**
     * `Real_normalise`: a zero numerator gets denominator 1, otherwise both
     * parts are divided by their gcd. INT64_MIN = -2^63 cannot be negated,
     * so it is first halved with an even denominator; with an odd one the
     * fraction is already irreducible and is left as it is.
     */
    method Normalise()
      requires Valid()
      modifies this
      ensures Valid() && isFrac == old(isFrac)
      ensures !isFrac ==> doub == old(doub)
      ensures isFrac ==> Lowest(num as int, den as int) && SameValue(num as int, den as int, old(num) as int, old(den) as int)
    {
      if !isFrac {
        return;
      }
      var n: int := num as int;
      var d: int := den as int;
      if n == INT64_MIN {
        if d % 2 == 0 {
          HalveMin(d, old(num) as int, old(den) as int);
          n, d := INT64_MIN / 2, d / 2;
        } else {
          MinOverOddIsLowest(d);
          return;
        }
      }
      if n == 0 {
        den := 1;
        assert Gcd(0, 1) == 1;
        return;
      }
      var g := BinaryGcd(Abs(n), d);
      ReduceByGcd(n, d, g, old(num) as int, old(den) as int);
      num := (n / g) as int64;
      den := (d / g) as int64;
    }

    /**
     * `Real_mul`: a reduced fraction when both operands are fractions and
     * the guards find no overflow, the product of the doubles otherwise.
     */
    method Mul(real1: Real, real2: Real)
      requires real1.Valid() && real2.Valid()
      modifies this
      ensures Valid()
      ensures Value() == old(real1.Value()) * old(real2.Value())
      ensures isFrac <==> old(MulExact(real1, real2))
      ensures isFrac ==> Lowest(num as int, den as int)
    {
      var v1, v2 := real1.Value(), real2.Value();
      ghost var product := v1 * v2;
      assert product == old(real1.Value()) * old(real2.Value());
      if real1.isFrac && real2.isFrac {
        var n1, d1, n2, d2 := real1.num as int, real1.den as int, real2.num as int, real2.den as int;
        var numOverflow := MulNumOverflow(n1, n2);
        var denOverflow := MulDenOverflow(d1, d2);
        if !numOverflow && !denOverflow {
          MulFits(n1, d1, n2, d2);
          isFrac := true;
          num := (n1 * n2) as int64;
          den := (d1 * d2) as int64;
          ghost var n0, d0 := num as int, den as int;
          assert (n0 as real) / (d0 as real) == v1 * v2 by {
            ProductValue(n1, d1, n2, d2, n0, d0, v1, v2);
          }
          Normalise();
          assert Value() == product by {
            SameValueReal(num as int, den as int, n0, d0);
          }
          return;
        }
      }
      isFrac := false;
      doub := Finite(v1 * v2);
    }

    /**
     * `Real_div`: a reduced fraction with its sign on the numerator when
     * both operands are fractions and the guards find no overflow, the
     * quotient of the doubles otherwise. The divisor must not be zero.
     */
    method Div(dividend: Real, divisor: Real)
      requires dividend.Valid() && divisor.Valid()
      requires divisor.Value() != 0.0
      modifies this
      ensures Valid()
      ensures Value() == old(dividend.Value()) / old(divisor.Value())
      ensures isFrac <==> old(DivExact(dividend, divisor))
      ensures isFrac ==> den > 0 && Lowest(num as int, den as int)
    {
      var v1, v2 := dividend.Value(), divisor.Value();
      ghost var quotient := v1 / v2;
      assert quotient == old(dividend.Value()) / old(divisor.Value());
      if dividend.isFrac && divisor.isFrac {
        var n1, d1, n2, d2 := dividend.num as int, dividend.den as int, divisor.num as int, divisor.den as int;
        assert n2 != 0;
        var numOverflow := CrossOverflow(n1, d2);
        var denOverflow := CrossOverflow(n2, d1);
        if !numOverflow && !denOverflow {
          CrossFits(n1, d2);
          CrossFits(n2, d1);
          var n := n1 * d2;
          var d := d1 * n2;
          if d < 0 {
            n, d := -n, -d;
          }
          isFrac := true;
          num := n as int64;
          den := d as int64;
          ghost var n0, d0 := num as int, den as int;
          assert (n0 as real) / (d0 as real) == quotient by {
            QuotientValue(n1, d1, n2, d2, n0, d0, v1, v2);
          }
          Normalise();
          assert Value() == quotient by {
            SameValueReal(num as int, den as int, n0, d0);
          }
          return;
        }
      }
      isFrac := false;
      doub := Finite(v1 / v2);
    }
  }

  /** Both operands are fractions and the guards of `Real_mul` find no overflow. */
  predicate MulExact(x: Real, y: Real)
    reads x, y
    requires x.Valid() && y.Valid()
  {
    x.isFrac && y.isFrac &&
    !MulNumOverflow(x.num as int, y.num as int) && !MulDenOverflow(x.den as int, y.den as int)
  }

  /** Both operands are fractions and the guards of `Real_div` find no overflow. */
  predicate DivExact(x: Real, y: Real)
    reads x, y
    requires x.Valid() && y.Valid()
  {
    x.isFrac && y.isFrac &&
    !CrossOverflow(x.num as int, y.den as int) && !CrossOverflow(y.num as int, x.den as int)
  }

  lemma ProductValue(n1: int, d1: int, n2: int, d2: int, n: int, d: int, v1: real, v2: real)
    requires d1 > 0 && d2 > 0 && n == n1 * n2 && d == d1 * d2
    requires v1 == (n1 as real) / (d1 as real) && v2 == (n2 as real) / (d2 as real)
    ensures (n as real) / (d as real) == v1 * v2
  {
  }

  lemma QuotientValue(n1: int, d1: int, n2: int, d2: int, n: int, d: int, v1: real, v2: real)
    requires d1 > 0 && d2 > 0 && n2 != 0
    requires (n == n1 * d2 && d == d1 * n2) || (n == -(n1 * d2) && d == -(d1 * n2))
    requires d != 0
    requires v1 == (n1 as real) / (d1 as real) && v2 == (n2 as real) / (d2 as real)
    ensures (n as real) / (d as real) == v1 / v2
  {
  }

  /** `Real_mul_float`: the value scaled by a double. */
  function MulFloat(x: Real, d: real): (r: real)
    reads x
    requires x.Valid()
    ensures x.isFrac && x.num == 0 ==> r == 0.0
    ensures d == 1.0 ==> r == x.Value()
    ensures r == x.Value() * d
  {
    x.GetDouble() * d
  }

  /** `Real_validate_`: false for a null pointer. */
  function Validate(x: Real?): (ok: bool)
    reads x
    ensures ok <==> x != null && x.Valid()
  {
    x != null && (if x.isFrac then x.den > 0 else !x.doub.NaN?)
  }

  /**
   * `Real_cmp`: answered from the signs when exactly one numerator is
   * positive, from the cross products when they fit, and from the doubles
   * otherwise; every path orders the two values.
   */
  function Cmp(real1: Real, real2: Real): (r: int)
    reads real1, real2
    requires real1.Valid() && real2.Valid()
    ensures r == -1 <==> real1.Value() < real2.Value()
    ensures r == 1 <==> real1.Value() > real2.Value()
    ensures r == 0 <==> real1.Value() == real2.Value()
  {
    if real1.isFrac && real2.isFrac && real1.num <= 0 && real2.num > 0 then
      SignOrder(real1.num as int, real1.den as int, real2.num as int, real2.den as int);
      -1
    else if real1.isFrac && real2.isFrac && real1.num > 0 && real2.num <= 0 then
      SignOrder(real2.num as int, real2.den as int, real1.num as int, real1.den as int);
      1
    else if real1.isFrac && real2.isFrac &&
            !CrossOverflow(real1.num as int, real2.den as int) && !CrossOverflow(real2.num as int, real1.den as int) then
      var term1 := real1.num as int * real2.den as int;
      var term2 := real2.num as int * real1.den as int;
      CrossLess(real1.num as int, real1.den as int, real2.num as int, real2.den as int);
      CrossLess(real2.num as int, real2.den as int, real1.num as int, real1.den as int);
      if term1 < term2 then -1
      else if term1 > term2 then 1
      else 0
    else
      var val1, val2 := real1.Value(), real2.Value();
      if val1 < val2 then -1
      else if val1 > val2 then 1
      else 0
  }

  lemma SignOrder(n1: int, d1: int, n2: int, d2: int)
    requires d1 > 0 && d2 > 0 && n1 <= 0 && n2 > 0
    ensures (n1 as real) / (d1 as real) < (n2 as real) / (d2 as real)
  {
  }
}

=== FILE: sampleview.dfy ===
/**
 * The range arithmetic of the sample view: the canvas shows frames
 * [start, stop) of a sample of `length` frames, the area zooms and scrolls
 * that range and keeps a horizontal scroll bar in step with it. Python's
 * `//` floors, which is what Dafny's `/` does for a positive divisor.
 */
module SampleView {

  /** `zoom_in` before clamping: each side shrinks by a quarter of the width, keeping at least 8 frames. */
  function ZoomInRange(start: int, stop: int): (r: (int, int))
    ensures var span := stop - start;
      var shrink := (span - 1) / 4;
      r.1 - r.0 == (if 2 * shrink > span - 8 then 8 else span - 2 * shrink)
    ensures r.1 - r.0 >= 8
    ensures stop - start >= 8 ==> start <= r.0 && r.1 <= stop
    ensures stop - start >= 8 ==> r.0 - start == (stop - start - 1) / 4 || r.1 - r.0 == 8
    ensures var m := stop - start - 8;
      2 * ((stop - start - 1) / 4) > m ==> r == (start + m / 2, stop - (m - m / 2))
    ensures var k := (stop - start - 1) / 4;
      2 * k <= stop - start - 8 ==> r == (start + k, stop - k)
  {
    var width := stop - start - 1;
    var shrink := width / 4;
    var maxShrinkTotal := width - 7;
    var (shrinkL, shrinkR) :=
      if shrink * 2 > maxShrinkTotal then (maxShrinkTotal / 2, maxShrinkTotal - maxShrinkTotal / 2)
      else (shrink, shrink);
    (start + shrinkL, stop - shrinkR)
  }

  /**
   * `zoom_out` before clamping: each side widens by half the width, then
   * the range is shifted right to start at 0 if it starts before the
   * sample, or else left to end at `length` if it ends after it.
   */
  function ZoomOutRange(start: int, stop: int, length: int): (r: (int, int))
    ensures r.1 - r.0 == stop - start + 2 * ((stop - start - 1) / 2)
    ensures start - (stop - start - 1) / 2 < 0 ==> r.0 == 0
    ensures start - (stop - start - 1) / 2 >= 0 && stop + (stop - start - 1) / 2 > length ==> r.1 == length
    ensures start - (stop - start - 1) / 2 >= 0 && stop + (stop - start - 1) / 2 <= length ==>
      r == (start - (stop - start - 1) / 2, stop + (stop - start - 1) / 2)
  {
    var width := stop - start - 1;
    var expand := width / 2;
    var s := start - expand;
    var t := stop + expand;
    if s < 0 then (s - s, t - s)
    else if t > length then (s - (t - length), t - (t - length))
    else (s, t)
  }

  /** Zooming out never narrows a non-empty range and grows it to about twice its width. */
  lemma ZoomOutWidens(start: int, stop: int, length: int)
    requires start < stop
    ensures var r := ZoomOutRange(start, stop, length);
      stop - start <= r.1 - r.0 && r.1 - r.0 <= 2 * (stop - start) - 1 && r.0 < r.1
  {
  }

  /**
   * On an empty range (a sample of length 0 has the range (0, 0)) zoom_out
   * produces a reversed range, which `set_range` refuses.
   */
  lemma ZoomOutEmptyRangeIsRefused(s: int, length: int)
    ensures var r := ZoomOutRange(s, s, length); !(r.0 < r.1)
  {
  }

  /** zoom_in never trips the `set_range` assertion, whatever the current range. */
  lemma ZoomInAccepted(start: int, stop: int)
    ensures ZoomInRange(start, stop).0 < ZoomInRange(start, stop).1
  {
  }

  /** `max(0, start)`, `min(length, stop)` */
  function Clamp(start: int, stop: int, length: int): (r: (int, int))
    ensures r.0 >= 0 && r.1 <= length
    ensures r.0 == start || r.0 == 0
    ensures r.1 == stop || r.1 == length
    ensures 0 <= start && stop <= length ==> r == (start, stop)
  {
    (if 0 > start then 0 else start, if length < stop then length else stop)
  }

  class Canvas {
    var length: int
    var start: int
    var stop: int

    constructor ()
      ensures length == 0 && start == 0 && stop == 0
    {
      length := 0;
      start := 0;
      stop := 0;
    }

    /** `set_length` shows the whole sample. */
    method SetLength(newLength: int)
      modifies this
      ensures length == newLength && start == 0 && stop == newLength
    {
      length := newLength;
      start := 0;
      stop := newLength;
    }

    method SetRange(newStart: int, newStop: int)
      modifies this
      ensures length == old(length) && start == newStart && stop == newStop
    {
      start := newStart;
      stop := newStop;
    }

    /**
     * `set_position` moves the range to start at `pos` with the same
     * width; a range leaving [0, length] fails an assertion before
     * anything is stored.
     */
    method SetPosition(pos: int) returns (ok: bool)
      modifies this
      ensures ok <==> 0 <= pos && pos + (old(stop) - old(start)) <= old(length)
      ensures length == old(length)
      ensures ok ==> start == pos && stop - start == old(stop) - old(start)
      ensures !ok ==> start == old(start) && stop == old(stop)
    {
      var posDelta := pos - start;
      var s := start + posDelta;
      var t := stop + posDelta;
      if !(s >= 0) || !(t <= length) {
        return false;
      }
      start, stop := s, t;
      ok := true;
    }
  }

  /** The scroll bar as the area sets it: range, page step and value. */
  datatype ScrollBar = ScrollBar(minimum: int, maximum: int, pageStep: int, value: int)

  /** `_update_scrollbars` */
  function UpdatedScrollBar(bar: ScrollBar, length: int, start: int, stop: int): (r: ScrollBar)
    ensures length == 0 ==> r == bar.(minimum := 0, maximum := 0)
    ensures length != 0 ==>
      (r.minimum == 0 && r.pageStep == stop - start && r.maximum + r.pageStep == length && r.value == start)
  {
    if length == 0 then bar.(minimum := 0, maximum := 0)
    else var width := stop - start;
      ScrollBar(0, length - width, width, start)
  }

  /** With the range inside the sample, the scroll bar's value lies in its range. */
  lemma ScrollValueInRange(bar: ScrollBar, length: int, start: int, stop: int)
    requires length != 0 && 0 <= start <= stop <= length
    ensures var r := UpdatedScrollBar(bar, length, start, stop);
      r.minimum <= r.value <= r.maximum
  {
  }

  class Area {
    const canvas: Canvas
    var bar: ScrollBar

    constructor ()
      ensures fresh(canvas) && canvas.length == 0 && canvas.start == 0 && canvas.stop == 0
      ensures bar == ScrollBar(0, 0, 0, 0)
    {
      canvas := new Canvas();
      bar := ScrollBar(0, 0, 0, 0);
    }

    method SetLength(length: int)
      modifies canvas
      ensures canvas.length == length && canvas.start == 0 && canvas.stop == length
    {
      canvas.SetLength(length);
    }

    /** `set_range`: requires start < stop (an assertion), clamps to the sample and updates the scroll bar. */
    method SetRange(start: int, stop: int) returns (ok: bool)
      modifies this, canvas
      ensures ok <==> start < stop
      ensures canvas.length == old(canvas.length)
      ensures !ok ==> canvas.start == old(canvas.start) && canvas.stop == old(canvas.stop) && bar == old(bar)
      ensures ok ==> (canvas.start, canvas.stop) == Clamp(start, stop, canvas.length)
      ensures ok ==> bar == UpdatedScrollBar(old(bar), canvas.length, canvas.start, canvas.stop)
    {
      if !(start < stop) {
        return false;
      }
      var r := Clamp(start, stop, canvas.length);
      canvas.SetRange(r.0, r.1);
      UpdateScrollBars();
      ok := true;
    }

    method UpdateScrollBars()
      modifies this
      ensures bar == UpdatedScrollBar(old(bar), canvas.length, canvas.start, canvas.stop)
    {
      if canvas.length == 0 {
        bar := bar.(minimum := 0, maximum := 0);
        return;
      }
      var width := canvas.stop - canvas.start;
      bar := ScrollBar(0, canvas.length - width, width, canvas.start);
    }

    method ZoomIn() returns (ok: bool)
      modifies this, canvas
      ensures ok
      ensures canvas.length == old(canvas.length)
      ensures (canvas.start, canvas.stop) ==
        Clamp(ZoomInRange(old(canvas.start), old(canvas.stop)).0, ZoomInRange(old(canvas.start), old(canvas.stop)).1, canvas.length)
      ensures bar == UpdatedScrollBar(old(bar), canvas.length, canvas.start, canvas.stop)
    {
      var start, stop := canvas.start, canvas.stop;
      var width := stop - start - 1;
      var shrink := width / 4;
      var shrinkL, shrinkR := shrink, shrink;
      var maxShrinkTotal := width - 7;
      if shrink * 2 > maxShrinkTotal {
        shrinkL := maxShrinkTotal / 2;
        shrinkR := maxShrinkTotal - shrinkL;
      }
      ok := SetRange(start + shrinkL, stop - shrinkR);
    }

    method ZoomOut() returns (ok: bool)
      modifies this, canvas
      ensures ok <==> old(canvas.start) < old(canvas.stop)
      ensures canvas.length == old(canvas.length)
      ensures ok ==>
        ((canvas.start, canvas.stop) ==
         Clamp(ZoomOutRange(old(canvas.start), old(canvas.stop), canvas.length).0,
               ZoomOutRange(old(canvas.start), old(canvas.stop), canvas.length).1, canvas.length))
      ensures ok ==> bar == UpdatedScrollBar(old(bar), canvas.length, canvas.start, canvas.stop)
      ensures !ok ==> canvas.start == old(canvas.start) && canvas.stop == old(canvas.stop) && bar == old(bar)
    {
      var start, stop := canvas.start, canvas.stop;
      var length := canvas.length;
      var width := stop - start - 1;
      var expand := width / 2;
      start := start - expand;
      stop := stop + expand;
      if start < 0 {
        var shift := -start;
        start := start + shift;
        stop := stop + shift;
      } else if stop > length {
        var shift := stop - length;
        start := start - shift;
        stop := stop - shift;
      }
      ok := SetRange(start, stop);
    }

    /** `scrollContentsBy`: the canvas follows the scroll bar's value. */
    method ScrollContents() returns (ok: bool)
      modifies canvas
      ensures ok <==> 0 <= bar.value && bar.value + (old(canvas.stop) - old(canvas.start)) <= canvas.length
      ensures canvas.length == old(canvas.length)
      ensures ok ==> canvas.start == bar.value && canvas.stop - canvas.start == old(canvas.stop) - old(canvas.start)
      ensures !ok ==> canvas.start == old(canvas.start) && canvas.stop == old(canvas.stop)
    {
      ok := canvas.SetPosition(bar.value);
    }
  }
}

=== FILE: store.dfy ===
/**
 * The editor's transactional composition store: a committed key/value map,
 * a FIFO queue of transactions sent to the audio engine but not yet
 * confirmed, flush barriers that share the transaction id counter, and the
 * `saving` / `modified` flags.
 *
 * A transaction maps keys to optional values; `None` is a tombstone that
 * deletes the key once the engine confirms the transaction.
 */
module Store {
  import opened Wrappers

  /** The values the editor keeps under composition keys (JSON data or raw bytes). */
  datatype Value =
    | Bool(b: bool)
    | Int(i: int)
    | Num(r: real)
    | Str(s: string)
    | List(items: seq<Value>)
    | Dict(fields: map<string, Value>)
    | Bytes(data: seq<int>)

  type Transaction = map<string, Option<Value>>

  datatype Pending = Pending(id: nat, batch: Transaction)

  /** A flush callback, identified by an opaque token. */
  type Callback = nat

  /** Outcome of `__getitem__`: the value, or a `KeyError`. */
  datatype ReadResult = Found(value: Value) | KeyError

  /** Outcome of `confirm_valid_data`. */
  datatype ConfirmOutcome =
    | FlushFired(callback: Callback)
    | Committed
    | QueueEmpty      // popleft on an empty deque raises IndexError
    | IdMismatch      // the head was popped, then the assertion failed

  function FromOption(v: Option<Value>): ReadResult {
    if v.Some? then Found(v.value) else KeyError
  }

  /**
   * `__getitem__`: the value from the newest pending transaction that
   * mentions `key` (a tombstone raises KeyError), else the committed value.
   */
  function Lookup(pending: seq<Pending>, content: map<string, Value>, key: string): ReadResult
    decreases |pending|
  {
    if pending == [] then
      if key in content then Found(content[key]) else KeyError
    else
      var last := pending[|pending| - 1];
      if key in last.batch then FromOption(last.batch[key])
      else Lookup(pending[..|pending| - 1], content, key)
  }

  /** A key no pending transaction mentions is read from the confirmed content. */
  lemma {:induction false} LookupUntouched(pending: seq<Pending>, content: map<string, Value>, key: string)
    requires forall i :: 0 <= i < |pending| ==> key !in pending[i].batch
    ensures Lookup(pending, content, key) == if key in content then Found(content[key]) else KeyError
    decreases |pending|
  {
    if pending != [] {
      var init := pending[..|pending| - 1];
      assert key !in pending[|pending| - 1].batch;
      assert forall i :: 0 <= i < |init| ==> init[i] == pending[i];
      LookupUntouched(init, content, key);
    }
  }

  /** A read answers from the newest pending transaction that mentions the key. */
  lemma {:induction false} LookupNewest(pending: seq<Pending>, content: map<string, Value>, key: string, i: nat)
    requires i < |pending| && key in pending[i].batch
    requires forall j :: i < j < |pending| ==> key !in pending[j].batch
    ensures Lookup(pending, content, key) == FromOption(pending[i].batch[key])
    decreases |pending|
  {
    if i < |pending| - 1 {
      var init := pending[..|pending| - 1];
      assert key !in pending[|pending| - 1].batch;
      assert forall j :: 0 <= j < |init| ==> init[j] == pending[j];
      LookupNewest(init, content, key, i);
    }
  }

  /** `get(key, default)` of a mapping: the read, or `default` on KeyError. */
  function GetOr(pending: seq<Pending>, content: map<string, Value>, key: string, default: Option<Value>): (r: Option<Value>)
    ensures Lookup(pending, content, key).Found? ==> r == Some(Lookup(pending, content, key).value)
    ensures Lookup(pending, content, key).KeyError? ==> r == default
  {
    match Lookup(pending, content, key)
    case Found(v) => Some(v)
    case KeyError => default
  }

  /**
   * The keys `__iter__` yields, gathered by scanning the pending queue
   * newest first: keys set to a value are included, tombstoned keys are
   * excluded from the committed keys only.
   */
  function Scan(pending: seq<Pending>): (r: (set<string>, set<string>))
    ensures forall k :: k in r.0 <==>
      exists i :: 0 <= i < |pending| && k in pending[i].batch && pending[i].batch[k].Some?
    ensures forall k :: k in r.1 <==>
      exists i :: 0 <= i < |pending| && k in pending[i].batch && pending[i].batch[k].None?
    decreases |pending|
  {
    if pending == [] then ({}, {})
    else
      var rest := Scan(pending[..|pending| - 1]);
      var b := pending[|pending| - 1].batch;
      var inc := set k | k in b && b[k].Some?;
      var exc := set k | k in b && b[k].None?;
      assert forall i :: 0 <= i < |pending| - 1 ==> pending[..|pending| - 1][i] == pending[i];
      (rest.0 + inc, rest.1 + exc)
  }

  function IterKeys(pending: seq<Pending>, content: map<string, Value>): set<string> {
    var (inc, exc) := Scan(pending);
    inc + (content.Keys - exc)
  }

  /**
   * Iteration yields `k` iff some pending transaction sets `k`, or `k` is
   * committed and no pending transaction tombstones it.
   */
  lemma IterKeysMembership(pending: seq<Pending>, content: map<string, Value>, k: string)
    ensures k in IterKeys(pending, content) <==>
      (exists i :: 0 <= i < |pending| && k in pending[i].batch && pending[i].batch[k].Some?) ||
      (k in content && forall i :: 0 <= i < |pending| && k in pending[i].batch ==> pending[i].batch[k].Some?)
  {
  }

  /** `_content.update(t)` followed by deleting every key `t` maps to None. */
  function Commit(content: map<string, Value>, t: Transaction): (c: map<string, Value>)
    ensures forall k :: k in t && t[k].None? ==> k !in c
    ensures forall k :: k in t && t[k].Some? ==> k in c && c[k] == t[k].value
    ensures forall k :: k !in t ==> (k in c <==> k in content) && (k in c ==> c[k] == content[k])
  {
    map k | k in (content.Keys + t.Keys) && (k in t ==> t[k].Some?) ::
      if k in t then t[k].value else content[k]
  }

  /**
   * Confirming the head of the queue does not change any read: the merged
   * content under the remaining queue answers every key as before.
   */
  lemma {:induction false} CommitHeadPreservesReads(pending: seq<Pending>, content: map<string, Value>, key: string)
    requires |pending| >= 1
    ensures Lookup(pending[1..], Commit(content, pending[0].batch), key) == Lookup(pending, content, key)
    decreases |pending|
  {
    if |pending| > 1 {
      var last := pending[|pending| - 1];
      assert pending[1..][|pending[1..]| - 1] == last;
      if key !in last.batch {
        assert pending[1..][..|pending[1..]| - 1] == pending[..|pending| - 1][1..];
        CommitHeadPreservesReads(pending[..|pending| - 1], content, key);
      }
    }
  }

  /** Reading right after a put answers from that put for the keys it mentions. */
  lemma ReadYourWrites(pending: seq<Pending>, content: map<string, Value>, p: Pending, key: string)
    ensures Lookup(pending + [p], content, key) ==
      if key in p.batch then FromOption(p.batch[key]) else Lookup(pending, content, key)
  {
    assert (pending + [p])[..|pending|] == pending;
  }

  /**
   * When no key is both set and tombstoned by pending transactions, the
   * keys iteration yields are exactly the keys that can be read.
   */
  lemma {:induction false} IterMatchesReadsWithoutConflicts(pending: seq<Pending>, content: map<string, Value>, key: string)
    requires forall i, j :: (0 <= i < |pending| && 0 <= j < |pending| &&
      key in pending[i].batch && key in pending[j].batch) ==>
      pending[i].batch[key].Some? == pending[j].batch[key].Some?
    ensures key in IterKeys(pending, content) <==> Lookup(pending, content, key).Found?
  {
    IterKeysMembership(pending, content, key);
    if exists i :: 0 <= i < |pending| && key in pending[i].batch {
      var i :| 0 <= i < |pending| && key in pending[i].batch;
      var n := NewestMention(pending, key, i);
      LookupNewest(pending, content, key, n);
    } else {
      LookupUntouched(pending, content, key);
    }
  }

  /** The newest pending transaction mentioning `key`, given one that does. */
  lemma {:induction false} NewestMention(pending: seq<Pending>, key: string, i: nat) returns (n: nat)
    requires i < |pending| && key in pending[i].batch
    ensures i <= n < |pending| && key in pending[n].batch
    ensures forall j :: n < j < |pending| ==> key !in pending[j].batch
    decreases |pending| - i
  {
    if forall j :: i < j < |pending| ==> key !in pending[j].batch {
      n := i;
    } else {
      var j :| i < j < |pending| && key in pending[j].batch;
      n := NewestMention(pending, key, j);
    }
  }

  /**
   * The documented inconsistency: a key set by an older pending transaction
   * and tombstoned by a newer one is yielded by iteration, reading it raises
   * KeyError, and `len` counts only committed keys.
   */
  lemma IterationDisagreesWithReads()
    ensures var pending := [Pending(0, map["k" := Some(Int(1))]), Pending(1, map["k" := None])];
      var content: map<string, Value> := map[];
      "k" in IterKeys(pending, content) && Lookup(pending, content, "k") == KeyError &&
      |IterKeys(pending, content)| != |content|
  {
    var pending := [Pending(0, map["k" := Some(Int(1))]), Pending(1, map["k" := None])];
    IterKeysMembership(pending, map[], "k");
    assert pending[0].batch["k"].Some?;
  }

  class Store {
    var content: map<string, Value>
    var pending: seq<Pending>
    var nextId: nat
    var flushCallbacks: map<nat, Callback>
    var saving: bool
    var modified: bool
    /** Every `(id, transaction)` handed to the audio engine, in order; a flush sends no transaction. */
    var engineLog: seq<(nat, Option<Transaction>)>
    /** Every flush callback called so far, in order. */
    var fired: seq<Callback>

    /**
     * Ids come from one counter: engine messages carry strictly increasing
     * ids below the counter, so do the pending transactions, and flush ids
     * never enter the queue.
     */
    ghost predicate Valid()
      reads this
    {
      (forall i, j :: 0 <= i < j < |engineLog| ==> engineLog[i].0 < engineLog[j].0) &&
      (forall i :: 0 <= i < |engineLog| ==> engineLog[i].0 < nextId) &&
      (forall i, j :: 0 <= i < j < |pending| ==> pending[i].id < pending[j].id) &&
      (forall i :: 0 <= i < |pending| ==> pending[i].id < nextId) &&
      (forall id :: id in flushCallbacks ==> id < nextId) &&
      (forall i :: 0 <= i < |pending| ==> pending[i].id !in flushCallbacks)
    }

    constructor ()
      ensures Valid()
      ensures content == map[] && pending == [] && nextId == 0 && flushCallbacks == map[]
      ensures !saving && !modified && engineLog == [] && fired == []
    {
      content := map[];
      pending := [];
      nextId := 0;
      flushCallbacks := map[];
      saving := false;
      modified := false;
      engineLog := [];
      fired := [];
    }

    /** `__getitem__` */
    function Get(key: string): (r: ReadResult)
      reads this
      ensures r == Lookup(pending, content, key)
    {
      Lookup(pending, content, key)
    }

    /**
     * `__iter__`: a key is yielded when some pending transaction sets it,
     * or when it is committed and no pending transaction deletes it.
     */
    function Keys(): (ks: set<string>)
      reads this
      ensures forall k :: k in ks <==>
        (exists i :: 0 <= i < |pending| && k in pending[i].batch && pending[i].batch[k].Some?) ||
        (k in content && forall i :: 0 <= i < |pending| && k in pending[i].batch ==> pending[i].batch[k].Some?)
    {
      IterKeys(pending, content)
    }

    /** `__len__` counts committed keys only. */
    function Length(): (n: nat)
      reads this
      ensures n == |content.Keys|
    {
      |content|
    }

    /**
     * `put`: takes the next id, sends the transaction to the engine and
     * queues it. Not allowed while saving.
     */
    method Put(t: Transaction, markModified: bool)
      requires Valid() && !saving
      modifies this
      ensures Valid()
      ensures pending == old(pending) + [Pending(old(nextId), t)]
      ensures engineLog == old(engineLog) + [(old(nextId), Some(t))]
      ensures nextId == old(nextId) + 1
      ensures modified == (old(modified) || markModified)
      ensures content == old(content) && flushCallbacks == old(flushCallbacks)
      ensures saving == old(saving) && fired == old(fired)
    {
      var id := nextId;
      nextId := nextId + 1;
      engineLog := engineLog + [(id, Some(t))];
      pending := pending + [Pending(id, t)];
      if markModified {
        modified := true;
      }
    }

    /** `flush`: registers a callback under a fresh id; nothing is queued. */
    method Flush(callback: Callback)
      requires Valid()
      modifies this
      ensures Valid()
      ensures flushCallbacks == old(flushCallbacks)[old(nextId) := callback]
      ensures engineLog == old(engineLog) + [(old(nextId), None)]
      ensures nextId == old(nextId) + 1
      ensures pending == old(pending) && content == old(content)
      ensures modified == old(modified) && saving == old(saving) && fired == old(fired)
    {
      var id := nextId;
      nextId := nextId + 1;
      engineLog := engineLog + [(id, None)];
      flushCallbacks := flushCallbacks[id := callback];
    }

    /**
     * `confirm_valid_data`: a flush id fires its callback once and is
     * unregistered; any other id pops the queue head, which must carry that
     * id, and commits it.
     */
    method ConfirmValidData(id: nat) returns (outcome: ConfirmOutcome)
      requires Valid()
      modifies this
      ensures Valid()
      ensures nextId == old(nextId) && engineLog == old(engineLog)
      ensures modified == old(modified) && saving == old(saving)
      ensures id in old(flushCallbacks) ==>
        outcome == FlushFired(old(flushCallbacks)[id]) &&
        fired == old(fired) + [old(flushCallbacks)[id]] &&
        flushCallbacks == old(flushCallbacks) - {id} &&
        pending == old(pending) && content == old(content)
      ensures id !in old(flushCallbacks) ==> fired == old(fired) && flushCallbacks == old(flushCallbacks)
      ensures id !in old(flushCallbacks) && old(pending) == [] ==>
        outcome == QueueEmpty && pending == [] && content == old(content)
      ensures id !in old(flushCallbacks) && old(pending) != [] ==>
        pending == old(pending)[1..] &&
        (if old(pending)[0].id == id
         then outcome == Committed && content == Commit(old(content), old(pending)[0].batch)
         else outcome == IdMismatch && content == old(content))
    {
      if id in flushCallbacks {
        var cb := flushCallbacks[id];
        fired := fired + [cb];
        flushCallbacks := flushCallbacks - {id};
        return FlushFired(cb);
      }
      if pending == [] {
        return QueueEmpty;
      }
      var head := pending[0];
      pending := pending[1..];
      if head.id != id {
        return IdMismatch;
      }
      content := ApplyTransaction(content, head.batch);
      outcome := Committed;
    }

    /** `__setitem__` is `put({key: value})`. */
    method SetItem(key: string, value: Value)
      requires Valid() && !saving
      modifies this
      ensures Valid()
      ensures pending == old(pending) + [Pending(old(nextId), map[key := Some(value)])]
      ensures engineLog == old(engineLog) + [(old(nextId), Some(map[key := Some(value)]))]
      ensures nextId == old(nextId) + 1 && modified
      ensures content == old(content) && flushCallbacks == old(flushCallbacks)
      ensures saving == old(saving) && fired == old(fired)
      ensures Get(key) == Found(value)
    {
      Put(map[key := Some(value)], true);
      ReadYourWrites(old(pending), content, Pending(old(nextId), map[key := Some(value)]), key);
    }

    /** `__delitem__` is `put({key: None})`. */
    method DelItem(key: string)
      requires Valid() && !saving
      modifies this
      ensures Valid()
      ensures pending == old(pending) + [Pending(old(nextId), map[key := None])]
      ensures engineLog == old(engineLog) + [(old(nextId), Some(map[key := None]))]
      ensures nextId == old(nextId) + 1 && modified
      ensures content == old(content) && flushCallbacks == old(flushCallbacks)
      ensures saving == old(saving) && fired == old(fired)
      ensures Get(key) == KeyError
    {
      Put(map[key := None], true);
      ReadYourWrites(old(pending), content, Pending(old(nextId), map[key := None]), key);
    }

    method SetSaving(enabled: bool)
      modifies this`saving
      ensures saving == enabled
    {
      saving := enabled;
    }

    function IsModified(): bool
      reads this
    {
      modified
    }

    method ClearModifiedFlag()
      modifies this`modified
      ensures !modified
    {
      modified := false;
    }
  }

  /**
   * The merge loop of `confirm_valid_data`, item by item: a value
   * overwrites, a tombstone deletes.
   */
  method ApplyTransaction(content: map<string, Value>, t: Transaction) returns (c: map<string, Value>)
    ensures c == Commit(content, t)
  {
    c := content;
    var todo := t.Keys;
    while todo != {}
      invariant todo <= t.Keys
      invariant forall k :: k in t && k !in todo ==> (t[k].None? ==> k !in c) && (t[k].Some? ==> k in c && c[k] == t[k].value)
      invariant forall k :: (k !in t || k in todo) ==> (k in c <==> k in content) && (k in c ==> c[k] == content[k])
      decreases todo
    {
      var k :| k in todo;
      if t[k].None? {
        c := c - {k};
      } else {
        c := c[k := t[k].value];
      }
      todo := todo - {k};
    }
  }

  /**
   * The store does not order a flush after earlier data: a flush confirmed
   * while an earlier put is still pending fires at once.
   */
  method FlushOvertakesPendingData() returns (fired: seq<Callback>, stillPending: nat)
    ensures fired == [7] && stillPending == 1
  {
    var s := new Store();
    s.Put(map["a" := Some(Int(1))], true);
    s.Flush(7);
    var outcome := s.ConfirmValidData(1);
    fired, stillPending := s.fired, |s.pending|;
  }
}

=== FILE: strings.dfy ===
/**
 * String helpers with Python semantics: `str.split(sep)`, `sep.join(parts)`,
 * `startswith`/`endswith`. Strings are sequences of characters.
 */
module Strings {
  /** `s.startswith(p)` */
  predicate HasPrefix(s: string, p: string) {
    |p| <= |s| && s[..|p|] == p
  }

  /** `s.endswith(p)` */
  predicate HasSuffix(s: string, p: string) {
    |p| <= |s| && s[|s| - |p|..] == p
  }

  /** `s.split(sep)`: always at least one (possibly empty) part. */
  function Split(s: string, sep: char): (parts: seq<string>)
    ensures |parts| >= 1
    ensures forall i :: 0 <= i < |parts| ==> sep !in parts[i]
  {
    if s == [] then [[]]
    else
      var rest := Split(s[1..], sep);
      if s[0] == sep then [[]] + rest
      else [[s[0]] + rest[0]] + rest[1..]
  }

  /** `sep.join(parts)`; the empty list joins to the empty string. */
  function Join(parts: seq<string>, sep: char): string {
    if |parts| == 0 then []
    else if |parts| == 1 then parts[0]
    else parts[0] + [sep] + Join(parts[1..], sep)
  }

  lemma {:induction false} JoinSplit(s: string, sep: char)
    ensures Join(Split(s, sep), sep) == s
  {
    if s != [] {
      JoinSplit(s[1..], sep);
      var rest := Split(s[1..], sep);
      if s[0] == sep {
        assert ([[]] + rest)[1..] == rest;
      } else {
        var q := [[s[0]] + rest[0]] + rest[1..];
        assert q[1..] == rest[1..];
        if |rest| > 1 {
          assert Join(rest, sep) == rest[0] + [sep] + Join(rest[1..], sep);
        }
      }
      assert [s[0]] + s[1..] == s;
    }
  }

  /** Splitting `a + sep + b` splits `a` and `b` independently. */
  lemma {:induction false} SplitAround(a: string, sep: char, b: string)
    ensures Split(a + [sep] + b, sep) == Split(a, sep) + Split(b, sep)
  {
    var s := a + [sep] + b;
    if a == [] {
      assert s[0] == sep && s[1..] == b;
      SplitCons(s, sep);
    } else {
      SplitAround(a[1..], sep, b);
      assert s[0] == a[0] && s[1..] == a[1..] + [sep] + b;
      SplitCons(s, sep);
      SplitCons(a, sep);
      PushAppend(a[0], Split(a[1..], sep), Split(b, sep), sep);
    }
  }

  /** A character in front of parts followed by more parts lands in the first ones. */
  lemma PushAppend(x: char, r: seq<string>, t: seq<string>, sep: char)
    requires |r| >= 1
    ensures PushChar(x, r + t, sep) == PushChar(x, r, sep) + t
  {
    if x != sep {
      assert (r + t)[0] == r[0] && (r + t)[1..] == r[1..] + t;
    }
  }

  /** Joining parts that do not contain the separator can be split back. */
  lemma {:induction false} SplitJoin(parts: seq<string>, sep: char)
    requires |parts| >= 1
    requires forall i :: 0 <= i < |parts| ==> sep !in parts[i]
    ensures Split(Join(parts, sep), sep) == parts
  {
    if |parts| == 1 {
      SplitNoSep(parts[0], sep);
    } else {
      SplitJoin(parts[1..], sep);
      SplitNoSep(parts[0], sep);
      SplitAround(parts[0], sep, Join(parts[1..], sep));
      assert [parts[0]] + parts[1..] == parts;
    }
  }

  lemma {:induction false} SplitNoSep(s: string, sep: char)
    requires sep !in s
    ensures Split(s, sep) == [s]
  {
    if s != [] {
      SplitNoSep(s[1..], sep);
      assert [s[0]] + s[1..] == s;
    }
  }

  /** The parts after one more character: the last part grows, or a new one starts at a separator. */
  function AddChar(p: seq<string>, c: char, sep: char): seq<string>
    requires |p| >= 1
  {
    if c == sep then p + [[]] else p[..|p| - 1] + [p[|p| - 1] + [c]]
  }

  /** The parts after one more character in front: the first part grows, or a new one starts. */
  function PushChar(x: char, r: seq<string>, sep: char): seq<string>
    requires |r| >= 1
  {
    if x == sep then [[]] + r else [[x] + r[0]] + r[1..]
  }

  /** One more character extends the last part, or starts a new one. */
  lemma {:induction false} SplitSnoc(s: string, c: char, sep: char)
    ensures Split(s + [c], sep) == AddChar(Split(s, sep), c, sep)
  {
    if s == [] {
      assert [] + [c] == [c] && [c][1..] == [];
      SplitCons([c], sep);
      assert [c] + [] == [c];
    } else {
      SplitSnoc(s[1..], c, sep);
      assert (s + [c])[0] == s[0] && (s + [c])[1..] == s[1..] + [c];
      SplitCons(s + [c], sep);
      SplitCons(s, sep);
      PushAddCommute(s[0], Split(s[1..], sep), c, sep);
    }
  }

  /** A non-empty string splits as its first character in front of the split of the rest. */
  lemma SplitCons(s: string, sep: char)
    requires s != []
    ensures Split(s, sep) == PushChar(s[0], Split(s[1..], sep), sep)
  {
  }

  /** A character in front and one at the end can be added in either order. */
  lemma PushAddCommute(x: char, r: seq<string>, c: char, sep: char)
    requires |r| >= 1
    ensures PushChar(x, AddChar(r, c, sep), sep) == AddChar(PushChar(x, r, sep), c, sep)
  {
    var p := PushChar(x, r, sep);
    if x == sep {
      if c != sep {
        assert p[..|p| - 1] == [[]] + r[..|r| - 1];
      }
    } else if c != sep {
      var r' := AddChar(r, c, sep);
      if |r| == 1 {
        assert [x] + (r[0] + [c]) == ([x] + r[0]) + [c];
      } else {
        assert r'[0] == r[0] && r'[1..] == r[1..|r| - 1] + [r[|r| - 1] + [c]];
        assert p[..|p| - 1] == [[x] + r[0]] + r[1..|r| - 1];
      }
    }
  }

  /** Python's string order: lexicographic by character code. */
  predicate Below(a: string, b: string)
    decreases |a|
  {
    a == [] || (b != [] && (a[0] < b[0] || (a[0] == b[0] && Below(a[1..], b[1..]))))
  }

  lemma {:induction false} BelowTotal(a: string, b: string)
    ensures Below(a, b) || Below(b, a)
    decreases |a|
  {
    if a != [] && b != [] && a[0] == b[0] {
      BelowTotal(a[1..], b[1..]);
    }
  }

  predicate Sorted(s: seq<string>) {
    forall i :: 0 <= i < |s| - 1 ==> Below(s[i], s[i + 1])
  }

  function Insert(x: string, s: seq<string>): (r: seq<string>)
    requires Sorted(s)
    ensures Sorted(r) && multiset(r) == multiset(s) + multiset{x}
    ensures |r| >= 1 && (r[0] == x || (|s| >= 1 && r[0] == s[0]))
  {
    if s == [] then [x]
    else if Below(x, s[0]) then [x] + s
    else
      BelowTotal(x, s[0]);
      assert s == [s[0]] + s[1..];
      [s[0]] + Insert(x, s[1..])
  }

  /** `sorted(list_of_strings)` */
  function Sort(s: seq<string>): (r: seq<string>)
    ensures Sorted(r) && multiset(r) == multiset(s) && |r| == |s|
  {
    if s == [] then []
    else
      assert s == [s[0]] + s[1..];
      Insert(s[0], Sort(s[1..]))
  }
}

=== FILE: values.dfy ===
/**
 * The engine's tagged value. The header that defines it is not part of
 * this model; the variants below are the ones the modelled code reads or
 * writes, with doubles as exact reals.
 */
module Values {
  datatype Value =
    | NoneValue
    | BoolValue(b: bool)
    | IntValue(i: int)
    | FloatValue(f: real)
    | TstampValue(beats: int, rem: int)
    | StringValue(s: string)
}

=== FILE: wrappers.dfy ===
/** Optional values and results shared by every module of the model. */
module Wrappers {
  datatype Option<T> = None | Some(value: T)

  datatype Result<T, E> = Ok(value: T) | Err(error: E)
}
